=== FILE: README.md ===
# Inkwell core, modelled in Dafny

Inkwell is a blog platform with three parts:

- an Express **server** that stores posts and user profiles;
- an **admin** client where authors sign up, write and manage their posts and edit their profile;
- a public **client** where readers browse the published posts.

This project models the logic those three parts share and the decisions each one makes:

- **Schemas.** The post, profile and sign-up schemas, with their trimming, length bounds, full-name pattern and password confirmation, in the order the validation library reports its issues.
- **Field-error map.** The loop that turns the library's issues into a field-error map (`err.path[0]` as key, a later issue overwriting an earlier one).
- **Post handlers.** The server's post handlers and its username-availability check, each a function of the request and of what the store answered.
- **Request wrappers.** The two clients' `fetchApi` wrappers, and how each turns a response into a value or a thrown error.
- **Client helpers.** The page-number window of the public pagination bar, the reading-time estimate, and the tag parsing of the post editor.
- **Client state.** The small state machines of the admin pages, each modelled as a class whose methods update its fields: the blog list, the post form, the three-step registration wizard, the settings page and the debounced username check.

The store, the network, the authentication library and the clock are not modelled. Where a handler or client waits for one of them, the answer it gets is a parameter: an `Outcome<T>` that is either a value or an exception. A response as the client sees it is a `Received` record, and `Http.Delivered` connects the server's responses to the clients. Lemmas therefore follow one request from the server's handler through to the value or error the client ends up with.

JavaScript semantics that matter here are written out:

- `trim` and the `\s` class;
- `split` on one character;
- `parseInt` and `|| fallback`;
- truthiness, and `typeof null === "object"`;
- `Math.ceil`;
- template literals that print `undefined`;
- `String(x)` in the `Error` constructor.

## Model

| member | source | states |
|---|---|---|
| Issues.CollectFieldErrors | server/src/controllers/posts.controller.ts:21-24 | the `forEach` loop builds exactly the field-error map `FieldErrors` of the issue list |
| Issues.FieldErrorsLastWins | server/src/controllers/posts.controller.ts:22-23 | a key is in the map iff some issue's first path segment is that (truthy) key, and its value is the message of the last such issue |
| Issues.FieldErrorsAppend | server/src/controllers/posts.controller.ts:23 | an issue appended at a non-empty field overwrites that field's entry and leaves the rest of the map alone |
| Issues.FieldErrorsEmptyWhenKeyless | server/src/controllers/posts.controller.ts:23 | issues whose first path segment is falsy (empty path, `""`, index 0) leave the map empty |
| Issues.MinLength | server/src/types/posts.schema.ts:7 | a `min` check adds no issue iff the length reaches the bound, else one issue at the field |
| Issues.MaxLength | server/src/types/posts.schema.ts:8 | a `max` check adds no issue iff the length is within the bound, else one issue at the field |
| Issues.FindAtFirst | admin/src/pages/RegisterPage.tsx:44-46 | `issues.find(issue => issue.path.includes(key))`: None iff no issue's path mentions the key; otherwise the first issue that does |
| Issues.FindAtConcat | admin/src/pages/RegisterPage.tsx:44-46 | the search looks through the earlier issues before the later ones |
| Issues.FindAtOtherField | admin/src/pages/RegisterPage.tsx:44-46 | issues that all sit at another field never match the key |
| Issues.UnmentionedKeyHasNoEntry | admin/src/pages/RegisterPage.tsx:80-83 | a non-numeric key that no issue mentions gets no entry in the field-error map |
| Issues.MiddleFieldMessage | server/src/controllers/posts.controller.ts:22-24 | when only one run of issues is headed by a key, all with one message, the `forEach` map holds that message under the key |
| Issues.HasHeadKeyConcat | server/src/controllers/posts.controller.ts:22-23 | a head key occurs in a concatenation iff it occurs in one of the parts |
| PostSchema.TrimmedTextIssues | server/src/types/posts.schema.ts:4-14 | a trimmed text field reports no issue iff it is a string whose trimmed length is within its bounds; every issue is at that field |
| PostSchema.LengthIssues | server/src/types/posts.schema.ts:4-13 | the min and max checks together are silent iff the length is within both bounds |
| PostSchema.TagElementIssues | server/src/types/posts.schema.ts:16 | no issue iff every array element is a string; each issue sits at `tags[i]` |
| PostSchema.TagsIssues | server/src/types/posts.schema.ts:16 | every tags issue has `tags` as its first path segment |
| PostSchema.ValidatePost | server/src/types/posts.schema.ts:3-17 | success iff every field is acceptable; on success the record holds the trimmed title (4..100), excerpt (10..500) and non-empty content, with `published` and the tag strings carried over; on failure the non-empty issue list |
| PostSchema.ValidateFields | server/src/types/posts.schema.ts:3-17 | on the five field values: success iff each passes, the trimmed strings, the flag and the tag strings on success, the non-empty issue list on failure |
| PostSchema.FieldsIssuesEmpty | server/src/types/posts.schema.ts:3-17 | the fields report no issue exactly when every field passes |
| PostSchema.PostFieldErrorKeys | server/src/controllers/posts.controller.ts:19-25 | the 400 map has a key exactly for each schema field that fails; a body that is not an object gives an empty map |
| PostSchema.FieldsHeadKeys | server/src/types/posts.schema.ts:3-17 | the five fields' issues carry a field key exactly for each field that fails |
| PostSchema.UnknownKeysIgnored | server/src/types/posts.schema.ts:3-17 | keys outside the five schema fields change neither the verdict nor the parsed record |
| PostsController.CreatePost | server/src/controllers/posts.controller.ts:13-36 | 400 with the field map and no store call iff the body is invalid; otherwise inserts the validated post with the caller as author, 201 "Post Created" when the insert returns, 500 with its message when it throws |
| PostsController.EditUserPost | server/src/controllers/posts.controller.ts:78-105 | 404 iff the post id is empty; then 400 iff the body is invalid; otherwise updates the caller's post with the validated data, 200 or 500 |
| PostsController.RemoveUserPost | server/src/controllers/posts.controller.ts:107-125 | 404 iff the post id is empty; otherwise deletes the caller's post, 204 with no body when the store returns, 500 when it throws |
| PostsController.GetPostDetails | server/src/controllers/posts.controller.ts:62-76 | always queries the caller's post; 200 with whatever the store returned (no not-found branch), 500 on a throw |
| PostsController.GetPublishedPosts | server/src/controllers/posts.controller.ts:128-136 | 200 with `{data: rows}`, or 500 whose body is a bare JSON string rather than a `{message}` object |
| PostsController.GetPublishedPostBySlug | server/src/controllers/posts.controller.ts:138-147 | queries by slug; 200 with the row, 500 with a message on a throw |
| PostsController.QueryNumber | server/src/controllers/posts.controller.ts:43-44 | `parseInt(q) \|\| fallback`: the parsed number unless it is missing, not a number or zero; never zero when the fallback is non-zero |
| PostsController.PageParam | server/src/controllers/posts.controller.ts:43 | the page is never zero: 1 when the query is absent, the parsed number when it parses to a non-zero one |
| PostsController.LimitParam | server/src/controllers/posts.controller.ts:44 | the limit is never zero: 20 when the query is absent, the parsed number when it parses to a non-zero one |
| PostsController.PageParamEcho | server/src/controllers/posts.controller.ts:43-44 | any non-zero page or limit printed in decimal is read back unchanged |
| PostsController.GetUserPosts | server/src/controllers/posts.controller.ts:38-60 | queries the caller's page with a non-zero page and limit; 200 reports `total` as the number of rows on the page and `totalPages` as its ceiling division by the limit; 500 on a throw |
| PostsController.ReportedPagesAtMostOne | server/src/controllers/posts.controller.ts:48-54 | as written, whenever the store returns at most `limit` rows the reported page count is 0 or 1 |
| PostsController.TotalPagesCounterexample | server/src/controllers/posts.controller.ts:48-54 | the page of 9 rows from 25 posts with limit 9 is reported as 1 page, where there are 3 |
| PostsController.GetUserPostsCounted | server/src/controllers/posts.controller.ts:38-60 | corrected listing: `total` is the caller's post count and `totalPages` its ceiling division by the limit |
| PostsController.CountedPagesCoverAll | server/src/controllers/posts.controller.ts:54 | with the full count, every post's page lies within 1..totalPages |
| PostsController.CountedPagesNonEmpty | server/src/controllers/posts.controller.ts:54 | with the full count, every page in 1..totalPages starts before the last post |
| PostsController.CreateOnlyAddsCallersPost | server/src/controllers/posts.controller.ts:27-29 | a create adds exactly the validated post to the caller's posts when it answers 201, and never touches another author's posts |
| PostsController.AfterCreateByAuthor | server/src/controllers/posts.controller.ts:27-29 | a handled create whose insert is the caller's leaves the author's posts extended by the inserted post on 201, and unchanged otherwise |
| PostsController.CreateEditAgreeOnInvalid | server/src/controllers/posts.controller.ts:19-26 | create and edit (with an id) answer an invalid body with the same 400 and no store call |
| UsersController.CheckUsername | server/src/controllers/users.controller.ts:4-34 | no answer without a query; 404 iff the name is empty; 400 iff it has a character outside letters, digits, `_` and the Kelvin sign (U+212A, which lower-cases to 'k'); otherwise the lower-cased name is looked up: 409 when taken, 200 when free, 500 when the lookup throws |
| UsersController.LowerIdempotent | server/src/controllers/users.controller.ts:8 | lower-casing twice is lower-casing once |
| UsersController.CaseInsensitive | server/src/controllers/users.controller.ts:8-26 | two names that differ only in letter case get the same answer and the same lookup |
| ProfileSchema.IdIssues | server/src/types/users.schema.ts:5 | the id reports nothing iff it is a string, and aborts iff it is not |
| ProfileSchema.NameIssues | server/src/types/users.schema.ts:6 | the name reports nothing iff it is a string of at least 4 characters, and aborts only on the wrong type |
| ProfileSchema.UsernameIssues | server/src/types/users.schema.ts:7 | the username reports nothing iff it is a string that is not blank once trimmed |
| ProfileSchema.EmailIssues | server/src/types/users.schema.ts:8 | the e-mail reports nothing iff it is a string the format check accepts |
| ProfileSchema.OptionalStringIssues | server/src/types/users.schema.ts:9-10 | an optional string field reports nothing iff it is absent or a string |
| ProfileSchema.WebsiteIssues | server/src/types/users.schema.ts:11 | the website reports nothing iff absent, empty, or a URL the check accepts |
| ProfileSchema.BioIssues | server/src/types/users.schema.ts:12-16 | the bio reports nothing iff absent or a string of at most 180 characters once trimmed |
| ProfileSchema.ShapeIssues | server/src/types/users.schema.ts:4-17 | the field checks abort (skip the refinement) iff some field has the wrong type |
| ProfileSchema.ValidateProfile | server/src/types/users.schema.ts:3-21 | success iff every field passes and the name is two or more space-separated words of letters, otherwise exactly the collected issues; the parsed profile keeps id, name, e-mail, image, cover image and website as sent, trims username and bio, and keeps the bio present iff it was sent |
| ProfileSchema.ProfileIssuesEmpty | server/src/types/users.schema.ts:3-21 | the schema reports no issue iff the body is an object whose every field passes and whose name is a full name |
| ProfileSchema.ServerAdminAgree | admin/src/schemas/userData.schema.ts:22-40 | the admin copy of the profile schema accepts the same bodies as the server's and parses them alike |
| ProfileSchema.NamePatternReported | server/src/types/users.schema.ts:18-21 | with the types right, a name that is not a full name is reported under `name` with the refinement's message |
| ProfileSchema.AcceptedNameHasTwoWords | server/src/types/users.schema.ts:18-21 | an accepted name splits on spaces into at least two non-empty words of ASCII letters |
| SignUpSchemas.MinStringIssues | admin/src/schemas/userData.schema.ts:5-10 | a string field with a minimum (of its trimmed or raw length) reports nothing iff it reaches it, and aborts only on the wrong type |
| SignUpSchemas.EmailIssues | admin/src/schemas/userData.schema.ts:6 | the e-mail reports nothing iff it is a string the format check accepts; every issue sits at `email` with the schema's own message "Invalid email address", a missing or non-string value included, and only that case aborts |
| SignUpSchemas.AdminShapeIssues | admin/src/schemas/userData.schema.ts:4-12 | the admin field checks abort iff some field has the wrong type |
| SignUpSchemas.ValidateAdminSignUp | admin/src/schemas/userData.schema.ts:3-20 | success iff trimmed name of 4+ characters that is a full name, a non-empty username, a valid e-mail, a password of 8+ characters and a matching confirmation; the record holds the trimmed name and, unchanged, the e-mail, username, password and confirmation that were sent |
| SignUpSchemas.AdminEmailTypeReported | admin/src/schemas/userData.schema.ts:6 | a missing or non-string e-mail ends up in the form's field-error map under `email` with "Invalid email address", not the library's wrong-type text |
| SignUpSchemas.AdminMismatchReported | admin/src/schemas/userData.schema.ts:13-16 | with the types right, a mismatch is reported under `confirmPassword` |
| SignUpSchemas.ReaderShapeIssues | client/src/schemas/userData.schema.ts:4-11 | the reader field checks abort iff some field has the wrong type |
| SignUpSchemas.ValidateReaderSignUp | client/src/schemas/userData.schema.ts:3-15 | success iff an untrimmed name of 4+ characters, a valid e-mail, a password of 8+ characters and a matching confirmation; the record holds the name, e-mail, password and confirmation exactly as sent |
| SignUpSchemas.ReaderMismatchReported | client/src/schemas/userData.schema.ts:12-15 | with the types right, a mismatch is reported under `confirmPassword` |
| SignUpSchemas.AdminAcceptedIsReaderAccepted | client/src/schemas/userData.schema.ts:3-15 | every sign-up the admin schema accepts the reader schema accepts too |
| SignUpSchemas.ReaderIgnoresUsername | client/src/schemas/userData.schema.ts:4-11 | the reader schema's verdict and record do not depend on a `username` key |
| Text.Trim | server/src/types/posts.schema.ts:4 | `trim()`: the result has no leading or trailing white space and is no longer than the input |
| Text.TrimEmptyIffBlank | server/src/types/posts.schema.ts:4 | trimming gives the empty string iff the input is blank |
| Text.TrimOfTrimmed | server/src/types/posts.schema.ts:4 | trimming a trimmed string changes nothing |
| Text.ToLower | server/src/controllers/users.controller.ts:8 | same length, each character lower-cased (ASCII letters and the Kelvin sign) |
| Text.LowerKeepsWordChars | server/src/controllers/users.controller.ts:8-17 | a lower-cased name passes the `[a-zA-Z0-9_]+` check iff the name is non-empty and made of letters, digits, `_` and the Kelvin sign; a name that passes before lower-casing still passes after |
| Text.SplitOn | admin/src/pages/Settings.tsx:38 | `split(c)` gives at least one piece and no piece holds the separator |
| Text.JoinSplitOn | admin/src/features/blogs/BlogForm.tsx:47-48 | joining the pieces of a split with the separator gives back the string |
| Text.SplitRunsWords | client/src/lib/utils.ts:9 | splitting a trimmed non-blank text on `/\s+/` gives non-empty words without white space whose concatenation is the text without its white space |
| Text.SplitRunsCount | client/src/lib/utils.ts:9 | splitting on `/\s+/` gives exactly one piece more than there are maximal runs of white space |
| Text.CeilDiv | client/src/lib/utils.ts:10 | `Math.ceil(a / b)`: the least r with a <= r*b for positive b |
| Text.ParseIntString | server/src/controllers/posts.controller.ts:43 | `parseInt` reads back any integer printed in decimal |
| Text.FullNameHasTwoWords | admin/src/schemas/userData.schema.ts:17 | a string the full-name pattern accepts splits on spaces into at least two non-empty words of letters |
| Text.FullNameWords | admin/src/schemas/userData.schema.ts:17 | the pattern `^[A-Za-z]+( [A-Za-z]+)+$` holds iff the string splits on spaces into two or more non-empty words of letters |
| ReadingTime.MinutesFor | client/src/lib/utils.ts:10 | for positive words-per-minute, the least whole number of minutes (at least one) that covers the words; zero wpm gives Infinity (for the positive word counts the page produces); negative wpm gives 1 |
| ReadingTime.CalculateReadingTime | client/src/lib/utils.ts:8-11 | any non-zero rate gives a whole number of minutes, at least one |
| ReadingTime.CalculateReadingTimeDefault | client/src/lib/utils.ts:8-11 | the default rate of 200 gives at least one minute, and exactly one for up to 200 words |
| ReadingTime.BlankIsOneWord | client/src/lib/utils.ts:9 | a blank text still counts as one word, since splitting the empty string gives one piece |
| ReadingTime.CountedPiecesAreWords | client/src/lib/utils.ts:9 | for a non-blank text the counted pieces are exactly its words: non-empty, free of white space, spelling the text's non-white-space characters in order, and one more than the gaps of white space between them |
| ReadingTime.WordCountRuns | client/src/lib/utils.ts:9 | the word count is one more than the number of white-space runs in the trimmed text, hence at least one |
| ReadingTime.MinutesMonotonic | client/src/lib/utils.ts:10 | more words never take fewer minutes |
| Pagination.Run | client/src/components/HomepagePagination.tsx:28-30 | the pages lo..hi in order |
| Pagination.PushRun | client/src/components/HomepagePagination.tsx:28-30 | appends exactly the pages lo..hi, in order, to what is there |
| Pagination.GetPageNumbers | client/src/components/HomepagePagination.tsx:23-56 | the loop builds exactly the window `PageWindow(totalPages, currentPage)` |
| Pagination.SmallWindowShowsAll | client/src/components/HomepagePagination.tsx:26-30 | with at most 7 pages every page is shown, in order, with no ellipsis |
| Pagination.LargeWindowEnds | client/src/components/HomepagePagination.tsx:32-52 | with more than 7 pages the window starts at page 1 and ends at the last page |
| Pagination.EllipsisPositions | client/src/components/HomepagePagination.tsx:35-49 | an ellipsis follows page 1 iff the current page is past 3, and precedes the last page iff it is more than 2 before the end |
| Pagination.WindowAscending | client/src/components/HomepagePagination.tsx:23-56 | the shown page numbers strictly increase and lie within 1..totalPages |
| Pagination.WindowNoAdjacentEllipses | client/src/components/HomepagePagination.tsx:35-49 | two ellipses are never adjacent |
| Pagination.CurrentPageShown | client/src/components/HomepagePagination.tsx:40-45 | the current page, when in range, is always in the window |
| Pagination.PageCursor.constructor | client/src/components/HomepagePagination.tsx:11-21 | the cursor holds the page count and current page its parent passes in |
| Pagination.PageCursor.HandlePageChange | client/src/components/HomepagePagination.tsx:58-63 | moves to the page iff it is within 1..totalPages, else stays |
| Pagination.PageCursor.Prev | client/src/components/HomepagePagination.tsx:75 | the new page is the previous page exactly when that lies within 1..totalPages, otherwise the page is unchanged |
| Pagination.PageCursor.Next | client/src/components/HomepagePagination.tsx:117 | the new page is the next page exactly when that lies within 1..totalPages, otherwise the page is unchanged |
| BlogForm.TrimEachAt | admin/src/features/blogs/BlogForm.tsx:49 | the map keeps the number of pieces and trims each one in place |
| BlogForm.KeepNonEmptyKeeps | admin/src/features/blogs/BlogForm.tsx:50 | the filter keeps exactly the non-empty pieces: nothing empty, nothing from outside, and no non-empty piece dropped |
| BlogForm.ParsedTagsClean | admin/src/features/blogs/BlogForm.tsx:47-50 | every parsed tag is non-empty, trimmed and comma-free |
| BlogForm.ParseTagsSegment | admin/src/features/blogs/BlogForm.tsx:47-50 | the text before the first comma contributes its trimmed self (if non-empty) ahead of the rest's tags |
| BlogForm.TagsRoundTrip | admin/src/features/blogs/BlogForm.tsx:40 | tags shown as `join(", ")` and parsed back on submit come back unchanged, for any list of clean tags |
| BlogForm.BlogFormState.constructor | admin/src/features/blogs/BlogForm.tsx:19-28 | an empty draft, unpublished, no tags, empty tag text |
| BlogForm.BlogFormState.Load | admin/src/features/blogs/BlogForm.tsx:30-41 | loading a post copies its fields (missing cover image and tags become empty) and shows its tags joined by ", "; no post leaves the state alone |
| BlogForm.BlogFormState.SetTitle | admin/src/features/blogs/BlogForm.tsx:63 | changes the title only |
| BlogForm.BlogFormState.SetExcerpt | admin/src/features/blogs/BlogForm.tsx:72 | changes the excerpt only |
| BlogForm.BlogFormState.SetContent | admin/src/features/blogs/BlogForm.tsx:83 | changes the content only |
| BlogForm.BlogFormState.SetCoverImage | admin/src/features/blogs/BlogForm.tsx:94-95 | changes the cover image only |
| BlogForm.BlogFormState.SetPublished | admin/src/features/blogs/BlogForm.tsx:114-115 | changes the published flag only |
| BlogForm.BlogFormState.SetTagsInput | admin/src/features/blogs/BlogForm.tsx:104 | changes the tag text only |
| BlogForm.BlogFormState.HandleSubmit | admin/src/features/blogs/BlogForm.tsx:44-56 | submits the draft with the tags parsed from the tag text, every one clean |
| BlogList.FiltersSound | admin/src/pages/BlogListPage.tsx:38-45 | the published list holds only published posts of the page, the draft list only unpublished ones |
| BlogList.PublishedDraftPartition | admin/src/pages/BlogListPage.tsx:38-45 | the two filters split the page's posts: together they hold each post exactly once |
| BlogList.FiltersKeepOrder | admin/src/pages/BlogListPage.tsx:38-45 | both filters keep the page's order |
| BlogList.Visible | admin/src/pages/BlogListPage.tsx:238-328 | "Published" shows the published posts, "Drafts" the drafts, anything else all posts |
| BlogList.PrevDisabled | admin/src/pages/BlogListPage.tsx:210 | from any page from 1 on, Prev is enabled exactly when a previous page exists |
| BlogList.NextDisabled | admin/src/pages/BlogListPage.tsx:222 | within 1..totalPages, Next is enabled exactly when a next page exists; with no pages reported it is never disabled |
| BlogList.NextEnabledWithoutPosts | admin/src/pages/BlogListPage.tsx:222 | with no posts the page count is 0 and Next on page 1 stays enabled |
| BlogList.NextDisabledOnFirstPage | admin/src/pages/BlogListPage.tsx:222 | as written, with at most 9 rows reported the Next button on page 1 is disabled |
| BlogList.NextEnabledWithFullCount | admin/src/pages/BlogListPage.tsx:222 | with the author's full post count, Next is enabled on page 1 iff there are more than 9 posts |
| BlogList.BlogListState.constructor | admin/src/pages/BlogListPage.tsx:32-51 | page 1, filter "All", modal closed |
| BlogList.BlogListState.HandleNext | admin/src/pages/BlogListPage.tsx:85-87 | next page, nothing else changes |
| BlogList.BlogListState.HandlePrev | admin/src/pages/BlogListPage.tsx:88-90 | previous page, nothing else changes |
| BlogList.BlogListState.SetFilter | admin/src/pages/BlogListPage.tsx:196 | changes the filter only |
| BlogList.BlogListState.HandleDeleteClick | admin/src/pages/BlogListPage.tsx:53-55 | opens the modal for that post, nothing else changes |
| BlogList.BlogListState.HandleDeleteConfirm | admin/src/pages/BlogListPage.tsx:57-64 | requests deletion of the modal's post; closes the modal when the deletion succeeds and leaves it open when it throws |
| BlogList.BlogListState.CloseModal | admin/src/pages/BlogListPage.tsx:337-339 | closes the modal, nothing else changes |
| Http.BuildInit | admin/src/services/api.ts:25-32 | credentials always `include`; method and body passed through; JSON content type unless the caller gives one; the caller's headers kept and winning |
| Http.ListQueryParams | admin/src/services/api.ts:67 | the list query string reads back as exactly the page and limit that were printed |
| Http.PairPiece | admin/src/services/api.ts:67 | a `key=value` pair without `=` inside splits into its key and value |
| AdminApi.ErrorText | admin/src/services/api.ts:48 | a string message becomes the error's text unchanged; an empty array becomes the empty text |
| AdminApi.ArrayTextIsJoin | admin/src/services/api.ts:48 | an array message becomes its elements' texts joined by commas, `null` elements as nothing |
| AdminApi.FetchApi | admin/src/services/api.ts:23-58 | 204 resolves to `undefined`; an ok response with a JSON body resolves to it; a body that is not JSON rejects; a null error body rejects with a type error; a 400 object body without a message is "Validation failed" carrying the body; other errors carry the status and the message or "An error occurred" |
| AdminApi.ListCall | admin/src/services/api.ts:62-68 | page 1 and limit 20 by default, GET with credentials |
| AdminApi.ListReachesServer | admin/src/services/api.ts:62-68 | any non-zero page and limit the admin list sends are the page and limit the server reads |
| AdminApi.RefusedPostIsValidationFailure | admin/src/services/api.ts:40-46 | an invalid post sent to the create handler reaches the admin as "Validation failed" with exactly the server's field-error map |
| AdminApi.MessageReplyIsApiError | admin/src/services/api.ts:48 | a `{message}` error reaches the admin with its status and message; an empty message becomes "An error occurred", except a 400, which is taken for a field map |
| AdminApi.DeleteResolvesUndefined | admin/src/services/api.ts:34 | a successful delete (204) resolves to `undefined` |
| ClientApi.FetchApi | client/src/services/api.ts:11-34 | an ok response resolves to its JSON body (or rejects if it has none); an error response becomes an `ApiError` with its status and the body's message if truthy, else the status text; an unparseable error body falls back to "An error occurred"; a throw becomes "Network error occurred" |
| ClientApi.ListCall | client/src/services/api.ts:38-40 | page 1 and limit 10 by default, GET with credentials |
| ClientApi.ListSendsPageAndLimit | client/src/services/api.ts:38-40 | the query string holds exactly two parameters, `page` and `limit`, the given values in decimal or 1 and 10 when not given |
| ClientApi.PublishedFailureShowsStatusText | server/src/controllers/posts.controller.ts:134 | the bare-string 500 of the published listing reaches the reader as the HTTP status text, not the server's message |
| ClientApi.SlugFailureShowsMessage | server/src/controllers/posts.controller.ts:143-145 | a failing slug lookup reaches the reader with the server's message |
| ClientApi.PublishedReadsPassThrough | client/src/services/api.ts:27 | the published listing and a post by slug reach the reader unchanged |
| UsernameValidation.RequestError | admin/src/hooks/useUsernameValidation.ts:54-68 | a thrown fetch, an unparseable or null body, or a status outside 409/200/400 shows "Error checking username"; 409 with a truthy `exists` shows the server's message, 200 with a falsy one clears the error, 400 shows the message, and 409 without `exists` or 200 with it falls through to "Error checking username" |
| UsernameValidation.UsernameCheckState.constructor | admin/src/hooks/useUsernameValidation.ts:18-19 | no error, not checking |
| UsernameValidation.UsernameCheckState.CheckUsername | admin/src/hooks/useUsernameValidation.ts:37-72 | requests a check iff the name is non-empty and made of letters, digits and `_`; clears the error for an empty name, shows the charset message otherwise, and after a request shows what the answer means; always ends not checking |
| UsernameValidation.UsernameCheckState.OnDebounced | admin/src/hooks/useUsernameValidation.ts:28-35 | an empty debounced name clears the error; a name with other characters shows the charset message; a valid one takes the answer's error; never left checking |
| UsernameValidation.UsernameCheckState.IsValid | admin/src/hooks/useUsernameValidation.ts:77-78 | valid only for a non-empty name that the debounce has caught up with; any shown error message makes it invalid, and a cleared error with a caught-up non-empty name makes it valid |
| UsernameValidation.UsernameCheckState.OnTyping | admin/src/hooks/useUsernameValidation.ts:22-26 | marks checking iff the typed name differs from the debounced one and is non-empty; the error is kept |
| UsernameValidation.ClientMatchesServer | admin/src/hooks/useUsernameValidation.ts:54-68 | for every well-formed name, the server's answer becomes "Username already exists!" when taken, no error when free, and "Error checking username" when the lookup throws |
| UsernameValidation.ClientCharsetIsServerCharset | admin/src/hooks/useUsernameValidation.ts:46 | every non-empty name the client's check passes also passes the server's; the server answers 400 iff the name holds a character other than letters, digits, `_` and the Kelvin sign |
| UsernameValidation.KelvinSignDiverges | admin/src/hooks/useUsernameValidation.ts:46 | the one-character name U+212A is refused by the client but looked up by the server as "k" |
| RegisterPage.RegisterWizard.constructor | admin/src/pages/RegisterPage.tsx:19-29 | step 1, empty form, not loading, no errors |
| RegisterPage.RegisterWizard.SetField | admin/src/pages/RegisterPage.tsx:190-361 | changes the one form field its input sets (the name, username, e-mail, password and confirmation setters at lines 191, 231, 299, 323 and 358-361) and keeps the rest |
| RegisterPage.RegisterWizard.HandleNext | admin/src/pages/RegisterPage.tsx:33-65 | advances one step with no error exactly when nothing blocks the step (a blank name on step 1, a name the schema refuses, a blank username or a username error on step 2); otherwise shows the blocking message; clears the schema errors unless the name stopped it |
| RegisterPage.RegisterWizard.HandleBack | admin/src/pages/RegisterPage.tsx:67-70 | one step back, error cleared |
| RegisterPage.RegisterWizard.HandleSubmit | admin/src/pages/RegisterPage.tsx:72-110 | sends the sign-up (untrimmed name, e-mail, username, password) iff the schema accepts the form; a refused form fills the schema errors by the `forEach` loop; a sent one shows the sign-up error or none, and ends not loading |
| RegisterPage.FormBodyFields | admin/src/pages/RegisterPage.tsx:41 | the parsed object holds the five form fields as strings |
| RegisterPage.NameIssueOf | admin/src/pages/RegisterPage.tsx:44-46 | with the types right, the first issue mentioning `name` is the length message if the trimmed name is short, else the full-name message if it is not a full name, else none |
| RegisterPage.FormNameIssue | admin/src/pages/RegisterPage.tsx:41-50 | the same, for the wizard's form |
| RegisterPage.SchemaNameError | admin/src/pages/RegisterPage.tsx:41-50 | the parse-and-find gives the length message for a short trimmed name, the full-name message for a name that is not a full name, and nothing otherwise |
| RegisterPage.StepBlockIsNextBlock | admin/src/pages/RegisterPage.tsx:37-62 | the step's blocking message read from the name alone equals the one read from the whole form's schema issues, and the name passes iff the schema reports no issue on it |
| RegisterPage.SchemaFieldErrors | admin/src/pages/RegisterPage.tsx:77-87 | no map iff the schema accepts the form; otherwise the map the `forEach` loop builds from the form's issues |
| RegisterPage.StepOneDependsOnNameOnly | admin/src/pages/RegisterPage.tsx:37-50 | step 1 is blocked iff the trimmed name is blank, short or not a full name, whatever the other fields hold |
| RegisterPage.StepTwoAdvances | admin/src/pages/RegisterPage.tsx:41-64 | step 2 advances iff the name is still acceptable, the trimmed username is non-empty and there is no username error |
| RegisterPage.AdvancedNameNotInSubmitErrors | admin/src/pages/RegisterPage.tsx:80-83 | a name that got past step 1 never appears in the submit's field errors |
| Settings.SplitName | admin/src/pages/Settings.tsx:38-40 | the first name is absent iff the user has no name; neither part holds a space; a one-word name has an empty last name |
| Settings.TwoWordNameRoundTrip | admin/src/pages/Settings.tsx:38-58 | a two-word name splits into its words and is rejoined unchanged |
| Settings.MiddleWordsDropped | admin/src/pages/Settings.tsx:38-58 | a name of three or more words loses its middle words when split and rejoined |
| Settings.OneWordNameGainsSpace | admin/src/pages/Settings.tsx:38-58 | a one-word name is rejoined with a trailing space, and a missing name becomes "undefined " |
| Settings.RejoinedFullNameIsFullName | admin/src/pages/Settings.tsx:38-58 | a full name stays a full name after split and rejoin |
| Settings.UpdateBodyTyped | admin/src/pages/Settings.tsx:98 | the update body has every profile field as a string and carries the joined name |
| Settings.TrailingSpaceNotFullName | admin/src/pages/Settings.tsx:58 | a word followed by a space is not a full name |
| Settings.OneWordNameRefused | admin/src/pages/Settings.tsx:98 | the body the page sends for a user with a one-word name is refused by the server's profile schema under `name` |
| Settings.SettingsPage.constructor | admin/src/pages/Settings.tsx:17-34 | empty form and name parts, name " ", no errors |
| Settings.SettingsPage.OnSession | admin/src/pages/Settings.tsx:36-60 | a session user fills the form (missing values become empty) and the split name; the shown name stays the rejoined parts |
| Settings.SettingsPage.HandleNameChange | admin/src/pages/Settings.tsx:73-79 | changes one name part and keeps the shown name in step |
| Settings.SettingsPage.HandleChange | admin/src/pages/Settings.tsx:81-89 | changes one form field only |
| Settings.SettingsPage.HandleSubmit | admin/src/pages/Settings.tsx:91-108 | sends id, name and form iff there is a non-empty id; a 400 replaces the field errors while they are truthy, a 409 sets the username error, other failures set the general error; success changes nothing |

## Left out

- Lengths count characters (code points), where JavaScript counts UTF-16 code units; this matters only outside the Basic Multilingual Plane.
- Text.ToLower: lower-cases ASCII letters and U+212A KELVIN SIGN only; other non-ASCII letters keep their case, which changes neither the server's character check nor any name that reaches the store.
- The validation library's e-mail and URL format checks are parameters (`isEmail`, `isUrl`): their grammars are not modelled.
- The library's union issue for `website` is one aborting issue; its inner issue list is not modelled.
- JSON numbers are unbounded integers; floating point is not modelled.
- The store's queries, the authentication library, `signUp.email` and the network are not modelled: their outcome is a parameter. server/src/db/queries.ts is not part of this model; the store's effect is modelled only for inserting a post.
- Headers objects are string maps: header-name case and `Headers` instances are not modelled.
- The other admin endpoint wrappers (create, update, delete, publish, dashboard stats) only choose a URL, a method and a body, and go through the modelled `fetchApi`.
- Timing is not modelled: the debounce delay, React effect scheduling and re-rendering. Each effect is a method called with the values it sees.
- Navigation, `navigate(0)`, scrolling, toasts and the image-upload and character-limit hooks are left out.
- PostsController.QueryNumber, PostsController.PageParam, PostsController.LimitParam, UsersController.CheckUsername, Http.QueryParams: a query value is one optional string; a key repeated in the query string, which the server's query parser turns into an array (`parseInt` then reads its first element, and `toLowerCase` on it throws), is not modelled, and `QueryParams` lets the later key win.
- The public client's page and limit reach a handler that ignores them; the published listing is modelled without them.
- UsernameValidation.UsernameCheckState.CheckUsername: the request URL puts the name into the query without encoding; only names of letters, digits and `_` are ever sent, so this does not matter.
- RegisterPage.RegisterWizard.HandleNext: requires step 1 or 2, because the page shows the Next button only on those steps.
- RegisterPage.RegisterWizard.HandleNext: the username error from the hook is a plain string here, not its `undefined`-able message.
- Settings.OneWordNameRefused: the profile-update handler (`updateUserProfile`, routed at server/src/routes/users.routes.ts:11) is not part of this model; the lemma states the verdict of the server's profile schema on the sent body and assumes the handler parses with that schema and answers 400 with the `forEach` field map.
- Settings.SettingsPage.HandleSubmit: when the 400 body is an array, spreading it into index keys is not modelled. The render crash that follows a 400 while the field errors are `undefined` is not modelled either.
- Where the behaviour described for the system differs from the code, the model follows the code. Three such places:
  - the user's post listing reports the number of rows on the page as `total` (see Findings);
  - fetching a post's details has no not-found branch;
  - the published listing's 500 body is a bare string, so the reader sees the HTTP status text (ClientApi.PublishedFailureShowsStatusText).

## Findings

| source | as written | input that shows it | evidently intended | confidence | as-written member | corrected member |
|---|---|---|---|---|---|---|
| server/src/controllers/posts.controller.ts:48-54 | `total` is the number of rows on the returned page, so `totalPages` is at most 1 whenever a full page or less comes back; the admin list disables Next when `page === totalPages` | an author with 25 posts, limit 9, page 1: the store returns 9 rows and the response says `total: 9, totalPages: 1`, so pages 2 and 3 are unreachable | `total` is the author's post count, `totalPages = ceil(count / limit)` | not executed | PostsController.TotalPagesCounterexample | PostsController.GetUserPostsCounted |

=== FILE: AdminApi.dfy ===
/** The admin client's `fetchApi`: how a finished fetch becomes a resolved value
    or a thrown error, and the query of the post list. */
module AdminApi {
  import opened Wrappers
  import opened Json
  import opened Text
  import opened Http
  import opened Issues
  import opened PostSchema
  import opened PostsController

  /** What `fetchApi` throws. `ApiError` carries the value handed to the
      constructor as its message and, for a validation failure, the body as
      `fieldErrors`; the other three are errors of the platform, re-thrown
      unchanged. */
  datatype Failure =
    | ApiError(status: int, message: Json, fieldErrors: Option<Json>)
    | FetchRejected
    | BodyNotJson
    | NullBody

  /** A resolved value (None for `undefined`) or a thrown error. */
  datatype ApiResult = Resolved(data: Option<Json>) | Rejected(failure: Failure)

  const ValidationFailed := "Validation failed"
  const GenericError := "An error occurred"

  /** `String(value)`, as the `Error` constructor turns its message argument
      into text: an array prints its elements joined by commas, `null` ones as
      nothing. */
  function ErrorText(j: Json): (r: string)
    ensures j.JStr? ==> r == j.s
    ensures j.JArr? && |j.items| == 0 ==> r == ""
    decreases j, 1
  {
    match j
    case JNull => "null"
    case JBool(b) => if b then "true" else "false"
    case JNum(n) => IntString(n)
    case JStr(s) => s
    case JArr(_) => ElementsText(j, 0)
    case JObj(_) => "[object Object]"
  }

  function ElementsText(whole: Json, from: nat): string
    requires whole.JArr? && from <= |whole.items|
    decreases whole, 0, |whole.items| - from
  {
    if from == |whole.items| then ""
    else
      var item := whole.items[from];
      assert item in whole.items;
      var head := if item.JNull? then "" else ErrorText(item);
      if from + 1 == |whole.items| then head else head + "," + ElementsText(whole, from + 1)
  }

  /** The text of each element of an array as `Array.prototype.join` prints
      it: `null` as nothing, anything else as `String` does. */
  function ItemTexts(items: seq<Json>): (r: seq<string>)
    ensures |r| == |items|
  {
    seq(|items|, i requires 0 <= i < |items| => if items[i].JNull? then "" else ErrorText(items[i]))
  }

  lemma {:induction false} ElementsJoin(items: seq<Json>, from: nat)
    requires from <= |items|
    ensures ElementsText(JArr(items), from) == Join(ItemTexts(items)[from..], ",")
    decreases |items| - from
  {
    var t := ItemTexts(items)[from..];
    if from < |items| {
      assert t[0] == ItemTexts(items)[from];
      if from + 1 < |items| {
        ElementsJoin(items, from + 1);
        JoinCons(t, ",");
        assert t[1..] == ItemTexts(items)[from + 1..];
      }
    }
  }

  /** An array prints as its elements' texts joined by commas. */
  lemma ArrayTextIsJoin(items: seq<Json>)
    ensures ErrorText(JArr(items)) == Join(ItemTexts(items), ",")
  {
    ElementsJoin(items, 0);
    assert ItemTexts(items)[0..] == ItemTexts(items);
  }

  /** `typeof data === "object"` for a non-null value. */
  predicate IsObjectValue(j: Json) {
    j.JObj? || j.JArr?
  }

  /** The classification. A 204 resolves to `undefined` without reading the
      body; a body that does not parse, a failed fetch and reading `message`
      off a `null` error body throw the platform's error. */
  function FetchApi(fetched: Outcome<Received>): (r: ApiResult)
    ensures fetched.Threw? ==> r == Rejected(FetchRejected)
    ensures fetched.Returned? && fetched.value.status == 204 ==> r == Resolved(None)
    ensures r.Resolved? <==>
      fetched.Returned? && (fetched.value.status == 204 || (IsOk(fetched.value) && fetched.value.body.Some?))
    ensures r.Resolved? && r.data.Some? ==> fetched.Returned? && r.data == fetched.value.body
    ensures r == Rejected(BodyNotJson) <==>
      fetched.Returned? && fetched.value.status != 204 && fetched.value.body.None?
    ensures r == Rejected(NullBody) <==>
      fetched.Returned? && fetched.value.status != 204 && !IsOk(fetched.value) &&
      fetched.value.body == Some(JNull)
    ensures r.Rejected? && r.failure.ApiError? ==>
      fetched.Returned? && !IsOk(fetched.value) && r.failure.status == fetched.value.status
    ensures r.Rejected? && r.failure.ApiError? && r.failure.fieldErrors.Some? ==>
      var data := fetched.value.body.value;
      r.failure == ApiError(400, JStr(ValidationFailed), Some(data)) &&
      IsObjectValue(data) && !TruthyOpt(Get(data, "message"))
    ensures r.Rejected? && r.failure.ApiError? && r.failure.fieldErrors.None? ==>
      var data := fetched.value.body.value;
      !(fetched.value.status == 400 && IsObjectValue(data) && !TruthyOpt(Get(data, "message"))) &&
      r.failure.message ==
        (if TruthyOpt(Get(data, "message")) then Get(data, "message").value else JStr(GenericError))
  {
    match fetched
    case Threw => Rejected(FetchRejected)
    case Returned(res) =>
      if res.status == 204 then Resolved(None)
      else if res.body.None? then Rejected(BodyNotJson)
      else
        var data := res.body.value;
        if !IsOk(res) then
          if data.JNull? then Rejected(NullBody)
          else
            var message := Get(data, "message");
            if res.status == 400 && IsObjectValue(data) && !TruthyOpt(message) then
              Rejected(ApiError(400, JStr(ValidationFailed), Some(data)))
            else
              Rejected(ApiError(res.status, if TruthyOpt(message) then message.value else JStr(GenericError), None))
        else Resolved(Some(data))
  }

  /** Every call path goes through `BuildInit`: the credentials are always
      sent and the caller's headers win over the default content type. */
  function ListCall(page: Option<int>, limit: Option<int>): (r: (string, RequestInit))
    ensures r.0 == ListQuery(page.GetOr(1), limit.GetOr(20))
    ensures r.1.credentials == Some("include") && r.1.verb.None?
  {
    (ListQuery(page.GetOr(1), limit.GetOr(20)), BuildInit(None))
  }

  /** The list call without arguments asks for the server's own defaults, and
      any non-zero page and limit reach the server unchanged. */
  lemma ListReachesServer(page: Option<int>, limit: Option<int>)
    requires page.GetOr(1) != 0 && limit.GetOr(20) != 0
    ensures var q := QueryParams(ListCall(page, limit).0);
      "page" in q && "limit" in q &&
      PageParam(Some(q["page"])) == page.GetOr(1) &&
      LimitParam(Some(q["limit"])) == limit.GetOr(20)
  {
    ListQueryParams(page.GetOr(1), limit.GetOr(20));
    PageParamEcho(page.GetOr(1));
    PageParamEcho(limit.GetOr(20));
  }

  /** A post the server refuses reaches the form as a validation failure
      whose `fieldErrors` is the server's field map: none of the schema's keys
      is `message`, so the map is never mistaken for an error message. */
  lemma {:induction false} RefusedPostIsValidationFailure(caller: string, body: Json, reply: Outcome<()>,
                                                          statusText: string)
    requires !PostAccepted(body)
    ensures FetchApi(Returned(Delivered(CreatePost(caller, body, reply).response, statusText))) ==
      Rejected(ApiError(400, JStr(ValidationFailed), Some(StringMap(FieldErrors(PostIssues(body))))))
  {
    PostFieldErrorKeys(body, "message");
    var m := FieldErrors(PostIssues(body));
    assert Get(StringMap(m), "message").None?;
  }

  /** A `{message}` error reply reaches the caller as an `ApiError` with that
      message; an empty message falls back to "An error occurred", except on a
      400, where the body is taken for a field map. */
  lemma MessageReplyIsApiError(status: int, text: string, statusText: string)
    requires !(200 <= status <= 299) && status != 204
    ensures var r := FetchApi(Returned(Delivered(Reply(status, text), statusText)));
      (text != "" ==> r == Rejected(ApiError(status, JStr(text), None))) &&
      (text == "" && status != 400 ==> r == Rejected(ApiError(status, JStr(GenericError), None))) &&
      (text == "" && status == 400 ==> r == Rejected(ApiError(400, JStr(ValidationFailed), Some(MessageObject("")))))
  {
    assert Get(MessageObject(text), "message") == Some(JStr(text));
  }

  /** A deleted post resolves to `undefined`. */
  lemma DeleteResolvesUndefined(caller: string, postId: string, statusText: string)
    requires postId != ""
    ensures FetchApi(Returned(Delivered(RemoveUserPost(caller, postId, Returned(())).response, statusText))) ==
      Resolved(None)
  {
  }
}

=== FILE: BlogForm.dfy ===
/** The admin's blog editor form: its field state, loading an existing post
    into it, and turning the comma-separated tag text into the submitted tag
    list. */
module BlogForm {
  import opened Wrappers
  import opened Text

  /** The form's data, as sent on submit. */
  datatype BlogDraft = BlogDraft(
    title: string,
    excerpt: string,
    content: string,
    coverImage: string,
    published: bool,
    tags: seq<string>)

  /** The fields of an existing post that the form reads. */
  datatype LoadedPost = LoadedPost(
    title: string,
    excerpt: string,
    content: string,
    coverImage: Option<string>,
    published: bool,
    tags: Option<seq<string>>)

  /** `parts.map(tag => tag.trim())` */
  function TrimEach(parts: seq<string>): seq<string> {
    if |parts| == 0 then [] else [Trim(parts[0])] + TrimEach(parts[1..])
  }

  /** The map trims each part in place. */
  lemma {:induction false} TrimEachAt(parts: seq<string>)
    ensures |TrimEach(parts)| == |parts|
    ensures forall i :: 0 <= i < |parts| ==> TrimEach(parts)[i] == Trim(parts[i])
  {
    if |parts| > 0 {
      var tail := parts[1..];
      TrimEachAt(tail);
      var l := TrimEach(parts);
      assert l == [Trim(parts[0])] + TrimEach(tail);
      forall i | 0 <= i < |parts| ensures l[i] == Trim(parts[i]) {
        if i > 0 {
          assert l[i] == TrimEach(tail)[i - 1];
          assert tail[i - 1] == parts[i];
        }
      }
    }
  }

  /** `parts.filter(Boolean)`: the non-empty strings, in order. */
  function KeepNonEmpty(parts: seq<string>): seq<string> {
    if |parts| == 0 then []
    else (if parts[0] != "" then [parts[0]] else []) + KeepNonEmpty(parts[1..])
  }

  /** The filter keeps only non-empty strings of its input, and every one of
      them. */
  lemma {:induction false} KeepNonEmptyKeeps(parts: seq<string>)
    ensures var r := KeepNonEmpty(parts);
      |r| <= |parts| && forall i :: 0 <= i < |r| ==> r[i] != "" && r[i] in parts
    ensures var r := KeepNonEmpty(parts);
      forall j :: 0 <= j < |parts| && parts[j] != "" ==> parts[j] in r
  {
    if |parts| > 0 {
      KeepNonEmptyKeeps(parts[1..]);
      var rest := KeepNonEmpty(parts[1..]);
      var r := KeepNonEmpty(parts);
      var first: seq<string> := if parts[0] != "" then [parts[0]] else [];
      assert r == first + rest;
      forall j | 0 <= j < |parts| && parts[j] != "" ensures parts[j] in r {
        if j == 0 {
          assert r[0] == parts[0];
        } else {
          assert parts[j] == parts[1..][j - 1];
          assert parts[j] in rest;
        }
      }
      forall i | 0 <= i < |r| ensures r[i] != "" && r[i] in parts {
        if parts[0] != "" && i == 0 {
          assert r[0] == parts[0];
        } else {
          var j := if parts[0] != "" then i - 1 else i;
          assert r[i] == rest[j];
          assert rest[j] in parts[1..];
        }
      }
    }
  }

  /** A tag as the form submits it. */
  predicate CleanTag(t: string) {
    t != "" && Trimmed(t) && ',' !in t
  }

  /** The submitted tags: the comma-separated segments of the tag text, each
      trimmed, empty ones dropped. */
  function ParseTags(tagsInput: string): seq<string> {
    KeepNonEmpty(TrimEach(SplitOn(tagsInput, ',')))
  }

  /** Every submitted tag is non-empty, trimmed and free of commas. */
  lemma ParsedTagsClean(tagsInput: string)
    ensures forall i :: 0 <= i < |ParseTags(tagsInput)| ==> CleanTag(ParseTags(tagsInput)[i])
  {
    var pieces := SplitOn(tagsInput, ',');
    var trimmed := TrimEach(pieces);
    TrimEachAt(pieces);
    forall i | 0 <= i < |trimmed| ensures CleanTag(trimmed[i]) || trimmed[i] == "" {
      TrimKeepsOut(pieces[i], ',');
    }
    KeepNonEmptyKeeps(trimmed);
  }

  lemma {:induction false} TrimEachCons(x: string, ys: seq<string>)
    ensures TrimEach([x] + ys) == [Trim(x)] + TrimEach(ys)
  {
    assert ([x] + ys)[0] == x;
    assert ([x] + ys)[1..] == ys;
  }

  lemma {:induction false} KeepNonEmptyCons(x: string, ys: seq<string>)
    ensures KeepNonEmpty([x] + ys) == (if x != "" then [x] else []) + KeepNonEmpty(ys)
  {
    assert ([x] + ys)[1..] == ys;
  }

  /** Segment by segment: the first segment contributes its trimmed text when
      that is not empty, and the rest of the text is parsed the same way. So
      surviving segments keep their left-to-right order. */
  lemma {:induction false} ParseTagsSegment(a: string, b: string)
    requires ',' !in a
    ensures ParseTags(a + "," + b) == (if Trim(a) != "" then [Trim(a)] else []) + ParseTags(b)
  {
    var rest := SplitOn(b, ',');
    SplitOnAppend(a, ',', b);
    assert a + "," + b == a + [','] + b;
    TrimEachCons(a, rest);
    KeepNonEmptyCons(Trim(a), TrimEach(rest));
  }

  /** Text without a comma is a single segment. */
  lemma {:induction false} ParseTagsSingle(a: string)
    requires ',' !in a
    ensures ParseTags(a) == if Trim(a) != "" then [Trim(a)] else []
  {
    SplitOnFree(a, ',');
    TrimEachCons(a, []);
    assert [a] + [] == [a];
    KeepNonEmptyCons(Trim(a), []);
    assert [Trim(a)] + [] == [Trim(a)];
  }

  /** Loading joins the tags with ", "; parsing that text gives the tags back
      when each is non-empty, comma-free and trimmed. */
  lemma {:induction false} TagsRoundTrip(tags: seq<string>)
    requires forall i :: 0 <= i < |tags| ==> CleanTag(tags[i])
    ensures ParseTags(Join(tags, ", ")) == tags
  {
    RoundTripFrom(tags, false);
    assert "" + Join(tags, ", ") == Join(tags, ", ");
  }

  lemma {:induction false} RoundTripFrom(tags: seq<string>, lead: bool)
    requires forall i :: 0 <= i < |tags| ==> CleanTag(tags[i])
    ensures ParseTags((if lead then " " else "") + Join(tags, ", ")) == tags
    decreases |tags|, 1
  {
    var pre := if lead then " " else "";
    if |tags| == 0 {
      assert pre + Join(tags, ", ") == pre;
      ParseTagsSingle(pre);
    } else if |tags| == 1 {
      RoundTripOne(tags, lead);
    } else {
      RoundTripMany(tags, lead);
    }
  }

  lemma {:induction false} RoundTripOne(tags: seq<string>, lead: bool)
    requires |tags| == 1 && CleanTag(tags[0])
    ensures ParseTags((if lead then " " else "") + Join(tags, ", ")) == tags
  {
    var t := tags[0];
    assert Join(tags, ", ") == t;
    assert [t] == tags;
    if lead {
      ParseSpacedTag(t);
      assert " " + Join(tags, ", ") == " " + t;
    } else {
      ParsePlainTag(t);
      assert "" + Join(tags, ", ") == t;
    }
  }

  /** A clean tag alone parses to itself. */
  lemma ParsePlainTag(t: string)
    requires CleanTag(t)
    ensures ParseTags(t) == [t]
  {
    TrimOfTrimmed(t);
    ParseTagsSingle(t);
  }

  /** A clean tag after one space parses to itself. */
  lemma ParseSpacedTag(t: string)
    requires CleanTag(t)
    ensures ParseTags(" " + t) == [t]
  {
    var s := " " + t;
    TrimSpaceThen(t);
    assert ',' !in s by {
      forall i | 0 <= i < |s| ensures s[i] != ',' {
        if i > 0 { assert s[i] == t[i - 1]; }
      }
    }
    ParseTagsSingle(s);
  }

  lemma {:induction false} RoundTripMany(tags: seq<string>, lead: bool)
    requires |tags| >= 2
    requires forall i :: 0 <= i < |tags| ==> CleanTag(tags[i])
    ensures ParseTags((if lead then " " else "") + Join(tags, ", ")) == tags
    decreases |tags|, 0
  {
    var tail := tags[1..];
    ManyHead(tags, lead);
    RoundTripFrom(tail, true);
    ConsTail(tags);
  }

  /** The first tag of a longer list parses off the front of the joined text. */
  lemma ManyHead(tags: seq<string>, lead: bool)
    requires |tags| >= 2 && CleanTag(tags[0])
    ensures ParseTags((if lead then " " else "") + Join(tags, ", ")) ==
      [tags[0]] + ParseTags(" " + Join(tags[1..], ", "))
  {
    var pre := if lead then " " else "";
    JoinCons(tags, ", ");
    SegmentShape(pre, tags[0], Join(tags[1..], ", "), lead);
  }

  /** The first tag of a joined list, after an optional space, is its first
      comma segment, and trims back to the tag. */
  lemma SegmentShape(pre: string, t: string, rest: string, lead: bool)
    requires CleanTag(t) && pre == (if lead then " " else "")
    ensures ParseTags(pre + (t + ", " + rest)) == [t] + ParseTags(" " + rest)
  {
    LeadingTrim(pre, t, lead);
    CommaSpaceShape(pre, t, rest);
    ParseTagsSegment(pre + t, " " + rest);
  }

  /** A clean tag after an optional single space trims back to the tag. */
  lemma LeadingTrim(pre: string, t: string, lead: bool)
    requires CleanTag(t) && pre == (if lead then " " else "")
    ensures Trim(pre + t) == t && ',' !in pre + t
  {
    if lead { TrimSpaceThen(t); } else { TrimOfTrimmed(t); assert pre + t == t; }
  }

  lemma CommaSpaceShape(pre: string, t: string, rest: string)
    ensures pre + (t + ", " + rest) == (pre + t) + "," + (" " + rest)
  {
  }

  /** The editor's state: the form data and the raw tag text. */
  class BlogFormState {
    var formData: BlogDraft
    var tagsInput: string

    /** Empty strings, not published, no tags. */
    constructor ()
      ensures formData == BlogDraft("", "", "", "", false, []) && tagsInput == ""
    {
      formData := BlogDraft("", "", "", "", false, []);
      tagsInput := "";
    }

    /** The effect that copies an existing post into the form: a missing cover
        image becomes "", missing tags become [], and the tag text is the tags
        joined with ", ". Without a post nothing changes. */
    method Load(initialData: Option<LoadedPost>)
      modifies this
      ensures initialData.None? ==> formData == old(formData) && tagsInput == old(tagsInput)
      ensures initialData.Some? ==>
        var p := initialData.value;
        formData == BlogDraft(p.title, p.excerpt, p.content, p.coverImage.GetOr(""),
                              p.published, p.tags.GetOr([])) &&
        tagsInput == Join(p.tags.GetOr([]), ", ")
    {
      if initialData.Some? {
        var p := initialData.value;
        formData := BlogDraft(p.title, p.excerpt, p.content, p.coverImage.GetOr(""),
                              p.published, p.tags.GetOr([]));
        tagsInput := Join(p.tags.GetOr([]), ", ");
      }
    }

    method SetTitle(v: string)
      modifies this
      ensures formData == old(formData).(title := v) && tagsInput == old(tagsInput)
    {
      formData := formData.(title := v);
    }

    method SetExcerpt(v: string)
      modifies this
      ensures formData == old(formData).(excerpt := v) && tagsInput == old(tagsInput)
    {
      formData := formData.(excerpt := v);
    }

    method SetContent(v: string)
      modifies this
      ensures formData == old(formData).(content := v) && tagsInput == old(tagsInput)
    {
      formData := formData.(content := v);
    }

    method SetCoverImage(v: string)
      modifies this
      ensures formData == old(formData).(coverImage := v) && tagsInput == old(tagsInput)
    {
      formData := formData.(coverImage := v);
    }

    method SetPublished(v: bool)
      modifies this
      ensures formData == old(formData).(published := v) && tagsInput == old(tagsInput)
    {
      formData := formData.(published := v);
    }

    method SetTagsInput(v: string)
      modifies this
      ensures formData == old(formData) && tagsInput == v
    {
      tagsInput := v;
    }

    /** What the form submits: the form data with only the tags replaced by the
        parsed tag text. The state is not changed. */
    method HandleSubmit() returns (submitted: BlogDraft)
      ensures submitted == formData.(tags := ParseTags(tagsInput))
      ensures forall i :: 0 <= i < |submitted.tags| ==> CleanTag(submitted.tags[i])
    {
      var tags := ParseTags(tagsInput);
      ParsedTagsClean(tagsInput);
      submitted := formData.(tags := tags);
    }
  }
}

=== FILE: BlogList.dfy ===
/** The admin's list of their own posts: the published/draft split of the
    current page, the filter buttons, the page cursor and the delete
    confirmation dialog. */
module BlogList {
  import opened Wrappers
  import opened Text
  import opened Http

  /** The fields of a listed post that the page uses. */
  datatype ListedPost = ListedPost(id: string, title: string, published: bool)

  /** The delete dialog's state. */
  datatype DeleteModal = DeleteModal(isOpen: bool, postId: string, postTitle: string)

  const ClosedModal := DeleteModal(false, "", "")

  /** The posts of the loaded page; no page loaded yet gives none. */
  function PagePosts(data: Option<seq<ListedPost>>): seq<ListedPost> {
    data.GetOr([])
  }

  /** `posts.filter(post => post.published)` */
  function PublishedPosts(posts: seq<ListedPost>): seq<ListedPost> {
    if |posts| == 0 then []
    else (if posts[0].published then [posts[0]] else []) + PublishedPosts(posts[1..])
  }

  /** `posts.filter(post => !post.published)` */
  function DraftPosts(posts: seq<ListedPost>): seq<ListedPost> {
    if |posts| == 0 then []
    else (if !posts[0].published then [posts[0]] else []) + DraftPosts(posts[1..])
  }

  /** One filter step: the first post goes to exactly one of the two lists. */
  lemma FiltersCons(posts: seq<ListedPost>)
    requires |posts| > 0
    ensures PublishedPosts(posts) == (if posts[0].published then [posts[0]] else []) + PublishedPosts(posts[1..])
    ensures DraftPosts(posts) == (if !posts[0].published then [posts[0]] else []) + DraftPosts(posts[1..])
  {
  }

  /** The published list holds only published posts of the page, the draft
      list only unpublished ones. */
  lemma {:induction false} FiltersSound(posts: seq<ListedPost>)
    ensures var p := PublishedPosts(posts);
      forall i :: 0 <= i < |p| ==> p[i].published && p[i] in posts
    ensures var d := DraftPosts(posts);
      forall i :: 0 <= i < |d| ==> !d[i].published && d[i] in posts
  {
    if |posts| > 0 {
      var x, rest := posts[0], posts[1..];
      FiltersSound(rest);
      FiltersCons(posts);
      var p, pr := PublishedPosts(posts), PublishedPosts(rest);
      var d, dr := DraftPosts(posts), DraftPosts(rest);
      forall i | 0 <= i < |p| ensures p[i].published && p[i] in posts {
        if x.published && i == 0 {
          assert p[i] == x;
        } else {
          var j := if x.published then i - 1 else i;
          assert p[i] == pr[j];
          assert pr[j] in rest;
        }
      }
      forall i | 0 <= i < |d| ensures !d[i].published && d[i] in posts {
        if !x.published && i == 0 {
          assert d[i] == x;
        } else {
          var j := if !x.published then i - 1 else i;
          assert d[i] == dr[j];
          assert dr[j] in rest;
        }
      }
    }
  }

  /** The two lists split the page: every post is in exactly one of them, as
      often as it occurs on the page. */
  lemma {:induction false} PublishedDraftPartition(posts: seq<ListedPost>)
    ensures multiset(PublishedPosts(posts)) + multiset(DraftPosts(posts)) == multiset(posts)
    ensures |PublishedPosts(posts)| + |DraftPosts(posts)| == |posts|
  {
    if |posts| > 0 {
      var x, rest := posts[0], posts[1..];
      PublishedDraftPartition(rest);
      FiltersCons(posts);
      ConsTail(posts);
      assert multiset(posts) == multiset{x} + multiset(rest);
      if x.published {
        assert multiset(PublishedPosts(posts)) == multiset{x} + multiset(PublishedPosts(rest));
        assert DraftPosts(posts) == DraftPosts(rest);
      } else {
        assert multiset(DraftPosts(posts)) == multiset{x} + multiset(DraftPosts(rest));
        assert PublishedPosts(posts) == PublishedPosts(rest);
      }
    }
  }

  /** Filtering a page made of two parts filters each part in turn, so each list
      keeps the page's order. */
  lemma {:induction false} FiltersKeepOrder(a: seq<ListedPost>, b: seq<ListedPost>)
    ensures PublishedPosts(a + b) == PublishedPosts(a) + PublishedPosts(b)
    ensures DraftPosts(a + b) == DraftPosts(a) + DraftPosts(b)
  {
    if |a| > 0 {
      FiltersKeepOrder(a[1..], b);
      var ab := a + b;
      assert ab[0] == a[0];
      assert ab[1..] == a[1..] + b;
      FiltersCons(ab);
      FiltersCons(a);
    } else {
      assert a + b == b;
    }
  }

  /** The posts shown for a filter value: "Published", "Drafts", or all of
      them for anything else ("All" at first). */
  function Visible(filter: string, posts: seq<ListedPost>): (r: seq<ListedPost>)
    ensures filter == "Published" ==> r == PublishedPosts(posts)
    ensures filter == "Drafts" ==> r == DraftPosts(posts)
    ensures filter != "Published" && filter != "Drafts" ==> r == posts
  {
    if filter == "Published" then PublishedPosts(posts)
    else if filter == "Drafts" then DraftPosts(posts)
    else posts
  }

  /** The Prev button is disabled on page 1: from any page from 1 on, it is
      enabled exactly when a previous page exists. */
  predicate PrevDisabled(page: int): (disabled: bool)
    ensures page >= 1 ==> (!disabled <==> page - 1 >= 1)
  {
    page == 1
  }

  /** The Next button is disabled on the reported last page: from a page within
      1..totalPages it is enabled exactly when a next page exists, and it is
      never disabled when no pages are reported. */
  predicate NextDisabled(page: int, totalPages: int): (disabled: bool)
    ensures 1 <= page <= totalPages ==> (!disabled <==> page + 1 <= totalPages)
    ensures page >= 1 && totalPages == 0 ==> !disabled
  {
    page == totalPages
  }

  /** The page asks for nine posts a page. With the listing's page count taken
      from the rows returned, Next is disabled on page 1 whenever the first page
      is non-empty, however many posts there are. */
  lemma NextDisabledOnFirstPage(rowsOnPage: nat)
    requires 1 <= rowsOnPage <= 9
    ensures NextDisabled(1, CeilDiv(rowsOnPage, 9))
  {
  }

  /** An author with no posts gets a page count of 0, so Next stays enabled on
      page 1. */
  lemma NextEnabledWithoutPosts()
    ensures !NextDisabled(1, CeilDiv(0, 9))
  {
    assert CeilDiv(0, 9) == 0;
  }

  /** With the page count taken from all of the author's posts, Next is enabled
      on page 1 exactly when there are more posts than fit on it. */
  lemma {:induction false} NextEnabledWithFullCount(count: nat)
    requires count >= 1
    ensures !NextDisabled(1, CeilDiv(count, 9)) <==> count > 9
  {
    var t := CeilDiv(count, 9);
    if count > 9 {
      assert 9 < t * 9;
      MulCancel(1, t, 9);
    } else {
      assert (t - 1) * 9 < 9;
      MulCancel(t - 1, 1, 9);
      assert 0 < t * 9;
      MulCancel(0, t, 9);
    }
  }

  /** The page's state. */
  class BlogListState {
    var currentPage: int
    var filterPosts: string
    var deleteModal: DeleteModal

    /** Page 1, filter "All", dialog closed. */
    constructor ()
      ensures currentPage == 1 && filterPosts == "All" && deleteModal == ClosedModal
    {
      currentPage := 1;
      filterPosts := "All";
      deleteModal := ClosedModal;
    }

    method HandleNext()
      modifies this
      ensures currentPage == old(currentPage) + 1
      ensures filterPosts == old(filterPosts) && deleteModal == old(deleteModal)
    {
      currentPage := currentPage + 1;
    }

    method HandlePrev()
      modifies this
      ensures currentPage == old(currentPage) - 1
      ensures filterPosts == old(filterPosts) && deleteModal == old(deleteModal)
    {
      currentPage := currentPage - 1;
    }

    method SetFilter(filter: string)
      modifies this
      ensures filterPosts == filter
      ensures currentPage == old(currentPage) && deleteModal == old(deleteModal)
    {
      filterPosts := filter;
    }

    /** Opens the dialog for one post. */
    method HandleDeleteClick(postId: string, postTitle: string)
      modifies this
      ensures deleteModal == DeleteModal(true, postId, postTitle)
      ensures currentPage == old(currentPage) && filterPosts == old(filterPosts)
    {
      deleteModal := DeleteModal(true, postId, postTitle);
    }

    /** Deletes the post the dialog names; a successful delete closes and
        clears the dialog, a failed one leaves it as it was. */
    method HandleDeleteConfirm(outcome: Outcome<()>) returns (requested: string)
      modifies this
      ensures requested == old(deleteModal.postId)
      ensures outcome.Returned? ==> deleteModal == ClosedModal
      ensures outcome.Threw? ==> deleteModal == old(deleteModal)
      ensures currentPage == old(currentPage) && filterPosts == old(filterPosts)
    {
      requested := deleteModal.postId;
      if outcome.Returned? {
        deleteModal := ClosedModal;
      }
    }

    /** Cancel, or closing the dialog: always closed and cleared. */
    method CloseModal()
      modifies this
      ensures deleteModal == ClosedModal
      ensures currentPage == old(currentPage) && filterPosts == old(filterPosts)
    {
      deleteModal := ClosedModal;
    }
  }
}

=== FILE: ClientApi.dfy ===
/** The public client's `fetchApi`: a finished fetch becomes the parsed body or
    an error whose message the pages show. */
module ClientApi {
  import opened Wrappers
  import opened Json
  import opened Http
  import opened PostsController
  import opened Text

  /** What `fetchApi` rejects with. `ApiError` carries the value handed to the
      constructor as its message. Any other error thrown inside the `try`
      becomes "Network error occurred". The parse of a successful body is
      returned without being awaited, so its failure escapes the `catch`. */
  datatype Failure =
    | ApiError(status: int, message: Json)
    | NetworkError
    | BodyNotJson

  datatype ClientResult = Resolved(data: Json) | Rejected(failure: Failure)

  const FallbackMessage := "An error occurred"
  const NetworkMessage := "Network error occurred"

  /** The error body as the code reads it: an unparseable body is replaced by
      `{message: "An error occurred"}`. */
  function ErrorData(res: Received): Json {
    res.body.GetOr(MessageObject(FallbackMessage))
  }

  function FetchApi(fetched: Outcome<Received>): (r: ClientResult)
    ensures r.Resolved? <==> fetched.Returned? && IsOk(fetched.value) && fetched.value.body.Some?
    ensures r.Resolved? ==> r.data == fetched.value.body.value
    ensures r == Rejected(BodyNotJson) <==>
      fetched.Returned? && IsOk(fetched.value) && fetched.value.body.None?
    ensures r == Rejected(NetworkError) <==>
      fetched.Threw? || (!IsOk(fetched.value) && fetched.value.body == Some(JNull))
    ensures r.Rejected? && r.failure.ApiError? ==>
      fetched.Returned? && !IsOk(fetched.value) && r.failure.status == fetched.value.status
    ensures fetched.Returned? && !IsOk(fetched.value) && fetched.value.body.None? ==>
      r == Rejected(ApiError(fetched.value.status, JStr(FallbackMessage)))
    ensures r.Rejected? && r.failure.ApiError? ==>
      var m := Get(ErrorData(fetched.value), "message");
      r.failure.message == (if TruthyOpt(m) then m.value else JStr(fetched.value.statusText))
  {
    match fetched
    case Threw => Rejected(NetworkError)
    case Returned(res) =>
      if !IsOk(res) then
        var errorData := ErrorData(res);
        if errorData.JNull? then Rejected(NetworkError)
        else
          var m := Get(errorData, "message");
          Rejected(ApiError(res.status, if TruthyOpt(m) then m.value else JStr(res.statusText)))
      else if res.body.None? then Rejected(BodyNotJson)
      else Resolved(res.body.value)
  }

  /** The public list call: page 1 and limit 10 unless given. */
  function ListCall(page: Option<int>, limit: Option<int>): (r: (string, RequestInit))
    ensures r.0 == ListQuery(page.GetOr(1), limit.GetOr(10))
    ensures r.1.credentials == Some("include") && r.1.verb.None?
  {
    (ListQuery(page.GetOr(1), limit.GetOr(10)), BuildInit(None))
  }

  /** The list call's query string holds exactly the page and the limit, in
      decimal, with 1 and 10 for those not given. */
  lemma ListSendsPageAndLimit(page: Option<int>, limit: Option<int>)
    ensures var q := QueryParams(ListCall(page, limit).0);
      q == map["page" := IntString(page.GetOr(1)), "limit" := IntString(limit.GetOr(10))] &&
      q["page"] == IntString(page.GetOr(1)) && q["limit"] == IntString(limit.GetOr(10))
  {
    ListQueryParams(page.GetOr(1), limit.GetOr(10));
  }

  /** The published-list failure is a bare JSON string with no `message`, so
      the page shows the status text rather than the server's message. */
  lemma PublishedFailureShowsStatusText(statusText: string)
    ensures FetchApi(Returned(Delivered(GetPublishedPosts(Threw).response, statusText))) ==
      Rejected(ApiError(500, JStr(statusText)))
  {
    assert Get(JStr(PublishedFailed), "message").None?;
  }

  /** A failed lookup by slug shows the server's message. */
  lemma SlugFailureShowsMessage(slug: string, statusText: string)
    ensures FetchApi(Returned(Delivered(GetPublishedPostBySlug(slug, Threw).response, statusText))) ==
      Rejected(ApiError(500, JStr(SlugFailed)))
  {
    assert Get(MessageObject(SlugFailed), "message") == Some(JStr(SlugFailed));
  }

  /** Both published reads resolve to exactly what the server sent. */
  lemma PublishedReadsPassThrough(posts: seq<Json>, slug: string, post: Json, statusText: string)
    ensures FetchApi(Returned(Delivered(GetPublishedPosts(Returned(posts)).response, statusText))) ==
      Resolved(JObj(map["data" := JArr(posts)]))
    ensures FetchApi(Returned(Delivered(GetPublishedPostBySlug(slug, Returned(post)).response, statusText))) ==
      Resolved(post)
  {
  }
}

=== FILE: Http.dfy ===
/** Responses the server sends and outcomes of the awaited calls it makes. */
module Http {
  import opened Wrappers
  import opened Json
  import opened Text

  /** An HTTP response; `body` is None for a response ended without a body. */
  datatype Response = Response(status: int, body: Option<Json>)

  /** What an awaited call did: returned a value, or threw. */
  datatype Outcome<+T> = Returned(value: T) | Threw

  /** A response whose body is `{message}`. */
  function Reply(status: int, message: string): Response {
    Response(status, Some(MessageObject(message)))
  }

  /** A response as a browser `fetch` sees it: the status, its status text, and
      the body parsed as JSON (None when the body does not parse). */
  datatype Received = Received(status: int, statusText: string, body: Option<Json>)

  /** `response.ok` */
  predicate IsOk(r: Received) {
    200 <= r.status <= 299
  }

  /** What a server response looks like to the browser; a response without a
      body does not parse. */
  function Delivered(r: Response, statusText: string): Received {
    Received(r.status, statusText, r.body)
  }

  /** The options a call hands to `fetch`; `verb` is its `method`. */
  datatype RequestInit = RequestInit(
    verb: Option<string>,
    body: Option<string>,
    headers: map<string, string>,
    credentials: Option<string>)

  /** The init both clients build: the caller's options, a JSON content type
      that the caller's own headers override, and cookies always sent. */
  function BuildInit(options: Option<RequestInit>): (r: RequestInit)
    ensures r.credentials == Some("include")
    ensures options.Some? ==> r.verb == options.value.verb && r.body == options.value.body
    ensures options.None? ==> r.verb.None? && r.body.None?
    ensures forall k :: k in r.headers <==>
      k == "Content-Type" || (options.Some? && k in options.value.headers)
    ensures forall k :: options.Some? && k in options.value.headers ==>
      r.headers[k] == options.value.headers[k]
    ensures options.None? || "Content-Type" !in options.value.headers ==>
      r.headers["Content-Type"] == "application/json"
  {
    var caller := if options.Some? then options.value.headers else map[];
    var headers := map["Content-Type" := "application/json"] + caller;
    match options
    case None => RequestInit(None, None, headers, Some("include"))
    case Some(o) => o.(headers := headers, credentials := Some("include"))
  }

  /** The query string of a list call: `?page=P&limit=L`. */
  function ListQuery(page: int, limit: int): string {
    "?page=" + IntString(page) + "&limit=" + IntString(limit)
  }

  /** A reading of a query string `?k=v&k=v`: each piece's text before its
      first `=` is the key and the rest the value; a later key wins. */
  function QueryParams(q: string): map<string, string> {
    if |q| == 0 || q[0] != '?' then map[] else Pairs(SplitOn(q[1..], '&'))
  }

  function Pairs(pieces: seq<string>): map<string, string> {
    if |pieces| == 0 then map[]
    else
      var kv := SplitOn(pieces[|pieces| - 1], '=');
      var m := Pairs(pieces[..|pieces| - 1]);
      if |kv| >= 2 then m[kv[0] := Join(kv[1..], "=")] else m
  }

  lemma IntStringChars(i: int)
    ensures forall c :: c in IntString(i) ==> IsDigit(c) || c == '-'
  {
    var d := Decimal(if i < 0 then -i else i);
    assert forall c :: c in d ==> IsDigit(c) by {
      forall c | c in d ensures IsDigit(c) {
        var j :| 0 <= j < |d| && d[j] == c;
      }
    }
  }

  /** `key=value` with a value free of `=` reads back as that pair. */
  lemma PairPiece(key: string, value: string)
    requires '=' !in key && '=' !in value
    ensures SplitOn(key + "=" + value, '=') == [key, value]
  {
    SplitOnAppend(key, '=', value);
    SplitOnFree(key, '=');
    SplitOnFree(value, '=');
  }

  /** The list query reads back as exactly the page and the limit it was built
      from. */
  lemma ListQueryParams(page: int, limit: int)
    ensures QueryParams(ListQuery(page, limit)) ==
      map["page" := IntString(page), "limit" := IntString(limit)]
  {
    var p, l := IntString(page), IntString(limit);
    IntStringChars(page);
    IntStringChars(limit);
    assert ListQuery(page, limit)[1..] == "page" + "=" + p + "&" + ("limit" + "=" + l);
    TwoPairs("page", p, "limit", l);
  }

  /** Two `key=value` pieces joined by `&` read back as those two pairs. */
  lemma TwoPairs(k1: string, v1: string, k2: string, v2: string)
    requires '=' !in k1 && '=' !in v1 && '=' !in k2 && '=' !in v2
    requires '&' !in k1 && '&' !in v1 && '&' !in k2 && '&' !in v2
    ensures Pairs(SplitOn(k1 + "=" + v1 + "&" + (k2 + "=" + v2), '&')) == map[k1 := v1, k2 := v2]
  {
    var a, b := k1 + "=" + v1, k2 + "=" + v2;
    assert '&' !in a && '&' !in b;
    SplitOnAppend(a, '&', b);
    SplitOnFree(b, '&');
    var pieces := SplitOn(a + "&" + b, '&');
    assert pieces == [a, b];
    PairPiece(k1, v1);
    PairPiece(k2, v2);
    assert pieces[..1] == [a];
    assert [a][..0] == [];
    assert SplitOn(a, '=')[1..] == [v1];
    assert SplitOn(b, '=')[1..] == [v2];
    assert Pairs([a]) == map[k1 := v1];
  }
}

=== FILE: Issues.dfy ===
/** Validation issues as the schema library reports them, and the field-error map
    that the handlers and forms build from them with a `forEach` loop. */
module Issues {
  import opened Wrappers
  import opened Json
  import opened Text

  /** One step of an issue's path: an object key or an array index. */
  datatype PathSeg = Key(name: string) | Index(i: nat)

  /** A validation issue. `continues` is false for issues after which the library
      skips the object's refinements (a wrong type, a failed union). */
  datatype Issue = Issue(path: seq<PathSeg>, message: string, continues: bool)

  /** The library's name for the kind of a received value. */
  function ReceivedName(v: Option<Json>): string {
    match v
    case None => "undefined"
    case Some(JNull) => "null"
    case Some(JBool(_)) => "boolean"
    case Some(JNum(_)) => "number"
    case Some(JStr(_)) => "string"
    case Some(JArr(_)) => "array"
    case Some(JObj(_)) => "object"
  }

  /** The library's issue for a value of the wrong type. */
  function InvalidType(path: seq<PathSeg>, expected: string, v: Option<Json>): Issue {
    Issue(path, "Invalid input: expected " + expected + ", received " + ReceivedName(v), false)
  }

  /** An issue that the library reports on one field and lets validation continue. */
  function FieldIssue(field: string, message: string): Issue {
    Issue([Key(field)], message, true)
  }

  predicate IsString(v: Option<Json>) {
    v.Some? && v.value.JStr?
  }

  /** A `min(lo, message)` check on a length. */
  function MinLength(field: string, n: nat, lo: nat, message: string): (r: seq<Issue>)
    ensures |r| == 0 <==> lo <= n
    ensures forall i :: 0 <= i < |r| ==> r[i] == FieldIssue(field, message)
  {
    if n < lo then [FieldIssue(field, message)] else []
  }

  /** A `max(hi, message)` check on a length. */
  function MaxLength(field: string, n: nat, hi: nat, message: string): (r: seq<Issue>)
    ensures |r| == 0 <==> n <= hi
    ensures forall i :: 0 <= i < |r| ==> r[i] == FieldIssue(field, message)
  {
    if n > hi then [FieldIssue(field, message)] else []
  }

  /** True when some issue stops the object's refinements from running. */
  predicate Aborted(issues: seq<Issue>) {
    exists i :: 0 <= i < |issues| && !issues[i].continues
  }

  lemma AbortedOne(x: Issue)
    ensures Aborted([x]) <==> !x.continues
  {
    assert [x][0] == x;
  }

  lemma AbortedConcat(a: seq<Issue>, b: seq<Issue>)
    ensures Aborted(a + b) <==> Aborted(a) || Aborted(b)
  {
    if Aborted(a + b) {
      var i :| 0 <= i < |a + b| && !(a + b)[i].continues;
      if i >= |a| { assert !b[i - |a|].continues; }
    }
    if Aborted(b) {
      var i :| 0 <= i < |b| && !b[i].continues;
      assert (a + b)[|a| + i] == b[i];
    }
    if Aborted(a) {
      var i :| 0 <= i < |a| && !a[i].continues;
      assert (a + b)[i] == a[i];
    }
  }

  /** A last issue with a non-empty first key decides that key's entry. */
  lemma FieldErrorsAppend(issues: seq<Issue>, field: string, message: string)
    requires field != ""
    ensures FieldErrors(issues + [FieldIssue(field, message)]) ==
      FieldErrors(issues)[field := message]
  {
    var s := issues + [FieldIssue(field, message)];
    assert s[..|s| - 1] == issues;
  }

  /** Issues none of which is headed by `key`. */
  predicate KeyAbsent(issues: seq<Issue>, key: string) {
    forall i :: 0 <= i < |issues| ==> HeadKey(issues[i]) != Some(key)
  }

  /** Issues that all sit at one field other than `key`. */
  lemma OtherFieldKeyAbsent(issues: seq<Issue>, field: string, key: string)
    requires field != key
    requires forall i :: 0 <= i < |issues| ==> issues[i].path == [Key(field)]
    ensures KeyAbsent(issues, key)
  {
  }

  lemma KeyAbsentConcat(x: seq<Issue>, y: seq<Issue>, key: string)
    requires KeyAbsent(x, key) && KeyAbsent(y, key)
    ensures KeyAbsent(x + y, key)
  {
    forall i | 0 <= i < |x + y| ensures HeadKey((x + y)[i]) != Some(key) {
      if i < |x| { assert (x + y)[i] == x[i]; } else { assert (x + y)[i] == y[i - |x|]; }
    }
  }

  /** When only the middle part's issues are headed by `key`, all with one
      message, the map holds that message under the key. */
  lemma {:induction false} MiddleFieldMessage(front: seq<Issue>, mid: seq<Issue>, back: seq<Issue>,
                                              key: string, message: string)
    requires |mid| > 0 && KeyAbsent(front, key) && KeyAbsent(back, key)
    requires forall i :: 0 <= i < |mid| ==> HeadKey(mid[i]) == Some(key) && mid[i].message == message
    ensures var fe := FieldErrors(front + mid + back);
      key in fe && fe[key] == message
  {
    var issues := front + mid + back;
    FieldErrorsLastWins(issues, key);
    assert issues[|front|] == mid[0];
    assert forall j :: 0 <= j < |front| ==> issues[j] == front[j];
    assert forall j :: |front| <= j < |front| + |mid| ==> issues[j] == mid[j - |front|];
    assert forall j :: |front| + |mid| <= j < |issues| ==> issues[j] == back[j - |front| - |mid|];
  }

  /** An entry written for one field survives a later issue at another field. */
  lemma LaterFieldKeepsEntry(issues: seq<Issue>, field: string, message: string,
                             later: seq<Issue>, other: string, otherMessage: string)
    requires field != "" && other != "" && other != field
    requires later == [] || later == [FieldIssue(other, otherMessage)]
    ensures var fe := FieldErrors(issues + [FieldIssue(field, message)] + later);
      field in fe && fe[field] == message
  {
    var front := issues + [FieldIssue(field, message)];
    FieldErrorsAppend(issues, field, message);
    if later == [] {
      assert front + later == front;
    } else {
      FieldErrorsAppend(front, other, otherMessage);
    }
  }

  /** `err.path[0]` used as an object key when it is truthy: a non-empty key, or a
      non-zero index printed in decimal. */
  function HeadKey(issue: Issue): Option<string> {
    if |issue.path| == 0 then None
    else match issue.path[0]
      case Key(k) => if k != "" then Some(k) else None
      case Index(i) => if i != 0 then Some(Decimal(i)) else None
  }

  /** The map the loop builds: each issue with a head key writes its message under
      that key, a later issue overwriting an earlier one. */
  function FieldErrors(issues: seq<Issue>): map<string, string> {
    if |issues| == 0 then map[]
    else
      var last := issues[|issues| - 1];
      var m := FieldErrors(issues[..|issues| - 1]);
      match HeadKey(last)
      case Some(k) => m[k := last.message]
      case None => m
  }

  /** The loop over the issues that fills the field-error map, one issue at a time. */
  method CollectFieldErrors(issues: seq<Issue>) returns (fieldErrors: map<string, string>)
    ensures fieldErrors == FieldErrors(issues)
  {
    fieldErrors := map[];
    var i := 0;
    while i < |issues|
      invariant 0 <= i <= |issues|
      invariant fieldErrors == FieldErrors(issues[..i])
    {
      var err := issues[i];
      assert issues[..i + 1][..i] == issues[..i];
      match HeadKey(err) {
        case Some(k) => fieldErrors := fieldErrors[k := err.message];
        case None =>
      }
      i := i + 1;
    }
    assert issues[..i] == issues;
  }

  /** A key is in the map exactly when some issue has it as head key, and its value
      is the message of the last such issue. */
  lemma {:induction false} FieldErrorsLastWins(issues: seq<Issue>, k: string)
    ensures k in FieldErrors(issues) <==>
      exists i :: 0 <= i < |issues| && HeadKey(issues[i]) == Some(k)
    ensures k in FieldErrors(issues) ==>
      exists i :: 0 <= i < |issues| && HeadKey(issues[i]) == Some(k) &&
        FieldErrors(issues)[k] == issues[i].message &&
        forall j :: i < j < |issues| ==> HeadKey(issues[j]) != Some(k)
  {
    if |issues| > 0 {
      var n := |issues| - 1;
      var front := issues[..n];
      var m, fm := FieldErrors(issues), FieldErrors(front);
      FieldErrorsLastWins(front, k);
      assert forall i :: 0 <= i < n ==> front[i] == issues[i];
      if HeadKey(issues[n]) == Some(k) {
        assert m == fm[k := issues[n].message];
        assert 0 <= n < |issues| && HeadKey(issues[n]) == Some(k) && m[k] == issues[n].message;
      } else {
        assert k in m <==> k in fm;
        assert k in fm ==> m[k] == fm[k];
        if exists i :: 0 <= i < |issues| && HeadKey(issues[i]) == Some(k) {
          var i :| 0 <= i < |issues| && HeadKey(issues[i]) == Some(k);
          assert i < n && HeadKey(front[i]) == Some(k);
        }
        if k in m {
          var i :| 0 <= i < |front| && HeadKey(front[i]) == Some(k) &&
            fm[k] == front[i].message &&
            forall j :: i < j < |front| ==> HeadKey(front[j]) != Some(k);
          assert forall j :: i < j < |issues| ==> HeadKey(issues[j]) != Some(k) by {
            assert forall j :: i < j < n ==> HeadKey(issues[j]) == HeadKey(front[j]);
          }
          assert 0 <= i < |issues| && HeadKey(issues[i]) == Some(k) && m[k] == issues[i].message &&
            forall j :: i < j < |issues| ==> HeadKey(issues[j]) != Some(k);
        }
      }
    }
  }

  /** Some issue has `k` as its head key. */
  predicate HasHeadKey(issues: seq<Issue>, k: string) {
    exists i :: 0 <= i < |issues| && HeadKey(issues[i]) == Some(k)
  }

  lemma {:induction false} HasHeadKeyConcat(a: seq<Issue>, b: seq<Issue>, k: string)
    ensures HasHeadKey(a + b, k) <==> HasHeadKey(a, k) || HasHeadKey(b, k)
  {
    if HasHeadKey(a + b, k) {
      var i :| 0 <= i < |a + b| && HeadKey((a + b)[i]) == Some(k);
      if i >= |a| {
        assert HeadKey(b[i - |a|]) == Some(k);
      }
    }
    if HasHeadKey(b, k) {
      var i :| 0 <= i < |b| && HeadKey(b[i]) == Some(k);
      assert (a + b)[|a| + i] == b[i];
    }
    if HasHeadKey(a, k) {
      var i :| 0 <= i < |a| && HeadKey(a[i]) == Some(k);
      assert (a + b)[i] == a[i];
    }
  }

  /** Issues whose paths all start at one non-empty key mention that key, and only
      it, as soon as there is one of them. */
  lemma {:induction false} HasHeadKeyOneField(issues: seq<Issue>, field: string, k: string)
    requires field != ""
    requires forall i :: 0 <= i < |issues| ==> |issues[i].path| >= 1 && issues[i].path[0] == Key(field)
    ensures HasHeadKey(issues, k) <==> |issues| > 0 && k == field
  {
    if |issues| > 0 && k == field {
      assert HeadKey(issues[0]) == Some(k);
    }
  }

  /** Issues without a truthy head key leave the map empty. */
  lemma FieldErrorsEmptyWhenKeyless(issues: seq<Issue>)
    requires forall i :: 0 <= i < |issues| ==> HeadKey(issues[i]).None?
    ensures FieldErrors(issues) == map[]
  {
    forall k ensures k !in FieldErrors(issues) {
      FieldErrorsLastWins(issues, k);
    }
  }

  /** The first issue whose path mentions the key anywhere. */
  function FindAt(issues: seq<Issue>, key: string): Option<Issue> {
    if |issues| == 0 then None
    else if Key(key) in issues[0].path then Some(issues[0])
    else FindAt(issues[1..], key)
  }

  /** The search finds nothing exactly when no path mentions the key, and
      otherwise the first issue whose path does. */
  lemma {:induction false} FindAtFirst(issues: seq<Issue>, key: string)
    ensures var r := FindAt(issues, key);
      (r.None? <==> forall i :: 0 <= i < |issues| ==> Key(key) !in issues[i].path) &&
      (r.Some? ==>
        exists i :: 0 <= i < |issues| && issues[i] == r.value && Key(key) in r.value.path &&
          forall j :: 0 <= j < i ==> Key(key) !in issues[j].path)
  {
    if |issues| > 0 && Key(key) !in issues[0].path {
      var tail := issues[1..];
      FindAtFirst(tail, key);
      assert forall i :: 1 <= i < |issues| ==> issues[i] == tail[i - 1];
      var r := FindAt(tail, key);
      if r.Some? {
        var i :| 0 <= i < |tail| && tail[i] == r.value && Key(key) in r.value.path &&
          forall j :: 0 <= j < i ==> Key(key) !in tail[j].path;
        assert issues[i + 1] == r.value;
      }
    } else if |issues| > 0 {
      assert issues[0] == FindAt(issues, key).value;
    }
  }

  /** The search runs through the first part before the second. */
  lemma {:induction false} FindAtConcat(a: seq<Issue>, b: seq<Issue>, key: string)
    ensures FindAt(a + b, key) == if FindAt(a, key).Some? then FindAt(a, key) else FindAt(b, key)
  {
    if |a| > 0 {
      assert (a + b)[0] == a[0];
      assert (a + b)[1..] == a[1..] + b;
      FindAtConcat(a[1..], b, key);
    } else {
      assert a + b == b;
    }
  }

  /** Issues all at one other field never mention the key. */
  lemma FindAtOtherField(issues: seq<Issue>, field: string, key: string)
    requires field != key
    requires forall i :: 0 <= i < |issues| ==> issues[i].path == [Key(field)]
    ensures FindAt(issues, key).None?
  {
    FindAtFirst(issues, key);
    forall i | 0 <= i < |issues| ensures Key(key) !in issues[i].path {
      assert issues[i].path == [Key(field)];
    }
  }

  /** A key that is not a printed index, and that no issue's path mentions,
      gets no entry in the field-error map. */
  lemma UnmentionedKeyHasNoEntry(issues: seq<Issue>, key: string)
    requires key != [] && !IsDigit(key[0])
    requires FindAt(issues, key).None?
    ensures key !in FieldErrors(issues)
  {
    FindAtFirst(issues, key);
    forall i | 0 <= i < |issues| ensures HeadKey(issues[i]) != Some(key) {
      if |issues[i].path| > 0 && issues[i].path[0].Index? {
        var d := Decimal(issues[i].path[0].i);
        assert IsDigit(d[0]);
      }
    }
    FieldErrorsLastWins(issues, key);
  }

}

=== FILE: Json.dfy ===
/** JSON values as they arrive in a request or response body, with JavaScript's
    notion of truthiness and property access. Numbers are integers here. */
module Json {
  import opened Wrappers

  datatype Json =
    | JNull
    | JBool(b: bool)
    | JNum(n: int)
    | JStr(s: string)
    | JArr(items: seq<Json>)
    | JObj(fields: map<string, Json>)

  /** JavaScript truthiness of a JSON value (`undefined` is handled by Option). */
  predicate Truthy(j: Json) {
    match j
    case JNull => false
    case JBool(b) => b
    case JNum(n) => n != 0
    case JStr(s) => s != ""
    case JArr(_) => true
    case JObj(_) => true
  }

  predicate TruthyOpt(v: Option<Json>) {
    v.Some? && Truthy(v.value)
  }

  /** `value.key` on a non-null value: an object's own field, `undefined` otherwise. */
  function Get(j: Json, key: string): Option<Json> {
    if j.JObj? && key in j.fields then Some(j.fields[key]) else None
  }

  /** A JSON object whose only field is `message`. */
  function MessageObject(text: string): Json {
    JObj(map["message" := JStr(text)])
  }

  /** A string-to-string map as a JSON object. */
  function StringMap(m: map<string, string>): Json {
    JObj(map k | k in m :: JStr(m[k]))
  }
}

=== FILE: Pagination.dfy ===
/** The reader's home-page pagination: the window of page numbers, with
    ellipses, that the component renders, and the guarded page change. */
module Pagination {

  datatype PageItem = Page(n: int) | Ellipsis

  function Max(a: int, b: int): int { if a >= b then a else b }
  function Min(a: int, b: int): int { if a <= b then a else b }

  /** The pages lo, lo + 1, ..., hi; empty when hi < lo. */
  function Run(lo: int, hi: int): (r: seq<PageItem>)
    ensures |r| == if hi >= lo then hi - lo + 1 else 0
    ensures forall i :: 0 <= i < |r| ==> r[i] == Page(lo + i)
  {
    seq(if hi >= lo then hi - lo + 1 else 0, i => Page(lo + i))
  }

  /** The entries shown for `totalPages` pages with `currentPage` selected: all
      pages when there are at most seven; otherwise the first page, an ellipsis
      when the current page is past 3, the current page and its neighbours
      clipped to 2..totalPages-1, an ellipsis when the current page is before
      totalPages - 2, and the last page. */
  function PageWindow(totalPages: int, currentPage: int): seq<PageItem> {
    if totalPages <= 7 then Run(1, totalPages)
    else
      [Page(1)] +
      (if currentPage > 3 then [Ellipsis] else []) +
      Run(Max(2, currentPage - 1), Min(totalPages - 1, currentPage + 1)) +
      (if currentPage < totalPages - 2 then [Ellipsis] else []) +
      [Page(totalPages)]
  }

  lemma RunGrow(lo: int, hi: int)
    requires hi + 1 >= lo
    ensures Run(lo, hi) + [Page(hi + 1)] == Run(lo, hi + 1)
  {
    var a, b := Run(lo, hi) + [Page(hi + 1)], Run(lo, hi + 1);
    assert |a| == |b|;
    forall i | 0 <= i < |a| ensures a[i] == b[i] {
      if i < |a| - 1 { assert a[i] == Run(lo, hi)[i]; }
    }
  }

  /** The loop `for (let i = lo; i <= hi; i++) pages.push(i)`. */
  method PushRun(pages: seq<PageItem>, lo: int, hi: int) returns (r: seq<PageItem>)
    ensures r == pages + Run(lo, hi)
  {
    r := pages;
    var i := lo;
    while i <= hi
      invariant lo <= i <= Max(lo, hi + 1)
      invariant r == pages + Run(lo, i - 1)
    {
      RunGrow(lo, i - 1);
      r := r + [Page(i)];
      i := i + 1;
    }
    assert Run(lo, i - 1) == Run(lo, hi);
  }

  /** The component's `getPageNumbers`: pushes the entries one by one. */
  method GetPageNumbers(totalPages: int, currentPage: int) returns (pages: seq<PageItem>)
    ensures pages == PageWindow(totalPages, currentPage)
  {
    pages := [];
    if totalPages <= 7 {
      pages := PushRun(pages, 1, totalPages);
      assert pages == Run(1, totalPages);
    } else {
      pages := pages + [Page(1)];
      var lead: seq<PageItem> := if currentPage > 3 then [Ellipsis] else [];
      pages := pages + lead;
      var start := Max(2, currentPage - 1);
      var end := Min(totalPages - 1, currentPage + 1);
      pages := PushRun(pages, start, end);
      var trail: seq<PageItem> := if currentPage < totalPages - 2 then [Ellipsis] else [];
      pages := pages + trail;
      pages := pages + [Page(totalPages)];
      assert pages == [Page(1)] + lead + Run(start, end) + trail + [Page(totalPages)];
    }
  }

  /** Every page entry lies in lo..hi. */
  predicate PagesWithin(w: seq<PageItem>, lo: int, hi: int) {
    forall i :: 0 <= i < |w| && w[i].Page? ==> lo <= w[i].n <= hi
  }

  /** Page entries strictly increase from left to right. */
  predicate Ascending(w: seq<PageItem>) {
    forall i, j :: 0 <= i < j < |w| && w[i].Page? && w[j].Page? ==> w[i].n < w[j].n
  }

  /** Two ellipses are never next to each other. */
  predicate NoAdjacentEllipses(w: seq<PageItem>) {
    forall i :: 0 <= i < |w| - 1 ==> !(w[i].Ellipsis? && w[i + 1].Ellipsis?)
  }

  lemma {:induction false} AscendingConcat(a: seq<PageItem>, b: seq<PageItem>, lo: int, m: int, hi: int)
    requires Ascending(a) && Ascending(b)
    requires lo <= m <= hi
    requires PagesWithin(a, lo, m) && PagesWithin(b, m + 1, hi)
    ensures Ascending(a + b) && PagesWithin(a + b, lo, hi)
  {
    var w := a + b;
    forall i, j | 0 <= i < j < |w| && w[i].Page? && w[j].Page? ensures w[i].n < w[j].n {
      if j < |a| {
        assert w[i] == a[i] && w[j] == a[j];
      } else if i >= |a| {
        assert w[i] == b[i - |a|] && w[j] == b[j - |a|];
      } else {
        assert w[i] == a[i] && w[j] == b[j - |a|];
      }
    }
    forall i | 0 <= i < |w| && w[i].Page? ensures lo <= w[i].n <= hi {
      if i < |a| { assert w[i] == a[i]; } else { assert w[i] == b[i - |a|]; }
    }
  }

  /** With at most seven pages, every page is shown, in order, with no ellipsis. */
  lemma SmallWindowShowsAll(totalPages: int, currentPage: int)
    requires totalPages <= 7
    ensures var w := PageWindow(totalPages, currentPage);
      |w| == Max(0, totalPages) && forall i :: 0 <= i < |w| ==> w[i] == Page(i + 1)
  {
  }

  /** With more than seven pages, the first entry is page 1, the last is the last
      page, and there are at most seven entries. */
  lemma LargeWindowEnds(totalPages: int, currentPage: int)
    requires totalPages > 7
    ensures var w := PageWindow(totalPages, currentPage);
      |w| >= 2 && w[0] == Page(1) && w[|w| - 1] == Page(totalPages) && |w| <= 7
  {
  }

  /** For a current page in range, the ellipsis after page 1 appears exactly when
      the current page is past 3, and the one before the last page exactly when
      the current page is before totalPages - 2. */
  lemma {:induction false} EllipsisPositions(totalPages: int, currentPage: int)
    requires totalPages > 7 && 1 <= currentPage <= totalPages
    ensures var w := PageWindow(totalPages, currentPage);
      |w| >= 3 &&
      (w[1] == Ellipsis <==> currentPage > 3) &&
      (w[|w| - 2] == Ellipsis <==> currentPage < totalPages - 2)
  {
    var start := Max(2, currentPage - 1);
    var end := Min(totalPages - 1, currentPage + 1);
    var e1: seq<PageItem> := if currentPage > 3 then [Ellipsis] else [];
    var e2: seq<PageItem> := if currentPage < totalPages - 2 then [Ellipsis] else [];
    var run := Run(start, end);
    var w := PageWindow(totalPages, currentPage);
    assert w == [Page(1)] + e1 + run + e2 + [Page(totalPages)];
    assert start <= end;
    assert |run| >= 1;
    assert w[1] == (if currentPage > 3 then Ellipsis else run[0]);
    assert w[|w| - 2] == (if currentPage < totalPages - 2 then Ellipsis else run[|run| - 1]);
  }

  /** Page entries are strictly increasing and within 1..totalPages, for any
      current page. */
  lemma {:induction false} WindowAscending(totalPages: int, currentPage: int)
    ensures Ascending(PageWindow(totalPages, currentPage))
    ensures PagesWithin(PageWindow(totalPages, currentPage), 1, totalPages)
  {
    if totalPages <= 7 {
      RunAscending(1, totalPages);
    } else {
      var start := Max(2, currentPage - 1);
      var end := Min(totalPages - 1, currentPage + 1);
      var e1: seq<PageItem> := if currentPage > 3 then [Ellipsis] else [];
      var e2: seq<PageItem> := if currentPage < totalPages - 2 then [Ellipsis] else [];
      var run := Run(start, end);
      var a := [Page(1)] + e1;
      var b := e2 + [Page(totalPages)];
      assert a[0] == Page(1) && (|a| == 2 ==> a[1] == Ellipsis) && |a| <= 2;
      assert Ascending(a) && PagesWithin(a, 1, 1);
      assert b[|b| - 1] == Page(totalPages) && (|b| == 2 ==> b[0] == Ellipsis) && |b| <= 2;
      assert Ascending(b) && PagesWithin(b, totalPages, totalPages);
      RunAscending(start, end);
      WithinWiden(run, start, end, 2, totalPages - 1);
      AscendingConcat(a, run, 1, 1, totalPages - 1);
      var ar := a + run;
      AscendingConcat(ar, b, 1, totalPages - 1, totalPages);
      assert PageWindow(totalPages, currentPage) == ar + b;
    }
  }

  /** A run of pages is ascending and lies within its bounds. */
  lemma RunAscending(lo: int, hi: int)
    ensures Ascending(Run(lo, hi)) && PagesWithin(Run(lo, hi), lo, hi)
  {
  }

  lemma WithinWiden(w: seq<PageItem>, lo: int, hi: int, lo2: int, hi2: int)
    requires PagesWithin(w, lo, hi) && lo2 <= lo && hi <= hi2
    ensures PagesWithin(w, lo2, hi2)
  {
  }

  /** Two ellipses never sit side by side, for any current page: when both are
      shown, the current page and its neighbours lie between them. */
  lemma {:induction false} WindowNoAdjacentEllipses(totalPages: int, currentPage: int)
    ensures NoAdjacentEllipses(PageWindow(totalPages, currentPage))
  {
    if totalPages > 7 {
      var start := Max(2, currentPage - 1);
      var end := Min(totalPages - 1, currentPage + 1);
      var e1: seq<PageItem> := if currentPage > 3 then [Ellipsis] else [];
      var e2: seq<PageItem> := if currentPage < totalPages - 2 then [Ellipsis] else [];
      var run := Run(start, end);
      var w := PageWindow(totalPages, currentPage);
      assert w == [Page(1)] + e1 + run + e2 + [Page(totalPages)];
      assert e1 != [] && e2 != [] ==> |run| >= 1;
      forall i | 0 <= i < |w| - 1 ensures !(w[i].Ellipsis? && w[i + 1].Ellipsis?) {
        if w[i].Ellipsis? {
          assert i == |e1| || i == |w| - 2;
        }
      }
    }
  }

  /** The current page, when in range, is always among the entries. */
  lemma {:induction false} CurrentPageShown(totalPages: int, currentPage: int)
    requires 1 <= currentPage <= totalPages
    ensures Page(currentPage) in PageWindow(totalPages, currentPage)
  {
    var w := PageWindow(totalPages, currentPage);
    if totalPages <= 7 {
      assert w[currentPage - 1] == Page(currentPage);
    } else if currentPage == 1 {
      assert w[0] == Page(1);
    } else if currentPage == totalPages {
      assert w[|w| - 1] == Page(totalPages);
    } else {
      var start := Max(2, currentPage - 1);
      var end := Min(totalPages - 1, currentPage + 1);
      var e1: seq<PageItem> := if currentPage > 3 then [Ellipsis] else [];
      var run := Run(start, end);
      assert run[currentPage - start] == Page(currentPage);
      assert w[1 + |e1| + (currentPage - start)] == Page(currentPage);
    }
  }

  /** The page state the component reads and sets through its parent. */
  class PageCursor {
    var currentPage: int
    const totalPages: int

    /** The parent hands the component its page count and current page as props. */
    constructor (totalPages: int, currentPage: int)
      ensures this.totalPages == totalPages && this.currentPage == currentPage
    {
      this.totalPages := totalPages;
      this.currentPage := currentPage;
    }

    /** `handlePageChange`: moves only to a page within 1..totalPages. */
    method HandlePageChange(page: int)
      modifies this
      ensures 1 <= page <= totalPages ==> currentPage == page
      ensures !(1 <= page <= totalPages) ==> currentPage == old(currentPage)
    {
      if page >= 1 && page <= totalPages {
        currentPage := page;
      }
    }

    /** The previous-page button. */
    method Prev()
      modifies this
      ensures currentPage ==
        if 1 <= old(currentPage) - 1 <= totalPages then old(currentPage) - 1 else old(currentPage)
    {
      HandlePageChange(currentPage - 1);
    }

    /** The next-page button. */
    method Next()
      modifies this
      ensures currentPage ==
        if 1 <= old(currentPage) + 1 <= totalPages then old(currentPage) + 1 else old(currentPage)
    {
      HandlePageChange(currentPage + 1);
    }
  }
}

=== FILE: PostSchema.dfy ===
/** The blog-post schema the server checks every create and edit request against:
    trimmed title, excerpt and content with length bounds, a boolean `published`
    flag and an array of string tags. Keys outside the schema are dropped. */
module PostSchema {
  import opened Wrappers
  import opened Json
  import opened Text
  import opened Issues

  /** The validated record: exactly the five schema fields, strings trimmed. */
  datatype PostData = PostData(
    title: string,
    excerpt: string,
    content: string,
    published: bool,
    tags: seq<string>)

  const TitleMin: nat := 4
  const TitleMax: nat := 100
  const ExcerptMin: nat := 10
  const ExcerptMax: nat := 500

  /** A trimmed string field: the wrong type is one issue; otherwise the lower and
      the (optional) upper length checks each add an issue when they fail. */
  function TrimmedTextIssues(field: string, v: Option<Json>, lo: nat, loMsg: string,
                             hi: Option<nat>, hiMsg: string): (r: seq<Issue>)
    ensures |r| == 0 <==>
      (v.Some? && v.value.JStr? && lo <= |Trim(v.value.s)| &&
       (hi.Some? ==> |Trim(v.value.s)| <= hi.value))
    ensures forall i :: 0 <= i < |r| ==> r[i].path == [Key(field)]
  {
    if v.None? || !v.value.JStr? then [InvalidType([Key(field)], "string", v)]
    else LengthIssues(field, |Trim(v.value.s)|, lo, loMsg, hi, hiMsg)
  }

  /** The `min` check, then the `max` check, on a length. */
  function LengthIssues(field: string, n: nat, lo: nat, loMsg: string,
                        hi: Option<nat>, hiMsg: string): (r: seq<Issue>)
    ensures |r| == 0 <==> lo <= n && (hi.Some? ==> n <= hi.value)
    ensures forall i :: 0 <= i < |r| ==> r[i].path == [Key(field)]
  {
    (if n < lo then [FieldIssue(field, loMsg)] else []) +
    (if hi.Some? && n > hi.value then [FieldIssue(field, hiMsg)] else [])
  }

  function TitleIssues(v: Option<Json>): seq<Issue> {
    TrimmedTextIssues("title", v, TitleMin, "Title should be at least 4 characters long",
      Some(TitleMax), "Title cannot be longer than 100 characters")
  }

  function ExcerptIssues(v: Option<Json>): seq<Issue> {
    TrimmedTextIssues("excerpt", v, ExcerptMin, "Blog summary should be at least 10 characters long",
      Some(ExcerptMax), "Blog summary cannot be longer than 500 characters")
  }

  function ContentIssues(v: Option<Json>): seq<Issue> {
    TrimmedTextIssues("content", v, 1, "Blog content cannot be empty", None, "")
  }

  function PublishedIssues(v: Option<Json>): seq<Issue> {
    if v.Some? && v.value.JBool? then [] else [InvalidType([Key("published")], "boolean", v)]
  }

  /** One issue per array element that is not a string, at path `tags[i]`. */
  function TagElementIssues(items: seq<Json>, from: nat): (r: seq<Issue>)
    ensures |r| == 0 <==> forall i :: 0 <= i < |items| ==> items[i].JStr?
    ensures forall i :: 0 <= i < |r| ==> |r[i].path| == 2 && r[i].path[0] == Key("tags")
    decreases |items|
  {
    if |items| == 0 then []
    else
      var rest := TagElementIssues(items[1..], from + 1);
      assert forall i :: 1 <= i < |items| ==> items[i] == items[1..][i - 1];
      (if items[0].JStr? then [] else [InvalidType([Key("tags"), Index(from)], "string", Some(items[0]))])
      + rest
  }

  function TagsIssues(v: Option<Json>): (r: seq<Issue>)
    ensures forall i :: 0 <= i < |r| ==> |r[i].path| >= 1 && r[i].path[0] == Key("tags")
  {
    if v.Some? && v.value.JArr? then TagElementIssues(v.value.items, 0)
    else [InvalidType([Key("tags")], "array", v)]
  }

  /** The issues of the five schema fields, in schema order. */
  function FieldsIssues(title: Option<Json>, excerpt: Option<Json>, content: Option<Json>,
                        published: Option<Json>, tags: Option<Json>): seq<Issue> {
    TitleIssues(title) + ExcerptIssues(excerpt) + ContentIssues(content) +
    PublishedIssues(published) + TagsIssues(tags)
  }

  /** Every issue the schema reports for a request body, in schema order. */
  function PostIssues(body: Json): seq<Issue> {
    if !body.JObj? then [InvalidType([], "object", Some(body))]
    else
      FieldsIssues(Get(body, "title"), Get(body, "excerpt"), Get(body, "content"),
        Get(body, "published"), Get(body, "tags"))
  }

  predicate TitleOk(v: Option<Json>) {
    v.Some? && v.value.JStr? && TitleMin <= |Trim(v.value.s)| <= TitleMax
  }

  predicate ExcerptOk(v: Option<Json>) {
    v.Some? && v.value.JStr? && ExcerptMin <= |Trim(v.value.s)| <= ExcerptMax
  }

  predicate ContentOk(v: Option<Json>) {
    v.Some? && v.value.JStr? && Trim(v.value.s) != []
  }

  predicate PublishedOk(v: Option<Json>) {
    v.Some? && v.value.JBool?
  }

  /** Any array of strings, the empty string included, is a valid tag list. */
  predicate TagsOk(v: Option<Json>) {
    v.Some? && v.value.JArr? && forall i :: 0 <= i < |v.value.items| ==> v.value.items[i].JStr?
  }

  /** The acceptance condition, field by field. */
  predicate PostAccepted(body: Json) {
    body.JObj? &&
    TitleOk(Get(body, "title")) && ExcerptOk(Get(body, "excerpt")) &&
    ContentOk(Get(body, "content")) && PublishedOk(Get(body, "published")) &&
    TagsOk(Get(body, "tags"))
  }

  /** The fields report no issue exactly when every field passes. */
  lemma FieldsIssuesEmpty(title: Option<Json>, excerpt: Option<Json>, content: Option<Json>,
                          published: Option<Json>, tags: Option<Json>)
    ensures |FieldsIssues(title, excerpt, content, published, tags)| == 0 <==>
      TitleOk(title) && ExcerptOk(excerpt) && ContentOk(content) && PublishedOk(published) && TagsOk(tags)
  {
    var a, b, c := TitleIssues(title), ExcerptIssues(excerpt), ContentIssues(content);
    var d, e := PublishedIssues(published), TagsIssues(tags);
    assert FieldsIssues(title, excerpt, content, published, tags) == a + b + c + d + e;
    assert |a + b + c + d + e| == |a| + |b| + |c| + |d| + |e|;
    TitleRun(title);
    ExcerptRun(excerpt);
    ContentRun(content);
    PublishedRun(published);
    TagsRun(tags);
  }

  function TagStrings(items: seq<Json>): (r: seq<string>)
    requires forall i :: 0 <= i < |items| ==> items[i].JStr?
    ensures |r| == |items| && forall i :: 0 <= i < |r| ==> items[i] == JStr(r[i])
  {
    seq(|items|, i requires 0 <= i < |items| => items[i].s)
  }

  /** The schema's `safeParse`: the trimmed five-field record, or every issue. */
  function ValidatePost(body: Json): (r: Result<PostData, seq<Issue>>)
    ensures r.Ok? <==> PostAccepted(body)
    ensures r.Err? ==> r.error == PostIssues(body) && |r.error| > 0
    ensures r.Ok? ==>
      Trimmed(r.value.title) && TitleMin <= |r.value.title| <= TitleMax &&
      Trimmed(r.value.excerpt) && ExcerptMin <= |r.value.excerpt| <= ExcerptMax &&
      Trimmed(r.value.content) && r.value.content != []
    ensures r.Ok? ==>
      r.value.title == Trim(Get(body, "title").value.s) &&
      r.value.excerpt == Trim(Get(body, "excerpt").value.s) &&
      r.value.content == Trim(Get(body, "content").value.s) &&
      Get(body, "published") == Some(JBool(r.value.published)) &&
      |r.value.tags| == |Get(body, "tags").value.items| &&
      forall i :: 0 <= i < |r.value.tags| ==> Get(body, "tags").value.items[i] == JStr(r.value.tags[i])
  {
    if !body.JObj? then Err(PostIssues(body))
    else
      var r := ValidateFields(Get(body, "title"), Get(body, "excerpt"), Get(body, "content"),
        Get(body, "published"), Get(body, "tags"));
      assert PostAccepted(body) <==> r.Ok?;
      r
  }

  /** `safeParse` on the object's five schema fields. */
  function ValidateFields(title: Option<Json>, excerpt: Option<Json>, content: Option<Json>,
                          published: Option<Json>, tags: Option<Json>): (r: Result<PostData, seq<Issue>>)
    ensures r.Ok? <==>
      TitleOk(title) && ExcerptOk(excerpt) && ContentOk(content) && PublishedOk(published) && TagsOk(tags)
    ensures r.Err? ==> r.error == FieldsIssues(title, excerpt, content, published, tags) && |r.error| > 0
    ensures r.Ok? ==>
      r.value.title == Trim(title.value.s) && r.value.excerpt == Trim(excerpt.value.s) &&
      r.value.content == Trim(content.value.s) && published == Some(JBool(r.value.published)) &&
      |r.value.tags| == |tags.value.items| &&
      forall i :: 0 <= i < |r.value.tags| ==> tags.value.items[i] == JStr(r.value.tags[i])
  {
    var issues := FieldsIssues(title, excerpt, content, published, tags);
    FieldsIssuesEmpty(title, excerpt, content, published, tags);
    if |issues| == 0 then
      Ok(PostData(Trim(title.value.s), Trim(excerpt.value.s), Trim(content.value.s),
        published.value.b, TagStrings(tags.value.items)))
    else
      Err(issues)
  }

  /** The 400 response's map has a key exactly for each schema field that fails;
      a body that is not an object gives an issue with an empty path, so the map
      is empty. */
  lemma {:induction false} PostFieldErrorKeys(body: Json, k: string)
    ensures k in FieldErrors(PostIssues(body)) <==>
      body.JObj? &&
      ((k == "title" && !TitleOk(Get(body, "title"))) ||
       (k == "excerpt" && !ExcerptOk(Get(body, "excerpt"))) ||
       (k == "content" && !ContentOk(Get(body, "content"))) ||
       (k == "published" && !PublishedOk(Get(body, "published"))) ||
       (k == "tags" && !TagsOk(Get(body, "tags"))))
  {
    var issues := PostIssues(body);
    FieldErrorsLastWins(issues, k);
    if !body.JObj? {
      assert HeadKey(issues[0]) == None;
    } else {
      FieldsHeadKeys(Get(body, "title"), Get(body, "excerpt"), Get(body, "content"),
        Get(body, "published"), Get(body, "tags"), k);
    }
  }

  /** The five fields' issues carry a key exactly for each field that fails. */
  lemma {:induction false} FieldsHeadKeys(title: Option<Json>, excerpt: Option<Json>, content: Option<Json>,
                                          published: Option<Json>, tags: Option<Json>, k: string)
    ensures HasHeadKey(FieldsIssues(title, excerpt, content, published, tags), k) <==>
      ((k == "title" && !TitleOk(title)) ||
       (k == "excerpt" && !ExcerptOk(excerpt)) ||
       (k == "content" && !ContentOk(content)) ||
       (k == "published" && !PublishedOk(published)) ||
       (k == "tags" && !TagsOk(tags)))
  {
    var g := TagsIssues(tags);
    TitleRun(title);
    ExcerptRun(excerpt);
    ContentRun(content);
    PublishedRun(published);
    TagsRun(tags);
    FiveFieldKeys(TitleIssues(title), ExcerptIssues(excerpt), ContentIssues(content),
      PublishedIssues(published), g,
      TitleOk(title), ExcerptOk(excerpt), ContentOk(content), PublishedOk(published), TagsOk(tags), k);
  }

  /** Each field's issues are empty exactly when it passes, and all sit under its key. */
  lemma TitleRun(v: Option<Json>)
    ensures |TitleIssues(v)| == 0 <==> TitleOk(v)
    ensures forall i :: 0 <= i < |TitleIssues(v)| ==>
      |TitleIssues(v)[i].path| >= 1 && TitleIssues(v)[i].path[0] == Key("title")
  {
  }

  lemma ExcerptRun(v: Option<Json>)
    ensures |ExcerptIssues(v)| == 0 <==> ExcerptOk(v)
    ensures forall i :: 0 <= i < |ExcerptIssues(v)| ==>
      |ExcerptIssues(v)[i].path| >= 1 && ExcerptIssues(v)[i].path[0] == Key("excerpt")
  {
  }

  lemma ContentRun(v: Option<Json>)
    ensures |ContentIssues(v)| == 0 <==> ContentOk(v)
    ensures forall i :: 0 <= i < |ContentIssues(v)| ==>
      |ContentIssues(v)[i].path| >= 1 && ContentIssues(v)[i].path[0] == Key("content")
  {
  }

  lemma PublishedRun(v: Option<Json>)
    ensures |PublishedIssues(v)| == 0 <==> PublishedOk(v)
    ensures forall i :: 0 <= i < |PublishedIssues(v)| ==>
      |PublishedIssues(v)[i].path| >= 1 && PublishedIssues(v)[i].path[0] == Key("published")
  {
  }

  lemma TagsRun(v: Option<Json>)
    ensures |TagsIssues(v)| == 0 <==> TagsOk(v)
    ensures forall i :: 0 <= i < |TagsIssues(v)| ==>
      |TagsIssues(v)[i].path| >= 1 && TagsIssues(v)[i].path[0] == Key("tags")
  {
    if v.Some? && v.value.JArr? {
      assert TagsIssues(v) == TagElementIssues(v.value.items, 0);
    }
  }

  /** Five runs of issues, each under its own field and empty exactly when that field
      passes, carry a key exactly for each field that fails. */
  lemma FiveFieldKeys(t: seq<Issue>, e: seq<Issue>, c: seq<Issue>, p: seq<Issue>, g: seq<Issue>,
                      okT: bool, okE: bool, okC: bool, okP: bool, okG: bool, k: string)
    requires |t| == 0 <==> okT
    requires |e| == 0 <==> okE
    requires |c| == 0 <==> okC
    requires |p| == 0 <==> okP
    requires |g| == 0 <==> okG
    requires forall i :: 0 <= i < |t| ==> |t[i].path| >= 1 && t[i].path[0] == Key("title")
    requires forall i :: 0 <= i < |e| ==> |e[i].path| >= 1 && e[i].path[0] == Key("excerpt")
    requires forall i :: 0 <= i < |c| ==> |c[i].path| >= 1 && c[i].path[0] == Key("content")
    requires forall i :: 0 <= i < |p| ==> |p[i].path| >= 1 && p[i].path[0] == Key("published")
    requires forall i :: 0 <= i < |g| ==> |g[i].path| >= 1 && g[i].path[0] == Key("tags")
    ensures HasHeadKey(t + e + c + p + g, k) <==>
      ((k == "title" && !okT) || (k == "excerpt" && !okE) || (k == "content" && !okC) ||
       (k == "published" && !okP) || (k == "tags" && !okG))
  {
    HasHeadKeyConcat(t + e + c + p, g, k);
    HasHeadKeyConcat(t + e + c, p, k);
    HasHeadKeyConcat(t + e, c, k);
    HasHeadKeyConcat(t, e, k);
    HasHeadKeyOneField(t, "title", k);
    HasHeadKeyOneField(e, "excerpt", k);
    HasHeadKeyOneField(c, "content", k);
    HasHeadKeyOneField(p, "published", k);
    HasHeadKeyOneField(g, "tags", k);
  }

  /** Keys outside the schema neither change the verdict nor reach the record. */
  lemma UnknownKeysIgnored(fields: map<string, Json>, k: string, x: Json)
    requires k !in {"title", "excerpt", "content", "published", "tags"}
    ensures ValidatePost(JObj(fields[k := x])) == ValidatePost(JObj(fields))
  {
    var a, b := JObj(fields[k := x]), JObj(fields);
    assert Get(a, "title") == Get(b, "title");
    assert Get(a, "excerpt") == Get(b, "excerpt");
    assert Get(a, "content") == Get(b, "content");
    assert Get(a, "published") == Get(b, "published");
    assert Get(a, "tags") == Get(b, "tags");
  }
}

=== FILE: PostsController.dfy ===
/** The post handlers of the server. Each handler is a function of the request
    and of what the store answered: it returns the store call it made (if any)
    and the response it sent. The store itself is not modelled, except for the
    visible effect of inserting a post. */
module PostsController {
  import opened Wrappers
  import opened Json
  import opened Text
  import opened Issues
  import opened PostSchema
  import opened Http

  /** The store queries the handlers call, with their arguments. */
  datatype StoreCall =
    | NoCall
    | InsertPost(data: PostData, authorId: string)
    | SelectUserPosts(userId: string, page: int, limit: int)
    | SelectUserPostDetails(postId: string, userId: string)
    | UpdateUserPost(data: PostData, postId: string, userId: string)
    | DeleteUserPost(postId: string, userId: string)
    | SelectPublishedPosts
    | SelectPublishedPostBySlug(slug: string)

  datatype Handled = Handled(call: StoreCall, response: Response)

  /** The 400 response built from the schema's issues. */
  function InvalidBody(issues: seq<Issue>): Response {
    Response(400, Some(StringMap(FieldErrors(issues))))
  }

  const CreateFailed := "Something went wrong! Please try again after sometime"
  const FetchFailed := "Something went wrong"
  const UpdateFailed := "Something went wrong! Failed to update post details"
  const DeleteFailed := "Something went wrong! Failed to delete the post"
  const PublishedFailed := "Something went wrong! Failed to get posts"
  const SlugFailed := "Something went wrong! Failed to get post details"
  const NotFound := "Post not found!"

  /** Creating a post: validate, then insert with the caller as author. */
  function CreatePost(caller: string, body: Json, reply: Outcome<()>): (h: Handled)
    ensures h.response.status in {400, 201, 500}
    ensures h.response.status == 400 <==> !PostAccepted(body)
    ensures h.response.status == 400 ==> h.call == NoCall && h.response == InvalidBody(PostIssues(body))
    ensures h.call != NoCall ==> h.call == InsertPost(ValidatePost(body).value, caller)
    ensures h.call == NoCall <==> h.response.status == 400
    ensures h.response.status == 201 <==> PostAccepted(body) && reply.Returned?
    ensures h.response.status == 201 ==> h.response == Reply(201, "Post Created")
    ensures h.response.status == 500 ==> h.response == Reply(500, CreateFailed)
  {
    match ValidatePost(body)
    case Err(issues) => Handled(NoCall, InvalidBody(issues))
    case Ok(data) =>
      var call := InsertPost(data, caller);
      match reply
      case Returned(_) => Handled(call, Reply(201, "Post Created"))
      case Threw => Handled(call, Reply(500, CreateFailed))
  }

  /** Editing a post: an empty id is refused first, then the body is validated. */
  function EditUserPost(caller: string, postId: string, body: Json, reply: Outcome<()>): (h: Handled)
    ensures h.response.status in {404, 400, 200, 500}
    ensures h.response.status == 404 <==> postId == ""
    ensures h.response.status == 404 ==> h.call == NoCall && h.response == Reply(404, NotFound)
    ensures h.response.status == 400 <==> postId != "" && !PostAccepted(body)
    ensures h.response.status == 400 ==> h.call == NoCall && h.response == InvalidBody(PostIssues(body))
    ensures h.call != NoCall ==> h.call == UpdateUserPost(ValidatePost(body).value, postId, caller)
    ensures h.response.status == 200 <==> postId != "" && PostAccepted(body) && reply.Returned?
    ensures h.response.status == 200 ==> h.response == Reply(200, "Post updated")
    ensures h.response.status == 500 ==> h.response == Reply(500, UpdateFailed)
  {
    if postId == "" then Handled(NoCall, Reply(404, NotFound))
    else match ValidatePost(body)
      case Err(issues) => Handled(NoCall, InvalidBody(issues))
      case Ok(data) =>
        var call := UpdateUserPost(data, postId, caller);
        match reply
        case Returned(_) => Handled(call, Reply(200, "Post updated"))
        case Threw => Handled(call, Reply(500, UpdateFailed))
  }

  /** Deleting a post: 204 with no body on success. */
  function RemoveUserPost(caller: string, postId: string, reply: Outcome<()>): (h: Handled)
    ensures h.response.status in {404, 204, 500}
    ensures h.response.status == 404 <==> postId == ""
    ensures h.response.status == 404 ==> h.call == NoCall && h.response == Reply(404, NotFound)
    ensures postId != "" ==> h.call == DeleteUserPost(postId, caller)
    ensures h.response.status == 204 <==> postId != "" && reply.Returned?
    ensures h.response.status == 204 ==> h.response.body.None?
    ensures h.response.status == 500 ==> h.response == Reply(500, DeleteFailed)
  {
    if postId == "" then Handled(NoCall, Reply(404, NotFound))
    else
      var call := DeleteUserPost(postId, caller);
      match reply
      case Returned(_) => Handled(call, Response(204, None))
      case Threw => Handled(call, Reply(500, DeleteFailed))
  }

  /** The caller's post as the store returned it; a missing post is whatever the
      store returns for it (null), still with status 200. */
  function GetPostDetails(caller: string, postId: string, reply: Outcome<Json>): (h: Handled)
    ensures h.call == SelectUserPostDetails(postId, caller)
    ensures h.response.status in {200, 500}
    ensures reply.Returned? ==> h.response == Response(200, Some(reply.value))
    ensures reply.Threw? ==> h.response == Reply(500, FetchFailed)
  {
    var call := SelectUserPostDetails(postId, caller);
    match reply
    case Returned(post) => Handled(call, Response(200, Some(post)))
    case Threw => Handled(call, Reply(500, FetchFailed))
  }

  /** The public listing: every published post under `data`, no paging. Its
      failure body is a bare JSON string, not a message object. */
  function GetPublishedPosts(reply: Outcome<seq<Json>>): (h: Handled)
    ensures h.call == SelectPublishedPosts
    ensures reply.Returned? ==>
      h.response == Response(200, Some(JObj(map["data" := JArr(reply.value)])))
    ensures reply.Threw? ==> h.response == Response(500, Some(JStr(PublishedFailed)))
  {
    match reply
    case Returned(posts) => Handled(SelectPublishedPosts, Response(200, Some(JObj(map["data" := JArr(posts)]))))
    case Threw => Handled(SelectPublishedPosts, Response(500, Some(JStr(PublishedFailed))))
  }

  /** A public post by slug, passed through with status 200. */
  function GetPublishedPostBySlug(slug: string, reply: Outcome<Json>): (h: Handled)
    ensures h.call == SelectPublishedPostBySlug(slug)
    ensures reply.Returned? ==> h.response == Response(200, Some(reply.value))
    ensures reply.Threw? ==> h.response == Reply(500, SlugFailed)
  {
    var call := SelectPublishedPostBySlug(slug);
    match reply
    case Returned(post) => Handled(call, Response(200, Some(post)))
    case Threw => Handled(call, Reply(500, SlugFailed))
  }

  /** A numeric query value, falling back to `fallback` when it is missing, does
      not parse, or parses to zero. */
  function QueryNumber(q: Option<string>, fallback: int): (r: int)
    ensures fallback != 0 ==> r != 0
    ensures ParseInt(q).None? || ParseInt(q) == Some(0) ==> r == fallback
    ensures ParseInt(q).Some? && ParseInt(q).value != 0 ==> r == ParseInt(q).value
  {
    match ParseInt(q)
    case Some(n) => if n != 0 then n else fallback
    case None => fallback
  }

  /** `parseInt(req.query.page) || 1`: never zero, 1 when the query is absent,
      the parsed value when it parses to a non-zero number. */
  function PageParam(q: Option<string>): (page: int)
    ensures page != 0
    ensures q.None? ==> page == 1
    ensures ParseInt(q).Some? && ParseInt(q).value != 0 ==> page == ParseInt(q).value
  {
    QueryNumber(q, 1)
  }

  /** `parseInt(req.query.limit) || 20`, in the same way with default 20. */
  function LimitParam(q: Option<string>): (limit: int)
    ensures limit != 0
    ensures q.None? ==> limit == 20
    ensures ParseInt(q).Some? && ParseInt(q).value != 0 ==> limit == ParseInt(q).value
  {
    QueryNumber(q, 20)
  }

  /** A page number written in decimal comes back unchanged; the default is used
      only for a missing, non-numeric or zero value. */
  lemma PageParamEcho(p: int)
    requires p != 0
    ensures PageParam(Some(IntString(p))) == p
    ensures LimitParam(Some(IntString(p))) == p
  {
    ParseIntString(p);
  }

  /** The list response's body. */
  function PageBody(rows: seq<Json>, page: int, limit: int, total: int, totalPages: int): Json {
    JObj(map[
      "data" := JArr(rows), "page" := JNum(page), "limit" := JNum(limit),
      "total" := JNum(total), "totalPages" := JNum(totalPages)])
  }

  /** Listing the caller's posts, one page at a time. As written, `total` is the
      number of rows on the returned page. */
  function GetUserPosts(caller: string, pageQuery: Option<string>, limitQuery: Option<string>,
                        reply: Outcome<seq<Json>>): (h: Handled)
    ensures h.call == SelectUserPosts(caller, PageParam(pageQuery), LimitParam(limitQuery))
    ensures h.call.page != 0 && h.call.limit != 0
    ensures reply.Returned? ==>
      h.response == Response(200, Some(PageBody(reply.value, h.call.page, h.call.limit,
        |reply.value|, CeilDiv(|reply.value|, h.call.limit))))
    ensures reply.Threw? ==> h.response == Reply(500, FetchFailed)
  {
    var page := PageParam(pageQuery);
    var limit := LimitParam(limitQuery);
    var call := SelectUserPosts(caller, page, limit);
    match reply
    case Returned(posts) =>
      var total := |posts|;
      Handled(call, Response(200, Some(PageBody(posts, page, limit, total, CeilDiv(total, limit)))))
    case Threw => Handled(call, Reply(500, FetchFailed))
  }

  /** As written: whenever the store returns at most `limit` rows, the reported
      page count is at most one, so a client that stops at `totalPages` never
      asks for a second page. */
  lemma {:induction false} ReportedPagesAtMostOne(rows: seq<Json>, limit: int)
    requires 0 < limit && |rows| <= limit
    ensures 0 <= CeilDiv(|rows|, limit) <= 1
  {
    var r := CeilDiv(|rows|, limit);
    assert (r - 1) * limit < limit;
    assert 0 <= r * limit;
  }

  /** A concrete case: 25 posts and pages of 9, page 1. The store hands back 9
      rows; the response says there is one page, where there are three. */
  lemma TotalPagesCounterexample(caller: string, rows: seq<Json>)
    requires |rows| == 9
    ensures GetUserPosts(caller, Some("1"), Some("9"), Returned(rows)).response ==
      Response(200, Some(PageBody(rows, 1, 9, 9, 1)))
    ensures CeilDiv(25, 9) == 3
  {
    ParseIntString(1);
    ParseIntString(9);
    assert IntString(1) == "1" && IntString(9) == "9";
    ReportedPagesAtMostOne(rows, 9);
  }

  /** The listing with `total` taken from the number of the caller's posts, which
      the store reports beside the page of rows. */
  function GetUserPostsCounted(caller: string, pageQuery: Option<string>, limitQuery: Option<string>,
                               reply: Outcome<(seq<Json>, nat)>): (h: Handled)
    ensures h.call == SelectUserPosts(caller, PageParam(pageQuery), LimitParam(limitQuery))
    ensures reply.Returned? ==>
      h.response == Response(200, Some(PageBody(reply.value.0, h.call.page, h.call.limit,
        reply.value.1, CeilDiv(reply.value.1, h.call.limit))))
    ensures reply.Threw? ==> h.response == Reply(500, FetchFailed)
  {
    var page := PageParam(pageQuery);
    var limit := LimitParam(limitQuery);
    var call := SelectUserPosts(caller, page, limit);
    match reply
    case Returned((posts, total)) =>
      Handled(call, Response(200, Some(PageBody(posts, page, limit, total, CeilDiv(total, limit)))))
    case Threw => Handled(call, Reply(500, FetchFailed))
  }

  /** With the full count, the pages 1..totalPages cover every post: the post at
      position i sits on page i / limit + 1, which is within range. */
  lemma CountedPagesCoverAll(count: nat, limit: int, i: nat)
    requires limit > 0 && i < count
    ensures 1 <= i / limit + 1 <= CeilDiv(count, limit)
  {
    var t := CeilDiv(count, limit);
    var q := i / limit;
    assert q * limit <= i < count <= t * limit;
    MulCancel(q, t, limit);
  }

  /** ... and every page in range starts before the last post, so none is empty. */
  lemma CountedPagesNonEmpty(count: nat, limit: int, p: int)
    requires limit > 0 && 1 <= p <= CeilDiv(count, limit)
    ensures (p - 1) * limit < count
  {
    var t := CeilDiv(count, limit);
    assert (t - 1 - (p - 1)) * limit >= 0;
    assert (t - 1) * limit - (p - 1) * limit == (t - 1 - (p - 1)) * limit;
  }

  /** A stored post and its author. */
  datatype StoredPost = StoredPost(authorId: string, data: PostData)

  /** The posts of one author, in store order. */
  function PostsBy(store: seq<StoredPost>, author: string): (r: seq<PostData>)
    ensures |r| <= |store|
  {
    if |store| == 0 then []
    else
      var front := PostsBy(store[..|store| - 1], author);
      var last := store[|store| - 1];
      if last.authorId == author then front + [last.data] else front
  }

  /** The store after a create: a successful insert appends the validated post
      with the caller as author; anything else leaves it as it was. */
  function AfterCreate(store: seq<StoredPost>, h: Handled): seq<StoredPost> {
    if h.call.InsertPost? && h.response.status == 201
    then store + [StoredPost(h.call.authorId, h.call.data)]
    else store
  }

  /** Creating a post never adds to another author's posts, and adds exactly the
      validated post to the caller's when the response is 201. */
  lemma {:induction false} CreateOnlyAddsCallersPost(store: seq<StoredPost>, caller: string, body: Json,
                                                     reply: Outcome<()>, author: string)
    ensures var h := CreatePost(caller, body, reply);
      PostsBy(AfterCreate(store, h), author) ==
        if author == caller && h.response.status == 201
        then PostsBy(store, author) + [ValidatePost(body).value]
        else PostsBy(store, author)
  {
    var h := CreatePost(caller, body, reply);
    AfterCreateByAuthor(store, h, caller, author);
  }

  /** The store after a handled create, by author: only an insert answered with
      201 adds its post, and only to its author's list. */
  lemma AfterCreateByAuthor(store: seq<StoredPost>, h: Handled, caller: string, author: string)
    requires h.call.InsertPost? ==> h.call.authorId == caller
    ensures PostsBy(AfterCreate(store, h), author) ==
      if author == caller && h.call.InsertPost? && h.response.status == 201
      then PostsBy(store, author) + [h.call.data]
      else PostsBy(store, author)
  {
    if h.call.InsertPost? && h.response.status == 201 {
      PostsByAppend(store, StoredPost(h.call.authorId, h.call.data), author);
    }
  }

  /** Appending a stored post adds its data to its own author's list only. */
  lemma PostsByAppend(store: seq<StoredPost>, sp: StoredPost, author: string)
    ensures PostsBy(store + [sp], author) ==
      PostsBy(store, author) + (if sp.authorId == author then [sp.data] else [])
  {
    assert (store + [sp])[..|store + [sp]| - 1] == store;
  }

  /** Create and edit answer an invalid body identically, without a store call. */
  lemma CreateEditAgreeOnInvalid(caller: string, postId: string, body: Json,
                                 r1: Outcome<()>, r2: Outcome<()>)
    requires postId != "" && !PostAccepted(body)
    ensures CreatePost(caller, body, r1) == EditUserPost(caller, postId, body, r2)
    ensures CreatePost(caller, body, r1).response.status == 400
  {
  }
}

=== FILE: ProfileSchema.dfy ===
/** The server's profile schema and the admin client's copy of it. The admin
    pages send a profile update without parsing it first, so only the server's
    copy applies to a request. The two copies differ only in the message of the
    full-name refinement, which is therefore a parameter here. The library's
    e-mail and URL format checks are parameters as well. */
module ProfileSchema {
  import opened Wrappers
  import opened Json
  import opened Text
  import opened Issues

  /** The parsed profile: `username` and `bio` trimmed, optional fields absent
      when the body lacks them. */
  datatype Profile = Profile(
    id: string,
    name: string,
    username: string,
    email: string,
    image: Option<string>,
    coverImage: Option<string>,
    website: Option<string>,
    bio: Option<string>)

  const ServerNameMessage := "Enter a valid full name"
  const AdminNameMessage := "Enter a valid full name e.g John Doe"
  const NameMin: nat := 4
  const BioMax: nat := 180

  function TypeIssue(field: string, v: Option<Json>): Issue {
    InvalidType([Key(field)], "string", v)
  }

  function IdIssues(v: Option<Json>): (r: seq<Issue>)
    ensures |r| == 0 <==> IsString(v)
    ensures Aborted(r) <==> !IsString(v)
  {
    AbortedOne(TypeIssue("id", v));
    if IsString(v) then [] else [TypeIssue("id", v)]
  }

  /** `name`: a string of at least four characters, not trimmed. */
  function NameIssues(v: Option<Json>): (r: seq<Issue>)
    ensures |r| == 0 <==> IsString(v) && NameMin <= |v.value.s|
    ensures Aborted(r) <==> !IsString(v)
  {
    AbortedOne(TypeIssue("name", v));
    if !IsString(v) then [TypeIssue("name", v)]
    else MinLength("name", |v.value.s|, NameMin, "Fullname should contain at least 4 characters")
  }

  /** `username`: trimmed, then at least one character. */
  function UsernameIssues(v: Option<Json>): (r: seq<Issue>)
    ensures |r| == 0 <==> IsString(v) && Trim(v.value.s) != []
    ensures Aborted(r) <==> !IsString(v)
  {
    AbortedOne(TypeIssue("username", v));
    if !IsString(v) then [TypeIssue("username", v)]
    else MinLength("username", |Trim(v.value.s)|, 1, "Username is required")
  }

  /** `email`: a string in the library's e-mail format. */
  function EmailIssues(v: Option<Json>, isEmail: string -> bool): (r: seq<Issue>)
    ensures |r| == 0 <==> IsString(v) && isEmail(v.value.s)
    ensures Aborted(r) <==> !IsString(v)
  {
    AbortedOne(TypeIssue("email", v));
    if !IsString(v) then [TypeIssue("email", v)]
    else if isEmail(v.value.s) then []
    else [FieldIssue("email", "Invalid email address")]
  }

  /** An optional string: absent, or a string. */
  predicate OptString(v: Option<Json>) {
    v.None? || IsString(v)
  }

  function OptionalStringIssues(field: string, v: Option<Json>): (r: seq<Issue>)
    ensures |r| == 0 <==> OptString(v)
    ensures Aborted(r) <==> !OptString(v)
  {
    AbortedOne(TypeIssue(field, v));
    if OptString(v) then [] else [TypeIssue(field, v)]
  }

  /** `website`: absent, the empty string, or a URL. A string that is neither is
      reported by the URL alternative, which does not stop the refinements; any
      other value fails the union as a whole, which does. */
  function WebsiteIssues(v: Option<Json>, isUrl: string -> bool): (r: seq<Issue>)
    ensures |r| == 0 <==> v.None? || (IsString(v) && (v.value.s == "" || isUrl(v.value.s)))
    ensures Aborted(r) <==> !OptString(v)
  {
    AbortedOne(Issue([Key("website")], "Invalid input", false));
    if v.None? then []
    else if IsString(v) then
      if v.value.s == "" || isUrl(v.value.s) then [] else [FieldIssue("website", "Invalid URL")]
    else [Issue([Key("website")], "Invalid input", false)]
  }

  /** `bio`: absent, or a string of at most 180 characters once trimmed. */
  function BioIssues(v: Option<Json>): (r: seq<Issue>)
    ensures |r| == 0 <==> v.None? || (IsString(v) && |Trim(v.value.s)| <= BioMax)
    ensures Aborted(r) <==> !OptString(v)
  {
    AbortedOne(TypeIssue("bio", v));
    if v.None? then []
    else if IsString(v) then
      MaxLength("bio", |Trim(v.value.s)|, BioMax, "Bio cannot be longer than 180 characters")
    else [TypeIssue("bio", v)]
  }

  /** The types every field must have for the refinement to run. */
  predicate ShapeTypesOk(body: Json) {
    IsString(Get(body, "id")) && IsString(Get(body, "name")) &&
    IsString(Get(body, "username")) && IsString(Get(body, "email")) &&
    OptString(Get(body, "image")) && OptString(Get(body, "coverImage")) &&
    OptString(Get(body, "website")) && OptString(Get(body, "bio"))
  }

  /** The issues of the object's fields, in schema order. */
  function ShapeIssues(body: Json, isEmail: string -> bool, isUrl: string -> bool): (r: seq<Issue>)
    ensures Aborted(r) <==> !ShapeTypesOk(body)
  {
    var a := IdIssues(Get(body, "id"));
    var b := NameIssues(Get(body, "name"));
    var c := UsernameIssues(Get(body, "username"));
    var d := EmailIssues(Get(body, "email"), isEmail);
    var e := OptionalStringIssues("image", Get(body, "image"));
    var f := OptionalStringIssues("coverImage", Get(body, "coverImage"));
    var g := WebsiteIssues(Get(body, "website"), isUrl);
    var h := BioIssues(Get(body, "bio"));
    AbortedConcat(a, b);
    AbortedConcat(a + b, c);
    AbortedConcat(a + b + c, d);
    AbortedConcat(a + b + c + d, e);
    AbortedConcat(a + b + c + d + e, f);
    AbortedConcat(a + b + c + d + e + f, g);
    AbortedConcat(a + b + c + d + e + f + g, h);
    a + b + c + d + e + f + g + h
  }

  /** All issues: the fields', then the full-name refinement's when the fields'
      types let it run. The refinement sees the name as sent. */
  function ProfileIssues(body: Json, isEmail: string -> bool, isUrl: string -> bool,
                         nameMessage: string): seq<Issue>
  {
    if !body.JObj? then [InvalidType([], "object", Some(body))]
    else
      var shape := ShapeIssues(body, isEmail, isUrl);
      if Aborted(shape) then shape
      else if IsFullName(Get(body, "name").value.s) then shape
      else shape + [FieldIssue("name", nameMessage)]
  }

  /** The acceptance condition, field by field. */
  predicate ProfileAccepted(body: Json, isEmail: string -> bool, isUrl: string -> bool) {
    body.JObj? && ShapeTypesOk(body) &&
    var name := Get(body, "name").value.s;
    var website := Get(body, "website");
    var bio := Get(body, "bio");
    NameMin <= |name| && IsFullName(name) &&
    Trim(Get(body, "username").value.s) != [] &&
    isEmail(Get(body, "email").value.s) &&
    (website.None? || website.value.s == "" || isUrl(website.value.s)) &&
    (bio.None? || |Trim(bio.value.s)| <= BioMax)
  }

  function OptValue(v: Option<Json>): Option<string>
    requires OptString(v)
  {
    if v.None? then None else Some(v.value.s)
  }

  /** The fields' issues are none exactly when each field passes its check. */
  lemma {:induction false} ShapeIssuesEmpty(body: Json, isEmail: string -> bool, isUrl: string -> bool)
    ensures |ShapeIssues(body, isEmail, isUrl)| == 0 <==>
      ShapeTypesOk(body) &&
      NameMin <= |Get(body, "name").value.s| &&
      Trim(Get(body, "username").value.s) != [] &&
      isEmail(Get(body, "email").value.s) &&
      (Get(body, "website").None? || Get(body, "website").value.s == "" || isUrl(Get(body, "website").value.s)) &&
      (Get(body, "bio").None? || |Trim(Get(body, "bio").value.s)| <= BioMax)
  {
    var a := IdIssues(Get(body, "id"));
    var b := NameIssues(Get(body, "name"));
    var c := UsernameIssues(Get(body, "username"));
    var d := EmailIssues(Get(body, "email"), isEmail);
    var e := OptionalStringIssues("image", Get(body, "image"));
    var f := OptionalStringIssues("coverImage", Get(body, "coverImage"));
    var g := WebsiteIssues(Get(body, "website"), isUrl);
    var h := BioIssues(Get(body, "bio"));
    assert ShapeIssues(body, isEmail, isUrl) == a + b + c + d + e + f + g + h;
    assert |a + b + c + d + e + f + g + h| ==
      |a| + |b| + |c| + |d| + |e| + |f| + |g| + |h|;
  }

  /** The issues are none exactly when the profile is accepted. */
  lemma ProfileIssuesEmpty(body: Json, isEmail: string -> bool, isUrl: string -> bool,
                           nameMessage: string)
    ensures |ProfileIssues(body, isEmail, isUrl, nameMessage)| == 0 <==> ProfileAccepted(body, isEmail, isUrl)
  {
    if body.JObj? {
      var shape := ShapeIssues(body, isEmail, isUrl);
      ShapeIssuesEmpty(body, isEmail, isUrl);
      if |shape| == 0 {
        assert !Aborted(shape);
      }
    }
  }

  /** The schema's `safeParse`. */
  function ValidateProfile(body: Json, isEmail: string -> bool, isUrl: string -> bool,
                           nameMessage: string): (r: Result<Profile, seq<Issue>>)
    ensures r.Ok? <==> ProfileAccepted(body, isEmail, isUrl)
    ensures r.Err? ==> r.error == ProfileIssues(body, isEmail, isUrl, nameMessage) && |r.error| > 0
    ensures r.Ok? ==>
      IsFullName(r.value.name) && NameMin <= |r.value.name| &&
      Trimmed(r.value.username) && r.value.username != [] &&
      isEmail(r.value.email) &&
      (r.value.website.Some? ==> r.value.website.value == "" || isUrl(r.value.website.value)) &&
      (r.value.bio.Some? ==> Trimmed(r.value.bio.value) && |r.value.bio.value| <= BioMax)
    ensures r.Ok? ==>
      Get(body, "id") == Some(JStr(r.value.id)) &&
      Get(body, "name") == Some(JStr(r.value.name)) &&
      r.value.username == Trim(Get(body, "username").value.s) &&
      Get(body, "email") == Some(JStr(r.value.email)) &&
      r.value.image == OptValue(Get(body, "image")) &&
      r.value.coverImage == OptValue(Get(body, "coverImage")) &&
      r.value.website == OptValue(Get(body, "website")) &&
      (r.value.bio.Some? <==> Get(body, "bio").Some?) &&
      (r.value.bio.Some? ==> r.value.bio.value == Trim(Get(body, "bio").value.s))
  {
    var issues := ProfileIssues(body, isEmail, isUrl, nameMessage);
    ProfileIssuesEmpty(body, isEmail, isUrl, nameMessage);
    if |issues| == 0 then
      var bio := Get(body, "bio");
      Ok(Profile(
        Get(body, "id").value.s,
        Get(body, "name").value.s,
        Trim(Get(body, "username").value.s),
        Get(body, "email").value.s,
        OptValue(Get(body, "image")),
        OptValue(Get(body, "coverImage")),
        OptValue(Get(body, "website")),
        if bio.None? then None else Some(Trim(bio.value.s))))
    else Err(issues)
  }

  /** The server's and the admin client's copies accept the same profiles and
      parse them alike; only the refinement's message differs. */
  lemma ServerAdminAgree(body: Json, isEmail: string -> bool, isUrl: string -> bool)
    ensures ValidateProfile(body, isEmail, isUrl, ServerNameMessage).Ok? <==>
            ValidateProfile(body, isEmail, isUrl, AdminNameMessage).Ok?
    ensures ValidateProfile(body, isEmail, isUrl, ServerNameMessage).Ok? ==>
            ValidateProfile(body, isEmail, isUrl, ServerNameMessage) ==
            ValidateProfile(body, isEmail, isUrl, AdminNameMessage)
  {
  }

  /** When the fields have their types, a name that is not two or more words of
      letters is reported under `name` with the refinement's message, whatever the
      length check said before it. */
  lemma NamePatternReported(body: Json, isEmail: string -> bool, isUrl: string -> bool,
                            nameMessage: string)
    requires body.JObj? && ShapeTypesOk(body)
    requires !IsFullName(Get(body, "name").value.s)
    ensures var fe := FieldErrors(ProfileIssues(body, isEmail, isUrl, nameMessage));
      "name" in fe && fe["name"] == nameMessage
  {
    FieldErrorsAppend(ShapeIssues(body, isEmail, isUrl), "name", nameMessage);
  }

  /** An accepted name consists of at least two space-separated words of ASCII
      letters. */
  lemma AcceptedNameHasTwoWords(body: Json, isEmail: string -> bool, isUrl: string -> bool,
                                nameMessage: string)
    requires ValidateProfile(body, isEmail, isUrl, nameMessage).Ok?
    ensures var p := SplitOn(ValidateProfile(body, isEmail, isUrl, nameMessage).value.name, ' ');
      |p| >= 2 && forall i :: 0 <= i < |p| ==> p[i] != [] && AllLetters(p[i])
  {
    var r := ValidateProfile(body, isEmail, isUrl, nameMessage);
    var name := r.value.name;
    assert IsFullName(name);
    FullNameHasTwoWords(name);
  }
}

=== FILE: ReadingTime.dfy ===
/** The reader client's reading-time estimate: the number of
    whitespace-separated words of the trimmed text divided by a reading rate,
    rounded up, and never below one minute. */
module ReadingTime {
  import opened Text

  /** A reading time in minutes; a rate of zero divides a positive word count
      by zero and gives JavaScript's `Infinity`. (Zero words at rate zero would
      give `NaN`, but the word count is never zero: see `WordCountRuns`.) */
  datatype Minutes = Minutes(n: int) | Infinite

  const DefaultWordsPerMinute := 200

  /** The length of `text.trim().split(/\s+/)`. */
  function WordCount(text: string): nat {
    |SplitRuns(Trim(text))|
  }

  /** `Math.max(1, Math.ceil(words / wpm))`. */
  function MinutesFor(words: nat, wpm: int): (r: Minutes)
    ensures wpm == 0 <==> r.Infinite?
    ensures r.Minutes? ==> r.n >= 1
    ensures wpm > 0 ==> words <= r.n * wpm && (r.n == 1 || (r.n - 1) * wpm < words)
    ensures wpm < 0 ==> r == Minutes(1)
  {
    if wpm == 0 then Infinite
    else
      var c := CeilDiv(words, wpm);
      CeilDivNegative(words, wpm);
      Minutes(if 1 >= c then 1 else c)
  }

  /** `calculateReadingTime(text, wpm)`. */
  function CalculateReadingTime(text: string, wpm: int): (r: Minutes)
    ensures wpm != 0 ==> r.Minutes? && r.n >= 1
  {
    MinutesFor(WordCount(text), wpm)
  }

  /** `calculateReadingTime(text)`, with the default rate. */
  function CalculateReadingTimeDefault(text: string): (r: Minutes)
    ensures r.Minutes? && r.n >= 1
    ensures WordCount(text) <= 200 ==> r == Minutes(1)
  {
    CalculateReadingTime(text, DefaultWordsPerMinute)
  }

  /** Blank text still counts as one word. */
  lemma BlankIsOneWord(text: string)
    requires Blank(text)
    ensures WordCount(text) == 1
  {
    TrimEmptyIffBlank(text);
    assert Trim(text) == [];
  }

  /** The word count is one more than the number of whitespace runs in the
      trimmed text, so it is at least one. */
  lemma WordCountRuns(text: string)
    ensures WordCount(text) == 1 + SpaceRuns(Trim(text))
    ensures WordCount(text) >= 1
  {
    SplitRunsCount(Trim(text));
  }

  /** For non-blank text the counted pieces are exactly the words: each is a
      non-empty run without whitespace, together they spell out the text's
      non-whitespace characters in order, and there is one more of them than
      there are gaps of whitespace between them. */
  lemma CountedPiecesAreWords(text: string)
    requires !Blank(text)
    ensures var p := SplitRuns(Trim(text));
      |p| == WordCount(text) &&
      (forall i :: 0 <= i < |p| ==> IsWord(p[i])) &&
      Concat(p) == Squeeze(Trim(text)) &&
      |p| == 1 + SpaceRuns(Trim(text))
  {
    TrimEmptyIffBlank(text);
    SplitRunsWords(Trim(text));
    SplitRunsCount(Trim(text));
  }

  /** For a fixed positive rate, more words never take less time. */
  lemma {:induction false} MinutesMonotonic(w1: nat, w2: nat, wpm: int)
    requires w1 <= w2 && wpm > 0
    ensures MinutesFor(w1, wpm).n <= MinutesFor(w2, wpm).n
  {
    var a, b := MinutesFor(w1, wpm).n, MinutesFor(w2, wpm).n;
    if a > 1 {
      assert (a - 1) * wpm < w1 <= w2 <= b * wpm;
      MulCancel(a - 1, b, wpm);
    }
  }
}

=== FILE: RegisterPage.dfy ===
/** The admin registration wizard: three steps (name, username, credentials),
    the checks that hold `handleNext` on its step, and the submit that turns
    schema issues into the form's field-error map. The sign-up call itself is
    a parameter: its success, or its error message. */
module RegisterPage {
  import opened Wrappers
  import opened Json
  import opened Text
  import opened Issues
  import opened SignUpSchemas

  const EnterName := "Please enter your full name"
  const EnterUsername := "Please enter a username"

  /** The form's five strings as the object the schema parses. */
  function FormBody(f: AdminSignUp): Json {
    JObj(map[
      "name" := JStr(f.name), "email" := JStr(f.email), "username" := JStr(f.username),
      "password" := JStr(f.password), "confirmPassword" := JStr(f.confirmPassword)])
  }

  /** What the schema says about a name on its own: the length message for a
      trimmed name under four characters, then the full-name message, else
      nothing. */
  function NameVerdict(name: string): Option<string> {
    var t := Trim(name);
    if |t| < NameMin then Some(NameShortMessage)
    else if !IsFullName(t) then Some(FullNameMessage)
    else None
  }

  /** The error that keeps `handleNext` on the name check, or None when it
      passes: a blank name at step 1, then the first schema issue on `name`. */
  function NameBlock(step: int, f: AdminSignUp, isEmail: string -> bool): Option<string> {
    if step == 1 && Trim(f.name) == [] then Some(EnterName)
    else
      match FindAt(AdminSignUpIssues(FormBody(f), isEmail), "name")
      case Some(issue) => Some(issue.message)
      case None => None
  }

  /** The error that keeps `handleNext` on its step, or None when it advances.
      `usernameError` is the availability hook's current error. */
  function NextBlock(step: int, f: AdminSignUp, usernameError: string, isEmail: string -> bool): Option<string> {
    if NameBlock(step, f, isEmail).Some? then NameBlock(step, f, isEmail)
    else if step == 2 && Trim(f.username) == [] then Some(EnterUsername)
    else if step == 2 && usernameError != "" then Some(usernameError)
    else None
  }

  /** `NextBlock` by the name's own verdict instead of the schema's issue list. */
  function StepBlock(step: int, f: AdminSignUp, usernameError: string): Option<string> {
    if step == 1 && Trim(f.name) == [] then Some(EnterName)
    else if NameVerdict(f.name).Some? then NameVerdict(f.name)
    else if step == 2 && Trim(f.username) == [] then Some(EnterUsername)
    else if step == 2 && usernameError != "" then Some(usernameError)
    else None
  }

  /** The name check of `handleNext` lets the step through. */
  predicate NamePasses(step: int, f: AdminSignUp) {
    !(step == 1 && Trim(f.name) == []) && NameVerdict(f.name).None?
  }

  /** `handleNext`'s parse and search: the message of the first schema issue
      whose path holds `name`, none when the form parses. */
  method SchemaNameError(f: AdminSignUp, isEmail: string -> bool) returns (e: Option<string>)
    ensures e == NameVerdict(f.name)
  {
    var issues := AdminSignUpIssues(FormBody(f), isEmail);
    e := None;
    if |issues| > 0 {
      var found := FindAt(issues, "name");
      if found.Some? {
        e := Some(found.value.message);
      }
    }
    FormNameIssue(f, isEmail);
  }

  /** `handleSubmit`'s parse: the field-error map of a refused form, none when
      the form parses. */
  method SchemaFieldErrors(f: AdminSignUp, isEmail: string -> bool) returns (errors: Option<map<string, string>>)
    ensures errors.None? <==> AdminAccepted(FormBody(f), isEmail)
    ensures errors.Some? ==> errors.value == FieldErrors(AdminSignUpIssues(FormBody(f), isEmail))
  {
    var result := ValidateAdminSignUp(FormBody(f), isEmail);
    if result.Err? {
      var fieldErrors := CollectFieldErrors(result.error);
      errors := Some(fieldErrors);
    } else {
      errors := None;
    }
  }

  /** What the page sends to sign-up: the raw form values, not the schema's
      trimmed output. */
  datatype SignUpRequest = SignUpRequest(name: string, email: string, username: string, password: string)

  datatype FormField = NameField | EmailField | UsernameField | PasswordField | ConfirmField

  class RegisterWizard {
    var step: int
    var form: AdminSignUp
    var isLoading: bool
    var error: string
    var zodErrors: map<string, string>

    /** Next is offered at steps 1 and 2, Back at 2 and 3. */
    predicate Valid()
      reads this
    {
      1 <= step <= 3
    }

    constructor ()
      ensures Valid() && step == 1
      ensures form == AdminSignUp("", "", "", "", "")
      ensures !isLoading && error == "" && zodErrors == map[]
    {
      step := 1;
      form := AdminSignUp("", "", "", "", "");
      isLoading := false;
      error := "";
      zodErrors := map[];
    }

    /** An input's change handler: one field of the form, the others kept. */
    method SetField(field: FormField, value: string)
      modifies this
      ensures step == old(step) && isLoading == old(isLoading) && error == old(error)
      ensures zodErrors == old(zodErrors)
      ensures form == match field
        case NameField => old(form).(name := value)
        case EmailField => old(form).(email := value)
        case UsernameField => old(form).(username := value)
        case PasswordField => old(form).(password := value)
        case ConfirmField => old(form).(confirmPassword := value)
    {
      match field {
        case NameField => form := form.(name := value);
        case EmailField => form := form.(email := value);
        case UsernameField => form := form.(username := value);
        case PasswordField => form := form.(password := value);
        case ConfirmField => form := form.(confirmPassword := value);
      }
    }

    method HandleNext(usernameError: string, isEmail: string -> bool)
      requires Valid() && step <= 2
      modifies this
      ensures Valid()
      ensures form == old(form) && isLoading == old(isLoading)
      ensures StepBlock(old(step), form, usernameError).None? ==> error == "" && step == old(step) + 1
      ensures StepBlock(old(step), form, usernameError).Some? ==>
        error == StepBlock(old(step), form, usernameError).value && step == old(step)
      ensures NamePasses(old(step), form) ==> zodErrors == map[]
      ensures !NamePasses(old(step), form) ==> zodErrors == old(zodErrors)
    {
      error := "";
      if step == 1 && Trim(form.name) == [] {
        error := EnterName;
        return;
      }
      var nameError := SchemaNameError(form, isEmail);
      if nameError.Some? {
        error := nameError.value;
        return;
      }
      zodErrors := map[];
      if step == 2 && Trim(form.username) == [] {
        error := EnterUsername;
        return;
      }
      if step == 2 && usernameError != "" {
        error := usernameError;
        return;
      }
      step := step + 1;
    }

    method HandleBack()
      requires Valid() && step >= 2
      modifies this
      ensures Valid()
      ensures step == old(step) - 1 && error == ""
      ensures form == old(form) && isLoading == old(isLoading) && zodErrors == old(zodErrors)
    {
      error := "";
      step := step - 1;
    }

    /** Submitting: on schema issues, the field-error map built by the loop
      and no sign-up call; otherwise the raw form goes to sign-up, whose result
      clears the error or shows its message. */
    method HandleSubmit(isEmail: string -> bool, signUp: Result<(), string>) returns (request: Option<SignUpRequest>)
      modifies this
      ensures step == old(step) && form == old(form) && !isLoading
      ensures request.Some? <==> AdminAccepted(FormBody(form), isEmail)
      ensures request.None? ==>
        zodErrors == FieldErrors(AdminSignUpIssues(FormBody(form), isEmail)) && error == ""
      ensures request.Some? ==>
        request.value == SignUpRequest(form.name, form.email, form.username, form.password) &&
        zodErrors == map[] &&
        error == (if signUp.Ok? then "" else signUp.error)
    {
      error := "";
      isLoading := true;
      var fieldErrors := SchemaFieldErrors(form, isEmail);
      if fieldErrors.Some? {
        zodErrors := fieldErrors.value;
        isLoading := false;
        return None;
      }
      zodErrors := map[];
      request := Some(SignUpRequest(form.name, form.email, form.username, form.password));
      match signUp {
        case Ok(_) =>
          isLoading := false;
          error := "";
        case Err(message) =>
          isLoading := false;
          error := message;
      }
    }
  }

  lemma FormBodyFields(f: AdminSignUp)
    ensures Get(FormBody(f), "name") == Some(JStr(f.name))
    ensures Get(FormBody(f), "email") == Some(JStr(f.email))
    ensures Get(FormBody(f), "username") == Some(JStr(f.username))
    ensures Get(FormBody(f), "password") == Some(JStr(f.password))
    ensures Get(FormBody(f), "confirmPassword") == Some(JStr(f.confirmPassword))
  {
  }

  /** The schema's verdict on `name` for an object of strings: the length
      issue first, then the full-name pattern; no other field's issue mentions
      `name`. */
  lemma {:induction false} NameIssueOf(body: Json, isEmail: string -> bool)
    requires body.JObj? && AdminTypesOk(body)
    ensures var name := Trim(Get(body, "name").value.s);
      var e := FindAt(AdminSignUpIssues(body, isEmail), "name");
      (|name| < NameMin ==> e.Some? && e.value.message == NameShortMessage) &&
      (|name| >= NameMin && !IsFullName(name) ==> e.Some? && e.value.message == FullNameMessage) &&
      (|name| >= NameMin && IsFullName(name) ==> e.None?)
  {
    var name := Trim(Get(body, "name").value.s);
    var a := NameIssues(Get(body, "name"), true);
    var b := EmailIssues(Get(body, "email"), isEmail);
    var c := MinStringIssues("username", Get(body, "username"), false, 1, "Username is required");
    var d := PasswordIssues(Get(body, "password"));
    var e := ConfirmIssues(Get(body, "confirmPassword"));
    var m := MatchIssues(body);
    var n := FullNameIssues(name);
    AdminIssuesSplit(body, isEmail);
    OthersMentionNoName(body, isEmail);
    FindAtConcat(a, b, "name");
    FindAtConcat(a + b, c, "name");
    FindAtConcat(a + b + c, d, "name");
    FindAtConcat(a + b + c + d, e, "name");
    FindAtConcat(a + b + c + d + e, m, "name");
    FindAtConcat(a + b + c + d + e + m, n, "name");
    assert FindAt(a + b + c + d + e + m, "name") == FindAt(a, "name");
    if |name| < NameMin {
      assert a == [FieldIssue("name", NameShortMessage)];
      assert FindAt(a, "name") == Some(a[0]);
    } else {
      assert a == [];
      assert FindAt(a, "name").None?;
      if !IsFullName(name) {
        assert n == [FieldIssue("name", FullNameMessage)];
        assert FindAt(n, "name") == Some(n[0]);
      } else {
        assert n == [];
      }
    }
  }

  /** With every field a string, the issues are each field's own in schema
      order, then the password match, then the full-name refinement. */
  lemma AdminIssuesSplit(body: Json, isEmail: string -> bool)
    requires body.JObj? && AdminTypesOk(body)
    ensures AdminSignUpIssues(body, isEmail) ==
      NameIssues(Get(body, "name"), true) + EmailIssues(Get(body, "email"), isEmail) +
      MinStringIssues("username", Get(body, "username"), false, 1, "Username is required") +
      PasswordIssues(Get(body, "password")) + ConfirmIssues(Get(body, "confirmPassword")) +
      MatchIssues(body) + FullNameIssues(Trim(Get(body, "name").value.s))
  {
    AdminIssuesParts(body, isEmail);
  }

  /** No issue of another field mentions `name`. */
  lemma {:induction false} OthersMentionNoName(body: Json, isEmail: string -> bool)
    requires AdminTypesOk(body)
    ensures FindAt(EmailIssues(Get(body, "email"), isEmail), "name").None?
    ensures FindAt(MinStringIssues("username", Get(body, "username"), false, 1, "Username is required"), "name").None?
    ensures FindAt(PasswordIssues(Get(body, "password")), "name").None?
    ensures FindAt(ConfirmIssues(Get(body, "confirmPassword")), "name").None?
    ensures FindAt(MatchIssues(body), "name").None?
  {
    FindAtOtherField(EmailIssues(Get(body, "email"), isEmail), "email", "name");
    FindAtOtherField(MinStringIssues("username", Get(body, "username"), false, 1, "Username is required"), "username", "name");
    FindAtOtherField(PasswordIssues(Get(body, "password")), "password", "name");
    FindAtOtherField(ConfirmIssues(Get(body, "confirmPassword")), "confirmPassword", "name");
    FindAtOtherField(MatchIssues(body), "confirmPassword", "name");
  }

  lemma FormNameIssue(f: AdminSignUp, isEmail: string -> bool)
    ensures var e := FindAt(AdminSignUpIssues(FormBody(f), isEmail), "name");
      (|Trim(f.name)| < NameMin ==> e.Some? && e.value.message == NameShortMessage) &&
      (|Trim(f.name)| >= NameMin && !IsFullName(Trim(f.name)) ==> e.Some? && e.value.message == FullNameMessage) &&
      (|Trim(f.name)| >= NameMin && IsFullName(Trim(f.name)) ==> e.None?)
  {
    FormBodyFields(f);
    NameIssueOf(FormBody(f), isEmail);
  }

  /** At step 1 only the name decides: a blank one asks for it, a short one
      gets the length message, a long enough one that is not two or more words
      gets the full-name message, and otherwise the wizard advances. */
  lemma StepOneDependsOnNameOnly(f: AdminSignUp, usernameError: string, isEmail: string -> bool)
    ensures var b := NextBlock(1, f, usernameError, isEmail);
      (Trim(f.name) == [] ==> b == Some(EnterName)) &&
      (Trim(f.name) != [] && |Trim(f.name)| < NameMin ==> b == Some(NameShortMessage)) &&
      (|Trim(f.name)| >= NameMin && !IsFullName(Trim(f.name)) ==> b == Some(FullNameMessage)) &&
      (|Trim(f.name)| >= NameMin && IsFullName(Trim(f.name)) ==> b.None?)
  {
    FormNameIssue(f, isEmail);
    var e := FindAt(AdminSignUpIssues(FormBody(f), isEmail), "name");
    var nb := NameBlock(1, f, isEmail);
    if Trim(f.name) == [] {
      assert nb == Some(EnterName);
    } else {
      assert nb == if e.Some? then Some(e.value.message) else None;
    }
    NextBlockStepOne(f, usernameError, isEmail);
  }

  lemma NextBlockStepOne(f: AdminSignUp, usernameError: string, isEmail: string -> bool)
    ensures NextBlock(1, f, usernameError, isEmail) == NameBlock(1, f, isEmail)
  {
  }

  /** Step 2 advances exactly when the name still passes, the username is not
      blank and the availability check reports no error. */
  lemma StepTwoAdvances(f: AdminSignUp, usernameError: string, isEmail: string -> bool)
    ensures NextBlock(2, f, usernameError, isEmail).None? <==>
      NameMin <= |Trim(f.name)| && IsFullName(Trim(f.name)) &&
      Trim(f.username) != [] && usernameError == ""
  {
    FormNameIssue(f, isEmail);
  }

  /** A form the wizard lets past step 1 never gets a `name` entry in the
      submit's field-error map. */
  lemma AdvancedNameNotInSubmitErrors(f: AdminSignUp, usernameError: string, isEmail: string -> bool)
    requires NextBlock(1, f, usernameError, isEmail).None?
    ensures "name" !in FieldErrors(AdminSignUpIssues(FormBody(f), isEmail))
  {
    var issues := AdminSignUpIssues(FormBody(f), isEmail);
    assert FindAt(issues, "name").None?;
    assert !IsDigit("name"[0]);
    UnmentionedKeyHasNoEntry(issues, "name");
  }

  /** The wizard's check by the name's own verdict is its check by the schema's
      issue list, on every form and step. */
  lemma StepBlockIsNextBlock(step: int, f: AdminSignUp, usernameError: string, isEmail: string -> bool)
    ensures StepBlock(step, f, usernameError) == NextBlock(step, f, usernameError, isEmail)
    ensures NamePasses(step, f) <==> NameBlock(step, f, isEmail).None?
  {
    FormNameIssue(f, isEmail);
  }
}

=== FILE: Settings.dfy ===
/** The admin settings page: the stored full name split into a first and a last
    name and joined back, the profile form's fields, and the routing of a
    failed update into field errors or a general error. */
module Settings {
  import opened Wrappers
  import opened Json
  import opened Text
  import opened Issues
  import opened ProfileSchema
  import opened AdminApi

  /** The signed-in user as the session reports it; any field may be missing. */
  datatype SessionUser = SessionUser(
    id: Option<string>,
    name: Option<string>,
    username: Option<string>,
    email: Option<string>,
    image: Option<string>,
    coverImage: Option<string>,
    website: Option<string>,
    bio: Option<string>)

  /** The two name inputs. `firstName` is `undefined` when the session has no
      name, since it is the first element of an empty list. */
  datatype FullName = FullName(firstName: Option<string>, lastName: string)

  datatype ProfileForm = ProfileForm(
    username: string,
    email: string,
    image: string,
    coverImage: string,
    website: string,
    bio: string)

  /** The inputs wired to the generic change handler, by their `name`. */
  datatype ProfileField = UsernameInput | EmailInput | WebsiteInput | BioInput

  datatype NamePart = FirstNameInput | LastNameInput

  /** The stored name split on single spaces: the first piece, and the last one
      when there are several; the pieces between are dropped. */
  function SplitName(name: Option<string>): (r: FullName)
    ensures r.firstName.Some? <==> name.Some?
    ensures r.firstName.Some? ==> ' ' !in r.firstName.value
    ensures ' ' !in r.lastName
    ensures name.Some? && ' ' !in name.value ==> r == FullName(name, "")
  {
    match name
    case None => FullName(None, "")
    case Some(s) =>
      var pieces := SplitOn(s, ' ');
      SplitOnWithout(s, ' ');
      FullName(Some(pieces[0]), if |pieces| > 1 then pieces[|pieces| - 1] else "")
  }

  lemma SplitOnWithout(s: string, c: char)
    ensures c !in s ==> SplitOn(s, c) == [s]
  {
    if c !in s { SplitOnFree(s, c); }
  }

  /** A template literal's rendering of a possibly undefined string. */
  function Shown(v: Option<string>): string {
    v.GetOr("undefined")
  }

  /** `${firstName} ${lastName}` */
  function Rejoin(f: FullName): string {
    Shown(f.firstName) + " " + f.lastName
  }

  /** A name of exactly two words comes back unchanged. */
  lemma TwoWordNameRoundTrip(first: string, last: string)
    requires ' ' !in first && ' ' !in last
    ensures SplitName(Some(first + " " + last)) == FullName(Some(first), last)
    ensures Rejoin(SplitName(Some(first + " " + last))) == first + " " + last
  {
    SplitOnAppend(first, ' ', last);
    SplitOnFree(last, ' ');
    assert first + " " + last == first + [' '] + last;
  }

  /** Of three or more words only the first and the last are kept. */
  lemma MiddleWordsDropped(first: string, middle: string, last: string)
    requires ' ' !in first && ' ' !in last
    ensures Rejoin(SplitName(Some(first + " " + middle + " " + last))) == first + " " + last
  {
    var s := first + " " + middle + " " + last;
    assert s == first + [' '] + (middle + [' '] + last);
    SplitOnAppend(first, ' ', middle + [' '] + last);
    SplitOnEndsWith(middle, ' ', last);
    assert s == (first + " " + middle) + [' '] + last;
    SplitOnEndsWith(first + " " + middle, ' ', last);
  }

  /** A one-word name gains a trailing space, and a missing one reads
      "undefined ". */
  lemma OneWordNameGainsSpace(word: string)
    requires ' ' !in word
    ensures Rejoin(SplitName(Some(word))) == word + " "
    ensures Rejoin(SplitName(None)) == "undefined "
  {
  }

  /** The first and the last word of a valid full name again form a valid full
      name, so a name the server accepted is sent back in a form it accepts. */
  lemma RejoinedFullNameIsFullName(s: string)
    requires IsFullName(s)
    ensures IsFullName(Rejoin(SplitName(Some(s))))
  {
    FullNameWords(s);
    var p := SplitOn(s, ' ');
    var first, last := p[0], p[|p| - 1];
    assert ' ' !in first && ' ' !in last;
    TwoWordNameRoundTrip(first, last);
    SplitOnAppend(first, ' ', last);
    SplitOnFree(last, ' ');
    assert first + " " + last == first + [' '] + last;
    var q := SplitOn(first + " " + last, ' ');
    assert q == [first, last];
    FullNameWords(first + " " + last);
  }

  /** The profile update's body: `{id, name, ...formData}`. */
  function UpdateBody(id: string, name: string, f: ProfileForm): Json {
    JObj(map[
      "id" := JStr(id), "name" := JStr(name), "username" := JStr(f.username),
      "email" := JStr(f.email), "image" := JStr(f.image), "coverImage" := JStr(f.coverImage),
      "website" := JStr(f.website), "bio" := JStr(f.bio)])
  }

  /** Every field of the update body is a string, so the server's schema never
      stops before its full-name check. */
  lemma UpdateBodyTyped(id: string, name: string, f: ProfileForm)
    ensures ShapeTypesOk(UpdateBody(id, name, f))
    ensures Get(UpdateBody(id, name, f), "name") == Some(JStr(name))
  {
    var body := UpdateBody(id, name, f);
    assert Get(body, "id") == Some(JStr(id));
    assert Get(body, "name") == Some(JStr(name));
    assert Get(body, "username") == Some(JStr(f.username));
    assert Get(body, "email") == Some(JStr(f.email));
    assert Get(body, "image") == Some(JStr(f.image));
    assert Get(body, "coverImage") == Some(JStr(f.coverImage));
    assert Get(body, "website") == Some(JStr(f.website));
    assert Get(body, "bio") == Some(JStr(f.bio));
  }

  /** A trailing space breaks the full-name pattern. */
  lemma TrailingSpaceNotFullName(word: string)
    requires ' ' !in word
    ensures !IsFullName(word + " ")
  {
    assert word + " " == word + [' '] + "";
    SplitOnAppend(word, ' ', "");
    var p := SplitOn(word + " ", ' ');
    assert p == [word, ""];
    assert !LaterPiecesAreWords(p) by { assert p[1] == []; }
    FullNameWords(word + " ");
  }

  /** The body the page sends for a user whose stored name is one word, unless
      the name is edited, is refused by the server's profile schema under
      `name`: the trailing space fails the full-name check. */
  lemma OneWordNameRefused(id: string, word: string, f: ProfileForm,
                           isEmail: string -> bool, isUrl: string -> bool)
    requires ' ' !in word
    ensures var fe := FieldErrors(ProfileIssues(UpdateBody(id, Rejoin(SplitName(Some(word))), f),
                                                isEmail, isUrl, ServerNameMessage));
      "name" in fe && fe["name"] == ServerNameMessage
  {
    var name := Rejoin(SplitName(Some(word)));
    OneWordNameGainsSpace(word);
    TrailingSpaceNotFullName(word);
    UpdateBodyTyped(id, name, f);
    NamePatternReported(UpdateBody(id, name, f), isEmail, isUrl, ServerNameMessage);
  }

  class SettingsPage {
    var formData: ProfileForm
    var fullName: FullName
    var name: string
    /** None is `undefined`, which a 400 without field errors leaves behind. */
    var fieldErrors: Option<Json>
    var generalError: string

    /** The effect on `fullName` keeps `name` in step with it. */
    predicate NameSynced()
      reads this
    {
      name == Rejoin(fullName)
    }

    constructor ()
      ensures NameSynced() && name == " "
      ensures formData == ProfileForm("", "", "", "", "", "")
      ensures fullName == FullName(Some(""), "")
      ensures fieldErrors == Some(JObj(map[])) && generalError == ""
    {
      formData := ProfileForm("", "", "", "", "", "");
      fullName := FullName(Some(""), "");
      name := " ";
      fieldErrors := Some(JObj(map[]));
      generalError := "";
    }

    /** The effects on a session: the form takes the user's fields, missing
        ones as "", and the name is split and joined back. */
    method OnSession(user: Option<SessionUser>)
      requires NameSynced()
      modifies this
      ensures NameSynced()
      ensures fieldErrors == old(fieldErrors) && generalError == old(generalError)
      ensures user.None? ==> formData == old(formData) && fullName == old(fullName)
      ensures user.Some? ==>
        var u := user.value;
        formData == ProfileForm(u.username.GetOr(""), u.email.GetOr(""), u.image.GetOr(""),
                                u.coverImage.GetOr(""), u.website.GetOr(""), u.bio.GetOr("")) &&
        fullName == SplitName(u.name)
    {
      if user.Some? {
        var u := user.value;
        formData := ProfileForm(u.username.GetOr(""), u.email.GetOr(""), u.image.GetOr(""),
                                u.coverImage.GetOr(""), u.website.GetOr(""), u.bio.GetOr(""));
        fullName := SplitName(u.name);
        name := Rejoin(fullName);
      }
    }

    method HandleNameChange(part: NamePart, value: string)
      requires NameSynced()
      modifies this
      ensures NameSynced()
      ensures formData == old(formData) && fieldErrors == old(fieldErrors) && generalError == old(generalError)
      ensures part.FirstNameInput? ==> fullName == old(fullName).(firstName := Some(value))
      ensures part.LastNameInput? ==> fullName == old(fullName).(lastName := value)
    {
      match part {
        case FirstNameInput => fullName := fullName.(firstName := Some(value));
        case LastNameInput => fullName := fullName.(lastName := value);
      }
      name := Rejoin(fullName);
    }

    method HandleChange(field: ProfileField, value: string)
      modifies this
      ensures fullName == old(fullName) && name == old(name)
      ensures fieldErrors == old(fieldErrors) && generalError == old(generalError)
      ensures formData == match field
        case UsernameInput => old(formData).(username := value)
        case EmailInput => old(formData).(email := value)
        case WebsiteInput => old(formData).(website := value)
        case BioInput => old(formData).(bio := value)
    {
      match field {
        case UsernameInput => formData := formData.(username := value);
        case EmailInput => formData := formData.(email := value);
        case WebsiteInput => formData := formData.(website := value);
        case BioInput => formData := formData.(bio := value);
      }
    }

    /** Submitting: nothing without a user id; otherwise the body is sent and a
        failure is routed by its status. A 400 replaces the field errors while
        they are truthy, a 409 adds the message under `username` to them, and
        anything else shows as the general error; `platformMessage` is the
        message of an error the platform threw. Returns the body sent. */
    method HandleSubmit(userId: Option<string>, result: ApiResult, platformMessage: string)
      returns (sent: Option<Json>)
      modifies this
      ensures formData == old(formData) && fullName == old(fullName) && name == old(name)
      ensures sent.Some? <==> userId.Some? && userId.value != ""
      ensures sent.Some? ==> sent.value == UpdateBody(userId.value, name, formData)
      ensures sent.None? || result.Resolved? ==>
        fieldErrors == old(fieldErrors) && generalError == old(generalError)
      ensures sent.Some? && result.Rejected? ==>
        match result.failure
        case ApiError(status, message, errors) =>
          if status == 400 && TruthyOpt(old(fieldErrors)) then
            fieldErrors == errors && generalError == old(generalError)
          else if status == 409 then
            fieldErrors == Some(JObj(ObjectFields(old(fieldErrors))["username" := JStr(ErrorText(message))])) &&
            generalError == old(generalError)
          else
            fieldErrors == old(fieldErrors) && generalError == ErrorText(message)
        case _ => fieldErrors == old(fieldErrors) && generalError == platformMessage
    {
      if userId.None? || userId.value == "" {
        return None;
      }
      sent := Some(UpdateBody(userId.value, name, formData));
      if result.Rejected? {
        match result.failure {
          case ApiError(status, message, errors) =>
            if status == 400 && TruthyOpt(fieldErrors) {
              fieldErrors := errors;
            } else if status == 409 {
              fieldErrors := Some(JObj(ObjectFields(fieldErrors)["username" := JStr(ErrorText(message))]));
            } else {
              generalError := ErrorText(message);
            }
          case _ =>
            generalError := platformMessage;
        }
      }
    }
  }

  /** The own fields a spread copies out of an object; other values give none. */
  function ObjectFields(v: Option<Json>): map<string, Json> {
    if v.Some? && v.value.JObj? then v.value.fields else map[]
  }
}

=== FILE: SignUpSchemas.dfy ===
/** The two sign-up schemas: the admin client's (trimmed full name, username,
    password confirmation) and the reader client's (name of at least four
    characters, password confirmation, no username). The library's e-mail check
    is a parameter. */
module SignUpSchemas {
  import opened Wrappers
  import opened Json
  import opened Text
  import opened Issues

  datatype AdminSignUp = AdminSignUp(
    name: string, email: string, username: string, password: string, confirmPassword: string)

  datatype ReaderSignUp = ReaderSignUp(
    name: string, email: string, password: string, confirmPassword: string)

  const NameMin: nat := 4
  const PasswordMin: nat := 8
  const MismatchMessage := "Passwords do not match"
  const FullNameMessage := "Enter a valid full name. e.g John Doe"
  const NameShortMessage := "Name should contain at least 4 characters"

  /** A string field with a minimum length on the string itself or, when `trim`
      is set, on the trimmed string. */
  function MinStringIssues(field: string, v: Option<Json>, trim: bool, lo: nat, message: string): (r: seq<Issue>)
    ensures |r| == 0 <==> IsString(v) && lo <= |if trim then Trim(v.value.s) else v.value.s|
    ensures Aborted(r) <==> !IsString(v)
    ensures forall i :: 0 <= i < |r| ==> r[i].path == [Key(field)]
  {
    AbortedOne(InvalidType([Key(field)], "string", v));
    if !IsString(v) then [InvalidType([Key(field)], "string", v)]
    else MinLength(field, |if trim then Trim(v.value.s) else v.value.s|, lo, message)
  }

  const EmailMessage := "Invalid email address"

  /** The message given to the e-mail schema itself replaces the library's
      message on every issue that schema raises, the wrong-type one included. */
  function EmailIssues(v: Option<Json>, isEmail: string -> bool): (r: seq<Issue>)
    ensures |r| == 0 <==> IsString(v) && isEmail(v.value.s)
    ensures Aborted(r) <==> !IsString(v)
    ensures forall i :: 0 <= i < |r| ==> r[i].path == [Key("email")] && r[i].message == EmailMessage
  {
    var typeIssue := Issue([Key("email")], EmailMessage, false);
    AbortedOne(typeIssue);
    if !IsString(v) then [typeIssue]
    else if isEmail(v.value.s) then []
    else [FieldIssue("email", EmailMessage)]
  }

  function NameIssues(v: Option<Json>, trim: bool): seq<Issue> {
    MinStringIssues("name", v, trim, NameMin, NameShortMessage)
  }

  function PasswordIssues(v: Option<Json>): seq<Issue> {
    MinStringIssues("password", v, false, PasswordMin, "Password should contain at least 8 characters")
  }

  function ConfirmIssues(v: Option<Json>): seq<Issue> {
    MinStringIssues("confirmPassword", v, false, 0, "")
  }

  /** The password-confirmation refinement, reported at `confirmPassword`. */
  function MatchIssues(body: Json): seq<Issue>
    requires IsString(Get(body, "password")) && IsString(Get(body, "confirmPassword"))
  {
    if Get(body, "password").value.s == Get(body, "confirmPassword").value.s then []
    else [FieldIssue("confirmPassword", MismatchMessage)]
  }

  // ---------------------------------------------------------------------------
  // The admin client's schema

  predicate AdminTypesOk(body: Json) {
    IsString(Get(body, "name")) && IsString(Get(body, "email")) &&
    IsString(Get(body, "username")) && IsString(Get(body, "password")) &&
    IsString(Get(body, "confirmPassword"))
  }

  function AdminShapeIssues(body: Json, isEmail: string -> bool): (r: seq<Issue>)
    ensures Aborted(r) <==> !AdminTypesOk(body)
  {
    var a := NameIssues(Get(body, "name"), true);
    var b := EmailIssues(Get(body, "email"), isEmail);
    var c := MinStringIssues("username", Get(body, "username"), false, 1, "Username is required");
    var d := PasswordIssues(Get(body, "password"));
    var e := ConfirmIssues(Get(body, "confirmPassword"));
    AbortedConcat(a, b);
    AbortedConcat(a + b, c);
    AbortedConcat(a + b + c, d);
    AbortedConcat(a + b + c + d, e);
    a + b + c + d + e
  }

  /** All issues: the fields', then the two refinements in order (password
      match, then the full-name pattern on the trimmed name), which run when the
      fields' types allow. */
  function AdminSignUpIssues(body: Json, isEmail: string -> bool): seq<Issue> {
    if !body.JObj? then [InvalidType([], "object", Some(body))]
    else
      var shape := AdminShapeIssues(body, isEmail);
      if Aborted(shape) then shape
      else
        shape + MatchIssues(body) + FullNameIssues(Trim(Get(body, "name").value.s))
  }

  /** The full-name refinement on the trimmed name, reported at `name`. */
  function FullNameIssues(name: string): seq<Issue> {
    if IsFullName(name) then [] else [FieldIssue("name", FullNameMessage)]
  }

  predicate AdminAccepted(body: Json, isEmail: string -> bool) {
    body.JObj? && AdminTypesOk(body) &&
    var name := Trim(Get(body, "name").value.s);
    NameMin <= |name| && IsFullName(name) &&
    isEmail(Get(body, "email").value.s) &&
    Get(body, "username").value.s != [] &&
    PasswordMin <= |Get(body, "password").value.s| &&
    Get(body, "password").value.s == Get(body, "confirmPassword").value.s
  }

  function ValidateAdminSignUp(body: Json, isEmail: string -> bool): (r: Result<AdminSignUp, seq<Issue>>)
    ensures r.Ok? <==> AdminAccepted(body, isEmail)
    ensures r.Err? ==> r.error == AdminSignUpIssues(body, isEmail) && |r.error| > 0
    ensures r.Ok? ==>
      Trimmed(r.value.name) && NameMin <= |r.value.name| && IsFullName(r.value.name) &&
      r.value.name == Trim(Get(body, "name").value.s) &&
      r.value.username != [] && isEmail(r.value.email) &&
      PasswordMin <= |r.value.password| && r.value.password == r.value.confirmPassword
    ensures r.Ok? ==>
      Get(body, "email") == Some(JStr(r.value.email)) &&
      Get(body, "username") == Some(JStr(r.value.username)) &&
      Get(body, "password") == Some(JStr(r.value.password)) &&
      Get(body, "confirmPassword") == Some(JStr(r.value.confirmPassword))
  {
    var issues := AdminSignUpIssues(body, isEmail);
    if |issues| == 0 then
      Ok(AdminSignUp(
        Trim(Get(body, "name").value.s), Get(body, "email").value.s,
        Get(body, "username").value.s, Get(body, "password").value.s,
        Get(body, "confirmPassword").value.s))
    else Err(issues)
  }

  /** A missing or non-string e-mail is reported under `email` with the
      schema's own message. */
  lemma AdminEmailTypeReported(body: Json, isEmail: string -> bool)
    requires body.JObj? && !IsString(Get(body, "email"))
    ensures var fe := FieldErrors(AdminSignUpIssues(body, isEmail));
      "email" in fe && fe["email"] == EmailMessage
  {
    var a := NameIssues(Get(body, "name"), true);
    var b := EmailIssues(Get(body, "email"), isEmail);
    var c := MinStringIssues("username", Get(body, "username"), false, 1, "Username is required");
    var d := PasswordIssues(Get(body, "password"));
    var e := ConfirmIssues(Get(body, "confirmPassword"));
    var issues := AdminSignUpIssues(body, isEmail);
    AdminAbortedIssues(body, isEmail);
    assert issues == a + b + c + d + e;
    assert |b| == 1;
    OtherFieldKeyAbsent(a, "name", "email");
    OtherFieldKeyAbsent(c, "username", "email");
    OtherFieldKeyAbsent(d, "password", "email");
    OtherFieldKeyAbsent(e, "confirmPassword", "email");
    KeyAbsentConcat(c, d, "email");
    KeyAbsentConcat(c + d, e, "email");
    assert issues == a + b + (c + d + e);
    MiddleFieldMessage(a, b, c + d + e, "email", EmailMessage);
  }

  /** A field of the wrong type stops the schema before its refinements. */
  lemma AdminAbortedIssues(body: Json, isEmail: string -> bool)
    requires body.JObj? && !AdminTypesOk(body)
    ensures AdminSignUpIssues(body, isEmail) == AdminShapeIssues(body, isEmail)
  {
  }

  /** A mismatch is reported under `confirmPassword`, and the full-name issue
      after it does not overwrite that entry. */
  lemma AdminMismatchReported(body: Json, isEmail: string -> bool)
    requires body.JObj? && AdminTypesOk(body)
    requires Get(body, "password").value.s != Get(body, "confirmPassword").value.s
    ensures var fe := FieldErrors(AdminSignUpIssues(body, isEmail));
      "confirmPassword" in fe && fe["confirmPassword"] == MismatchMessage
  {
    var name := Trim(Get(body, "name").value.s);
    AdminIssuesParts(body, isEmail);
    assert MatchIssues(body) == [FieldIssue("confirmPassword", MismatchMessage)];
    LaterFieldKeepsEntry(AdminShapeIssues(body, isEmail), "confirmPassword", MismatchMessage,
      FullNameIssues(name), "name", FullNameMessage);
  }

  /** With every field a string, the refinements run after the fields' checks. */
  lemma AdminIssuesParts(body: Json, isEmail: string -> bool)
    requires body.JObj? && AdminTypesOk(body)
    ensures AdminSignUpIssues(body, isEmail) ==
      AdminShapeIssues(body, isEmail) + MatchIssues(body) + FullNameIssues(Trim(Get(body, "name").value.s))
  {
    assert !Aborted(AdminShapeIssues(body, isEmail));
  }

  // ---------------------------------------------------------------------------
  // The reader client's schema

  predicate ReaderTypesOk(body: Json) {
    IsString(Get(body, "name")) && IsString(Get(body, "email")) &&
    IsString(Get(body, "password")) && IsString(Get(body, "confirmPassword"))
  }

  function ReaderShapeIssues(body: Json, isEmail: string -> bool): (r: seq<Issue>)
    ensures Aborted(r) <==> !ReaderTypesOk(body)
  {
    var a := NameIssues(Get(body, "name"), false);
    var b := EmailIssues(Get(body, "email"), isEmail);
    var d := PasswordIssues(Get(body, "password"));
    var e := ConfirmIssues(Get(body, "confirmPassword"));
    AbortedConcat(a, b);
    AbortedConcat(a + b, d);
    AbortedConcat(a + b + d, e);
    a + b + d + e
  }

  function ReaderSignUpIssues(body: Json, isEmail: string -> bool): seq<Issue> {
    if !body.JObj? then [InvalidType([], "object", Some(body))]
    else
      var shape := ReaderShapeIssues(body, isEmail);
      if Aborted(shape) then shape else shape + MatchIssues(body)
  }

  predicate ReaderAccepted(body: Json, isEmail: string -> bool) {
    body.JObj? && ReaderTypesOk(body) &&
    NameMin <= |Get(body, "name").value.s| &&
    isEmail(Get(body, "email").value.s) &&
    PasswordMin <= |Get(body, "password").value.s| &&
    Get(body, "password").value.s == Get(body, "confirmPassword").value.s
  }

  function ValidateReaderSignUp(body: Json, isEmail: string -> bool): (r: Result<ReaderSignUp, seq<Issue>>)
    ensures r.Ok? <==> ReaderAccepted(body, isEmail)
    ensures r.Err? ==> r.error == ReaderSignUpIssues(body, isEmail) && |r.error| > 0
    ensures r.Ok? ==>
      NameMin <= |r.value.name| && Get(body, "name") == Some(JStr(r.value.name)) &&
      isEmail(r.value.email) &&
      PasswordMin <= |r.value.password| && r.value.password == r.value.confirmPassword
    ensures r.Ok? ==>
      Get(body, "email") == Some(JStr(r.value.email)) &&
      Get(body, "password") == Some(JStr(r.value.password)) &&
      Get(body, "confirmPassword") == Some(JStr(r.value.confirmPassword))
  {
    var issues := ReaderSignUpIssues(body, isEmail);
    if |issues| == 0 then
      Ok(ReaderSignUp(
        Get(body, "name").value.s, Get(body, "email").value.s,
        Get(body, "password").value.s, Get(body, "confirmPassword").value.s))
    else Err(issues)
  }

  /** A mismatch is the last issue and is reported under `confirmPassword`. */
  lemma ReaderMismatchReported(body: Json, isEmail: string -> bool)
    requires body.JObj? && ReaderTypesOk(body)
    requires Get(body, "password").value.s != Get(body, "confirmPassword").value.s
    ensures var fe := FieldErrors(ReaderSignUpIssues(body, isEmail));
      "confirmPassword" in fe && fe["confirmPassword"] == MismatchMessage
  {
    FieldErrorsAppend(ReaderShapeIssues(body, isEmail), "confirmPassword", MismatchMessage);
  }

  /** Every sign-up the admin schema accepts, the reader schema accepts too: the
      trimmed name is no longer than the name, and the reader schema has no
      username and no full-name pattern. */
  lemma AdminAcceptedIsReaderAccepted(body: Json, isEmail: string -> bool)
    requires AdminAccepted(body, isEmail)
    ensures ReaderAccepted(body, isEmail)
  {
    var s := Get(body, "name").value.s;
    assert |Trim(s)| <= |s|;
  }

  /** The reader schema ignores a `username`, whatever its value. */
  lemma ReaderIgnoresUsername(fields: map<string, Json>, x: Json, isEmail: string -> bool)
    ensures ValidateReaderSignUp(JObj(fields["username" := x]), isEmail) ==
            ValidateReaderSignUp(JObj(fields), isEmail)
  {
    var a, b := JObj(fields["username" := x]), JObj(fields);
    assert Get(a, "name") == Get(b, "name");
    assert Get(a, "email") == Get(b, "email");
    assert Get(a, "password") == Get(b, "password");
    assert Get(a, "confirmPassword") == Get(b, "confirmPassword");
    assert ReaderSignUpIssues(a, isEmail) == ReaderSignUpIssues(b, isEmail);
  }
}

=== FILE: Text.dfy ===
/** String primitives the sources rely on, written out with JavaScript's semantics:
    `trim`, `split`, `join`, `toLowerCase` on ASCII, the character classes of the
    regular expressions, number printing and `parseInt`. */
module Text {
  import opened Wrappers

  // ---------------------------------------------------------------------------
  // Character classes

  /** JavaScript's WhiteSpace and LineTerminator characters: the set `trim`,
      `\s` and `parseInt` skip. */
  predicate IsSpace(c: char) {
    c == ' ' || c == '\t' || c == '\n' || c == '\r' || c == '\U{000B}' || c == '\U{000C}'
    || c == '\U{00A0}' || c == '\U{1680}' || ('\U{2000}' <= c <= '\U{200A}')
    || c == '\U{2028}' || c == '\U{2029}' || c == '\U{202F}' || c == '\U{205F}'
    || c == '\U{3000}' || c == '\U{FEFF}'
  }

  /** `[A-Za-z]` */
  predicate IsLetter(c: char) {
    ('a' <= c <= 'z') || ('A' <= c <= 'Z')
  }

  predicate IsDigit(c: char) {
    '0' <= c <= '9'
  }

  /** `[a-zA-Z0-9_]` */
  predicate IsWordChar(c: char) {
    IsLetter(c) || IsDigit(c) || c == '_'
  }

  predicate Blank(s: string) {
    forall i :: 0 <= i < |s| ==> IsSpace(s[i])
  }

  predicate AllLetters(s: string) {
    forall i :: 0 <= i < |s| ==> IsLetter(s[i])
  }

  /** The regular expression `^[a-zA-Z0-9_]+$`. */
  predicate IsUsernameText(s: string) {
    |s| > 0 && forall i :: 0 <= i < |s| ==> IsWordChar(s[i])
  }

  /** A string with no whitespace at either end. */
  predicate Trimmed(s: string) {
    s == [] || (!IsSpace(s[0]) && !IsSpace(s[|s| - 1]))
  }

  // ---------------------------------------------------------------------------
  // trim

  function TrimStart(s: string): (r: string)
    ensures |r| <= |s|
    ensures r == [] || !IsSpace(r[0])
  {
    if |s| > 0 && IsSpace(s[0]) then TrimStart(s[1..]) else s
  }

  /** What `TrimStart` keeps is a suffix of `s`. */
  lemma {:induction false} TrimStartSuffix(s: string)
    ensures TrimStart(s) == s[|s| - |TrimStart(s)|..]
  {
    if |s| > 0 && IsSpace(s[0]) {
      TrimStartSuffix(s[1..]);
      assert s[1..][|s| - 1 - |TrimStart(s)|..] == s[|s| - |TrimStart(s)|..];
    }
  }

  /** What `TrimStart` drops is whitespace. */
  lemma {:induction false} TrimStartSkips(s: string)
    ensures forall k :: 0 <= k < |s| - |TrimStart(s)| ==> IsSpace(s[k])
  {
    if |s| > 0 && IsSpace(s[0]) {
      TrimStartSkips(s[1..]);
      assert forall k :: 1 <= k < |s| ==> s[1..][k - 1] == s[k];
    }
  }

  function TrimEnd(s: string): (r: string)
    ensures |r| <= |s|
    ensures r == [] || !IsSpace(r[|r| - 1])
  {
    if |s| > 0 && IsSpace(s[|s| - 1]) then TrimEnd(s[..|s| - 1]) else s
  }

  /** What `TrimEnd` keeps is a prefix of `s`. */
  lemma {:induction false} TrimEndPrefix(s: string)
    ensures TrimEnd(s) == s[..|TrimEnd(s)|]
  {
    if |s| > 0 && IsSpace(s[|s| - 1]) {
      TrimEndPrefix(s[..|s| - 1]);
      assert s[..|s| - 1][..|TrimEnd(s)|] == s[..|TrimEnd(s)|];
    }
  }

  /** What `TrimEnd` drops is whitespace. */
  lemma {:induction false} TrimEndSkips(s: string)
    ensures forall k :: |TrimEnd(s)| <= k < |s| ==> IsSpace(s[k])
  {
    if |s| > 0 && IsSpace(s[|s| - 1]) {
      TrimEndSkips(s[..|s| - 1]);
      assert forall k :: 0 <= k < |s| - 1 ==> s[..|s| - 1][k] == s[k];
    }
  }

  /** `s.trim()` */
  function Trim(s: string): (r: string)
    ensures Trimmed(r)
    ensures |r| <= |s|
  {
    var t := TrimStart(s);
    var r := TrimEnd(t);
    TrimEndPrefix(t);
    assert r != [] ==> r[0] == t[0];
    r
  }

  /** Trimming leaves nothing exactly when the text is all white space. */
  lemma {:induction false} TrimEmptyIffBlank(s: string)
    ensures Trim(s) == [] <==> Blank(s)
  {
    var t := TrimStart(s);
    var r := TrimEnd(t);
    assert Trim(s) == r;
    TrimStartSkips(s);
    TrimEndSkips(t);
    TrimStartSuffix(s);
    TrimEndPrefix(t);
    assert r != [] ==> r[0] == t[0];
    assert t != [] ==> r != [] by {
      if t != [] { assert !IsSpace(t[0]); }
    }
    assert t != [] ==> !Blank(s) by {
      if t != [] { assert t[0] == s[|s| - |t|]; }
    }
  }

  /** Trimming only removes characters: one absent from `s` is absent after. */
  lemma {:induction false} TrimKeepsOut(s: string, c: char)
    requires c !in s
    ensures c !in Trim(s)
  {
    var t := TrimStart(s);
    var r := TrimEnd(t);
    TrimStartSuffix(s);
    TrimEndPrefix(t);
    forall k | 0 <= k < |r| ensures r[k] != c {
      assert r[k] == t[k];
      assert t[k] == s[|s| - |t| + k];
    }
  }

  lemma TrimOfTrimmed(s: string)
    requires Trimmed(s)
    ensures Trim(s) == s
  {
  }

  /** Trimming a trimmed non-empty string with one leading space removes just that space. */
  lemma TrimSpaceThen(t: string)
    requires Trimmed(t) && t != []
    ensures Trim(" " + t) == t
  {
    var s := " " + t;
    assert s[1..] == t;
    assert TrimStart(s) == TrimStart(t) == t;
    assert TrimEnd(t) == t;
  }

  // ---------------------------------------------------------------------------
  // toLowerCase

  /** U+212A KELVIN SIGN, the one character outside ASCII whose lower case is
      a single ASCII letter ('k'). */
  const KelvinSign: char := '\U{212A}'

  function LowerChar(c: char): char {
    if 'A' <= c <= 'Z' then (c as int + 32) as char
    else if c == KelvinSign then 'k'
    else c
  }

  /** `s.toLowerCase()` for ASCII letters and the Kelvin sign; every other
      character is kept. */
  function ToLower(s: string): (r: string)
    ensures |r| == |s|
    ensures forall i :: 0 <= i < |s| ==> r[i] == LowerChar(s[i])
  {
    seq(|s|, i requires 0 <= i < |s| => LowerChar(s[i]))
  }

  /** A name the server's character check passes once it is lower-cased:
      letters, digits, `_` and the Kelvin sign. */
  predicate IsServerNameText(s: string) {
    |s| > 0 && forall i :: 0 <= i < |s| ==> IsWordChar(s[i]) || s[i] == KelvinSign
  }

  /** Lower-casing keeps every character inside `[a-zA-Z0-9_]` and every
      character outside it, except the Kelvin sign, which it turns into 'k'. */
  lemma LowerKeepsWordChars(s: string)
    ensures IsUsernameText(ToLower(s)) <==> IsServerNameText(s)
    ensures IsUsernameText(s) ==> IsUsernameText(ToLower(s))
  {
    var r := ToLower(s);
    forall i | 0 <= i < |s| ensures IsWordChar(r[i]) <==> IsWordChar(s[i]) || s[i] == KelvinSign {
      assert r[i] == LowerChar(s[i]);
    }
  }

  // ---------------------------------------------------------------------------
  // split and join

  /** `s.split(c)` for a one-character separator: always at least one piece. */
  function SplitOn(s: string, c: char): (r: seq<string>)
    ensures |r| >= 1
    ensures forall i :: 0 <= i < |r| ==> c !in r[i]
  {
    if |s| == 0 then [""]
    else if s[0] == c then [""] + SplitOn(s[1..], c)
    else
      var rest := SplitOn(s[1..], c);
      [[s[0]] + rest[0]] + rest[1..]
  }

  /** `parts.join(sep)` */
  function Join(parts: seq<string>, sep: string): string {
    if |parts| == 0 then ""
    else if |parts| == 1 then parts[0]
    else parts[0] + sep + Join(parts[1..], sep)
  }

  /** Dropping the first element of a cons gives back the tail. */
  lemma DropCons<T>(x: T, ys: seq<T>)
    ensures ([x] + ys)[0] == x && ([x] + ys)[1..] == ys
  {
    var t := [x] + ys;
    assert |t[1..]| == |ys|;
    forall i | 0 <= i < |ys| ensures t[1..][i] == ys[i] {
      assert t[1..][i] == t[i + 1];
    }
  }

  /** A non-empty sequence is its first element followed by the rest. */
  lemma ConsTail<T>(s: seq<T>)
    requires |s| > 0
    ensures [s[0]] + s[1..] == s
  {
    var t := [s[0]] + s[1..];
    assert |t| == |s|;
    forall i | 0 <= i < |s| ensures t[i] == s[i] {
      if i > 0 { assert t[i] == s[1..][i - 1]; }
    }
  }

  /** A join of two or more parts starts with the first part and the separator. */
  lemma JoinCons(parts: seq<string>, sep: string)
    requires |parts| >= 2
    ensures Join(parts, sep) == parts[0] + sep + Join(parts[1..], sep)
  {
  }

  /** Joining the pieces of a split with the separator gives back the string. */
  lemma {:induction false} JoinSplitOn(s: string, c: char)
    ensures Join(SplitOn(s, c), [c]) == s
  {
    if |s| == 0 {
    } else if s[0] == c {
      JoinSplitOn(s[1..], c);
      var rest := SplitOn(s[1..], c);
      assert SplitOn(s, c) == [""] + rest;
      assert ([""] + rest)[1..] == rest;
      assert s == [c] + s[1..];
    } else {
      JoinSplitOn(s[1..], c);
      var rest := SplitOn(s[1..], c);
      var r := SplitOn(s, c);
      assert r == [[s[0]] + rest[0]] + rest[1..];
      if |rest| == 1 {
        assert s == [s[0]] + s[1..];
      } else {
        assert r[1..] == rest[1..];
        assert Join(rest, [c]) == rest[0] + [c] + Join(rest[1..], [c]);
        assert s == [s[0]] + s[1..];
      }
    }
  }

  /** A string free of the separator splits into itself. */
  lemma {:induction false} SplitOnFree(a: string, c: char)
    requires c !in a
    ensures SplitOn(a, c) == [a]
  {
    if |a| > 0 {
      assert c !in a[1..] by { assert forall x :: x in a[1..] ==> x in a; }
      SplitOnFree(a[1..], c);
      assert [a[0]] + a[1..] == a;
    }
  }

  /** Splitting stops at the first separator. */
  lemma {:induction false} SplitOnAppend(a: string, c: char, b: string)
    requires c !in a
    ensures SplitOn(a + [c] + b, c) == [a] + SplitOn(b, c)
  {
    if |a| == 0 {
      assert a + [c] + b == [c] + b;
      assert ([c] + b)[1..] == b;
    } else {
      var s := a + [c] + b;
      assert s[0] == a[0];
      assert s[1..] == a[1..] + [c] + b;
      assert c !in a[1..] by { assert forall x :: x in a[1..] ==> x in a; }
      SplitOnAppend(a[1..], c, b);
      assert [a[0]] + a[1..] == a;
    }
  }

  /** A separator followed by separator-free text ends the split with that text. */
  lemma {:induction false} SplitOnEndsWith(x: string, c: char, b: string)
    requires c !in b
    ensures var p := SplitOn(x + [c] + b, c); |p| >= 2 && p[|p| - 1] == b
    decreases |x|
  {
    var s := x + [c] + b;
    if |x| == 0 {
      SplitOnAppend(x, c, b);
      SplitOnFree(b, c);
    } else {
      assert s[0] == x[0];
      assert s[1..] == x[1..] + [c] + b;
      SplitOnEndsWith(x[1..], c, b);
    }
  }

  // ---------------------------------------------------------------------------
  // split(/\s+/)

  /** `s.split(/\s+/)`: the pieces between maximal runs of whitespace. */
  function SplitRuns(s: string): (r: seq<string>)
    ensures |r| >= 1
    decreases |s|
  {
    if |s| == 0 then [""]
    else if IsSpace(s[0]) then [""] + SplitRuns(TrimStart(s))
    else
      var rest := SplitRuns(s[1..]);
      [[s[0]] + rest[0]] + rest[1..]
  }

  /** The non-whitespace characters of `s`, in order. */
  function Squeeze(s: string): string {
    if |s| == 0 then "" else (if IsSpace(s[0]) then "" else [s[0]]) + Squeeze(s[1..])
  }

  function Concat(parts: seq<string>): string {
    if |parts| == 0 then "" else parts[0] + Concat(parts[1..])
  }

  predicate IsWord(w: string) {
    w != [] && forall i :: 0 <= i < |w| ==> !IsSpace(w[i])
  }

  lemma SqueezeBlank(s: string)
    requires Blank(s)
    ensures Squeeze(s) == ""
  {
  }

  /** No piece of `SplitRuns(s)` holds whitespace. */
  lemma {:induction false} SplitRunsNoSpace(s: string)
    ensures forall i, k :: 0 <= i < |SplitRuns(s)| && 0 <= k < |SplitRuns(s)[i]| ==> !IsSpace(SplitRuns(s)[i][k])
    decreases |s|
  {
    if |s| == 0 {
    } else if IsSpace(s[0]) {
      SplitRunsNoSpace(TrimStart(s));
      var rest := SplitRuns(TrimStart(s));
      var r := SplitRuns(s);
      assert r == [""] + rest;
      DropCons("", rest);
      forall i, k | 0 <= i < |r| && 0 <= k < |r[i]| ensures !IsSpace(r[i][k]) {
        assert i > 0;
        assert r[i] == rest[i - 1];
      }
    } else {
      SplitRunsNoSpace(s[1..]);
      var rest := SplitRuns(s[1..]);
      var head := [s[0]] + rest[0];
      var r := SplitRuns(s);
      assert r == [head] + rest[1..];
      DropCons(head, rest[1..]);
      forall i, k | 0 <= i < |r| && 0 <= k < |r[i]| ensures !IsSpace(r[i][k]) {
        if i == 0 {
          if k > 0 { assert head[k] == rest[0][k - 1]; }
        } else {
          assert r[i] == rest[1..][i - 1] == rest[i];
        }
      }
    }
  }

  /** Without trailing whitespace no piece after the first is empty; the first is
      empty only when `s` starts with whitespace or is empty. */
  lemma {:induction false} SplitRunsNonEmpty(s: string)
    requires s != [] && !IsSpace(s[|s| - 1])
    ensures forall i :: 1 <= i < |SplitRuns(s)| ==> SplitRuns(s)[i] != []
    ensures !IsSpace(s[0]) ==> SplitRuns(s)[0] != []
    decreases |s|
  {
    var r := SplitRuns(s);
    if IsSpace(s[0]) {
      var t := TrimStart(s);
      TrimStartSuffix(s);
      assert t != [] by {
        TrimStartSkips(s);
        assert !IsSpace(s[|s| - 1]);
      }
      assert t[|t| - 1] == s[|s| - 1];
      SplitRunsNonEmpty(t);
      var rest := SplitRuns(t);
      assert r == [""] + rest;
      forall i | 1 <= i < |r| ensures r[i] != [] {
        assert r[i] == rest[i - 1];
      }
    } else if |s| > 1 {
      var u := s[1..];
      assert u[|u| - 1] == s[|s| - 1];
      SplitRunsNonEmpty(u);
      var rest := SplitRuns(u);
      assert r == [[s[0]] + rest[0]] + rest[1..];
      forall i | 1 <= i < |r| ensures r[i] != [] {
        assert r[i] == rest[i];
      }
    } else {
      assert r == [[s[0]] + SplitRuns(s[1..])[0]] + SplitRuns(s[1..])[1..];
    }
  }

  /** The pieces spell out the non-whitespace characters of `s`, in order. */
  lemma {:induction false} SplitRunsConcat(s: string)
    ensures Concat(SplitRuns(s)) == Squeeze(s)
    decreases |s|, 1
  {
    if |s| > 0 {
      if IsSpace(s[0]) { SplitRunsConcatSpace(s); } else { SplitRunsConcatLetter(s); }
    }
  }

  lemma {:induction false} SplitRunsConcatSpace(s: string)
    requires |s| > 0 && IsSpace(s[0])
    ensures Concat(SplitRuns(s)) == Squeeze(s)
    decreases |s|, 0
  {
    var t := TrimStart(s);
    TrimStartSkips(s);
    TrimStartSuffix(s);
    SplitRunsConcat(t);
    var rest := SplitRuns(t);
    assert ([""] + rest)[1..] == rest;
    SqueezeSkip(s, |s| - |t|);
  }

  lemma {:induction false} SplitRunsConcatLetter(s: string)
    requires |s| > 0 && !IsSpace(s[0])
    ensures Concat(SplitRuns(s)) == Squeeze(s)
    decreases |s|, 0
  {
    SplitRunsConcat(s[1..]);
    var rest := SplitRuns(s[1..]);
    var head := [s[0]] + rest[0];
    var tail := rest[1..];
    var r := SplitRuns(s);
    assert r == [head] + tail;
    DropCons(head, tail);
    var c := Concat(tail);
    assert Concat(r) == head + c;
    assert Concat(rest) == rest[0] + c;
    assert head + c == [s[0]] + (rest[0] + c);
    assert Squeeze(s) == [s[0]] + Squeeze(s[1..]);
  }

  /** For a trimmed, non-blank text the pieces of `split(/\s+/)` are exactly its
      words: each non-empty and free of whitespace, together spelling out its
      non-whitespace characters in order. */
  lemma SplitRunsWords(s: string)
    requires Trimmed(s) && s != []
    ensures forall i :: 0 <= i < |SplitRuns(s)| ==> IsWord(SplitRuns(s)[i])
    ensures Concat(SplitRuns(s)) == Squeeze(s)
  {
    SplitRunsNoSpace(s);
    SplitRunsNonEmpty(s);
    SplitRunsConcat(s);
  }

  /** The number of maximal runs of whitespace in `s`, each counted at its last
      character: a whitespace character followed by a non-whitespace one or by
      the end of `s`. */
  function SpaceRuns(s: string): nat
    decreases |s|
  {
    if |s| == 0 then 0
    else (if IsSpace(s[0]) && (|s| == 1 || !IsSpace(s[1])) then 1 else 0) + SpaceRuns(s[1..])
  }

  lemma {:induction false} SpaceRunsTrimStart(s: string)
    requires |s| > 0 && IsSpace(s[0])
    ensures SpaceRuns(s) == 1 + SpaceRuns(TrimStart(s))
    decreases |s|
  {
    assert TrimStart(s) == TrimStart(s[1..]);
    if |s| > 1 && IsSpace(s[1]) {
      SpaceRunsTrimStart(s[1..]);
    }
  }

  /** `split(/\s+/)` gives one piece more than there are runs of whitespace. */
  lemma {:induction false} SplitRunsCount(s: string)
    ensures |SplitRuns(s)| == 1 + SpaceRuns(s)
    decreases |s|
  {
    if |s| > 0 {
      if IsSpace(s[0]) {
        assert TrimStart(s) == TrimStart(s[1..]);
        SpaceRunsTrimStart(s);
        SplitRunsCount(TrimStart(s));
      } else {
        SplitRunsCount(s[1..]);
      }
    }
  }

  /** Dropping a whitespace prefix does not change the squeezed text. */
  lemma {:induction false} SqueezeSkip(s: string, n: nat)
    requires n <= |s|
    requires forall k :: 0 <= k < n ==> IsSpace(s[k])
    ensures Squeeze(s) == Squeeze(s[n..])
    decreases n
  {
    if n > 0 {
      SqueezeSkip(s[1..], n - 1);
      assert s[1..][n - 1..] == s[n..];
    }
  }

  // ---------------------------------------------------------------------------
  // Math.ceil of a ratio of integers

  /** `Math.ceil(a / b)` for a non-zero divisor of either sign. */
  function CeilDiv(a: int, b: int): (r: int)
    requires b != 0
    ensures b > 0 ==> (r - 1) * b < a <= r * b
    ensures b < 0 ==> r * b <= a < (r - 1) * b
  {
    if b > 0 then -((-a) / b) else -(a / (-b))
  }

  /** A non-negative amount over a negative divisor rounds up to at most zero. */
  lemma CeilDivNegative(a: nat, b: int)
    requires b != 0
    ensures b < 0 ==> CeilDiv(a, b) <= 0
  {
  }

  /** With a positive factor `c`, products compare as their other factors do. */
  lemma MulCancel(a: int, b: int, c: int)
    requires c > 0 && a * c < b * c
    ensures a < b
  {
    assert (b - a) * c == b * c - a * c;
  }

  // ---------------------------------------------------------------------------
  // Numbers printed in decimal, and parseInt

  function DigitChar(d: nat): char
    requires d < 10
  {
    ('0' as int + d) as char
  }

  /** `String(n)` for a non-negative integer. */
  function Decimal(n: nat): (r: string)
    ensures |r| >= 1
    ensures forall i :: 0 <= i < |r| ==> IsDigit(r[i])
  {
    if n < 10 then [DigitChar(n)] else Decimal(n / 10) + [DigitChar(n % 10)]
  }

  /** `String(i)` for an integer. */
  function IntString(i: int): string {
    if i < 0 then "-" + Decimal(-i) else Decimal(i)
  }

  predicate IsHexDigit(c: char) {
    IsDigit(c) || ('a' <= c <= 'f') || ('A' <= c <= 'F')
  }

  predicate IsRadixDigit(c: char, radix: nat) {
    if radix == 16 then IsHexDigit(c) else IsDigit(c)
  }

  function DigitValue(c: char): nat
    requires IsHexDigit(c)
  {
    if IsDigit(c) then c as int - '0' as int
    else if 'a' <= c <= 'f' then c as int - 'a' as int + 10
    else c as int - 'A' as int + 10
  }

  /** The longest prefix of `s` made of digits of the radix. */
  function DigitPrefix(s: string, radix: nat): (r: string)
    ensures |r| <= |s| && r == s[..|r|]
    ensures forall i :: 0 <= i < |r| ==> IsRadixDigit(r[i], radix)
  {
    if |s| > 0 && IsRadixDigit(s[0], radix) then [s[0]] + DigitPrefix(s[1..], radix) else ""
  }

  function DigitsValue(z: string, radix: nat): nat
    requires forall i :: 0 <= i < |z| ==> IsRadixDigit(z[i], radix)
  {
    if |z| == 0 then 0
    else
      var c := z[|z| - 1];
      assert IsRadixDigit(c, radix);
      DigitsValue(z[..|z| - 1], radix) * radix + DigitValue(c)
  }

  /** The digits after an optional sign: a `0x`/`0X` prefix selects radix 16,
      and the longest run of digits is read; no digit at all is `NaN` (`None`). */
  function ParseUnsigned(u: string): Option<nat> {
    var hex := |u| >= 2 && u[0] == '0' && (u[1] == 'x' || u[1] == 'X');
    var radix := if hex then 16 else 10;
    var z := DigitPrefix(if hex then u[2..] else u, radix);
    if z == [] then None else Some(DigitsValue(z, radix))
  }

  /** `parseInt(s)` with no radix argument; `None` is `NaN`. Leading whitespace and
      one sign are skipped. A missing query value (`undefined`) is read as the text
      "undefined", which has no digits. */
  function ParseInt(s: Option<string>): Option<int> {
    if s.None? then None
    else
      var t := TrimStart(s.value);
      var negative := |t| > 0 && t[0] == '-';
      var u := if |t| > 0 && (t[0] == '-' || t[0] == '+') then t[1..] else t;
      match ParseUnsigned(u)
      case None => None
      case Some(v) => Some(if negative then 0 - v else v)
  }

  lemma {:induction false} DecimalValue(n: nat)
    ensures DigitsValue(Decimal(n), 10) == n
  {
    if n >= 10 {
      DecimalValue(n / 10);
      var d := Decimal(n);
      assert d[..|d| - 1] == Decimal(n / 10);
    }
  }

  lemma {:induction false} DigitPrefixAll(s: string)
    requires forall i :: 0 <= i < |s| ==> IsDigit(s[i])
    ensures DigitPrefix(s, 10) == s
  {
    if |s| > 0 {
      DigitPrefixAll(s[1..]);
      assert [s[0]] + s[1..] == s;
    }
  }

  lemma ParseUnsignedDecimal(n: nat)
    ensures ParseUnsigned(Decimal(n)) == Some(n)
  {
    var d := Decimal(n);
    DecimalValue(n);
    DigitPrefixAll(d);
    if |d| >= 2 { assert IsDigit(d[1]); }
  }

  lemma ParseIntDecimal(n: nat)
    ensures ParseInt(Some(Decimal(n))) == Some(n)
  {
    var d := Decimal(n);
    ParseUnsignedDecimal(n);
    assert IsDigit(d[0]);
    assert !IsSpace(d[0]);
    assert TrimStart(d) == d;
    assert d[0] != '-' && d[0] != '+';
  }

  lemma ParseIntNegDecimal(n: nat)
    requires n > 0
    ensures ParseInt(Some("-" + Decimal(n))) == Some(-(n as int))
  {
    var d := Decimal(n);
    ParseUnsignedDecimal(n);
    var s := "-" + d;
    assert TrimStart(s) == s;
    assert s[1..] == d;
  }

  /** Printing an integer and reading it back with `parseInt` is the identity. */
  lemma {:induction false} ParseIntString(i: int)
    ensures ParseInt(Some(IntString(i))) == Some(i)
  {
    if i < 0 {
      var n: nat := -i;
      assert IntString(i) == "-" + Decimal(n);
      ParseIntNegDecimal(n);
    } else {
      var n: nat := i;
      assert IntString(i) == Decimal(n);
      ParseIntDecimal(n);
    }
  }

  // ---------------------------------------------------------------------------
  // The full-name pattern ^[A-Za-z]+( [A-Za-z]+)+$

  /** The pattern, as the automaton of the regular expression: a first letter,
      then `InFirstWord`. */
  predicate IsFullName(s: string) {
    |s| > 0 && IsLetter(s[0]) && InFirstWord(s[1..])
  }

  /** What may follow inside the first word: `[A-Za-z]*( [A-Za-z]+)+`. */
  predicate InFirstWord(s: string)
    decreases |s|
  {
    |s| > 0 &&
    ((IsLetter(s[0]) && InFirstWord(s[1..])) || (s[0] == ' ' && StartsWord(s[1..])))
  }

  /** At the start of a later word: `[A-Za-z]+( [A-Za-z]+)*`. */
  predicate StartsWord(s: string)
    decreases |s|, 1
  {
    |s| > 0 && IsLetter(s[0]) && InLaterWord(s[1..])
  }

  /** Inside a later word: `[A-Za-z]*( [A-Za-z]+)*`. */
  predicate InLaterWord(s: string)
    decreases |s|, 0
  {
    |s| == 0 ||
    (IsLetter(s[0]) && InLaterWord(s[1..])) || (s[0] == ' ' && StartsWord(s[1..]))
  }

  /** Every piece after the first is a non-empty run of letters. */
  predicate LaterPiecesAreWords(p: seq<string>) {
    forall i :: 1 <= i < |p| ==> p[i] != [] && AllLetters(p[i])
  }

  lemma AllLettersCons(c: char, w: string)
    ensures AllLetters([c] + w) <==> IsLetter(c) && AllLetters(w)
  {
    var cw := [c] + w;
    assert cw[0] == c;
    if IsLetter(c) && AllLetters(w) {
      forall k | 0 <= k < |cw| ensures IsLetter(cw[k]) {
        if k > 0 { assert cw[k] == w[k - 1]; }
      }
    }
    if AllLetters(cw) {
      forall k | 0 <= k < |w| ensures IsLetter(w[k]) {
        assert w[k] == cw[k + 1];
      }
    }
  }

  /** The pieces of a split at a non-separator character. */
  lemma SplitOnCons(s: string, c: char)
    requires |s| > 0 && s[0] != c
    ensures var rest := SplitOn(s[1..], c);
      SplitOn(s, c) == [[s[0]] + rest[0]] + rest[1..] &&
      (LaterPiecesAreWords(SplitOn(s, c)) <==> LaterPiecesAreWords(rest))
  {
    var rest := SplitOn(s[1..], c);
    var p := SplitOn(s, c);
    assert forall i :: 1 <= i < |p| ==> p[i] == rest[i];
  }

  /** The pieces of a split at a separator character. */
  lemma SplitOnSep(s: string, c: char)
    requires |s| > 0 && s[0] == c
    ensures var rest := SplitOn(s[1..], c);
      SplitOn(s, c) == [""] + rest &&
      (LaterPiecesAreWords(SplitOn(s, c)) <==>
        rest[0] != [] && AllLetters(rest[0]) && LaterPiecesAreWords(rest))
  {
    var rest := SplitOn(s[1..], c);
    var p := SplitOn(s, c);
    assert forall i :: 1 <= i < |p| ==> p[i] == rest[i - 1];
    if rest[0] != [] && AllLetters(rest[0]) && LaterPiecesAreWords(rest) {
      forall i | 1 <= i < |p| ensures p[i] != [] && AllLetters(p[i]) {
        if i > 1 { assert p[i] == rest[i - 1]; }
      }
    }
    if LaterPiecesAreWords(p) {
      assert p[1] == rest[0];
      forall i | 1 <= i < |rest| ensures rest[i] != [] && AllLetters(rest[i]) {
        assert rest[i] == p[i + 1];
      }
    }
  }

  /** The words of a string that matches the pattern are the pieces of its split on
      a space: it matches exactly when there are at least two pieces and each is a
      non-empty run of ASCII letters. */
  lemma FullNameWords(s: string)
    ensures IsFullName(s) <==>
      (var p := SplitOn(s, ' ');
       |p| >= 2 && p[0] != [] && AllLetters(p[0]) && LaterPiecesAreWords(p))
  {
    if |s| > 0 {
      InFirstWordPieces(s[1..]);
      if s[0] != ' ' {
        SplitOnCons(s, ' ');
        AllLettersCons(s[0], SplitOn(s[1..], ' ')[0]);
      }
    }
  }

  /** A full name splits on its spaces into two or more words of letters. */
  lemma FullNameHasTwoWords(s: string)
    requires IsFullName(s)
    ensures var p := SplitOn(s, ' ');
      |p| >= 2 && forall i :: 0 <= i < |p| ==> p[i] != [] && AllLetters(p[i])
  {
    FullNameWords(s);
    var p := SplitOn(s, ' ');
    assert LaterPiecesAreWords(p);
    forall i | 0 <= i < |p| ensures p[i] != [] && AllLetters(p[i]) {
      if i == 0 { assert p[0] != [] && AllLetters(p[0]); }
    }
  }

  lemma {:induction false} InFirstWordPieces(s: string)
    ensures InFirstWord(s) <==>
      (var p := SplitOn(s, ' '); |p| >= 2 && AllLetters(p[0]) && LaterPiecesAreWords(p))
    decreases |s|
  {
    if |s| > 0 {
      if s[0] == ' ' {
        StartsWordPieces(s[1..]);
        SplitOnSep(s, ' ');
      } else {
        InFirstWordPieces(s[1..]);
        SplitOnCons(s, ' ');
        AllLettersCons(s[0], SplitOn(s[1..], ' ')[0]);
      }
    }
  }

  lemma {:induction false} StartsWordPieces(s: string)
    ensures StartsWord(s) <==>
      (var p := SplitOn(s, ' '); p[0] != [] && AllLetters(p[0]) && LaterPiecesAreWords(p))
    decreases |s|, 1
  {
    if |s| > 0 && s[0] != ' ' {
      InLaterWordPieces(s[1..]);
      SplitOnCons(s, ' ');
      AllLettersCons(s[0], SplitOn(s[1..], ' ')[0]);
    }
  }

  lemma {:induction false} InLaterWordPieces(s: string)
    ensures InLaterWord(s) <==>
      (var p := SplitOn(s, ' '); AllLetters(p[0]) && LaterPiecesAreWords(p))
    decreases |s|, 0
  {
    if |s| > 0 {
      if s[0] == ' ' {
        StartsWordPieces(s[1..]);
        SplitOnSep(s, ' ');
      } else {
        InLaterWordPieces(s[1..]);
        SplitOnCons(s, ' ');
        AllLettersCons(s[0], SplitOn(s[1..], ' ')[0]);
      }
    }
  }
}

=== FILE: UsernameValidation.dfy ===
/** The admin client's username-availability hook: the classification of one
    finished check and the validity flag. Debounce timing is not modelled; the
    debounced value is a parameter. */
module UsernameValidation {
  import opened Wrappers
  import opened Json
  import opened Text
  import opened Http
  import UsersController

  const CharsetMessage := "Username can contain only letters, numbers and _"
  const CheckFailed := "Error checking username"

  /** The request completed with a body that can be destructured. */
  predicate Answered(fetched: Outcome<Received>) {
    fetched.Returned? && fetched.value.body.Some? && !fetched.value.body.value.JNull?
  }

  /** The error after a request was made: the server's `message` for a 409 with
      a truthy `exists` or for a 400, "" for a 200 with a falsy `exists`, and
      "Error checking username" for anything else, a failed fetch, a body that
      does not parse, or a `null` body that cannot be destructured. `None` is
      an `undefined` message. */
  function RequestError(fetched: Outcome<Received>): (r: Option<Json>)
    ensures fetched.Threw? ==> r == Some(JStr(CheckFailed))
    ensures fetched.Returned? && (fetched.value.body.None? || fetched.value.body == Some(JNull)) ==>
      r == Some(JStr(CheckFailed))
    ensures fetched.Returned? && fetched.value.status !in {409, 200, 400} ==> r == Some(JStr(CheckFailed))
    ensures (Answered(fetched) && fetched.value.status == 409 &&
      TruthyOpt(Get(fetched.value.body.value, "exists"))) ==>
      r == Get(fetched.value.body.value, "message")
    ensures (Answered(fetched) && fetched.value.status == 200 &&
      !TruthyOpt(Get(fetched.value.body.value, "exists"))) ==>
      r == Some(JStr(""))
    ensures Answered(fetched) && fetched.value.status == 400 ==>
      r == Get(fetched.value.body.value, "message")
    ensures (Answered(fetched) && fetched.value.status in {409, 200} &&
      (fetched.value.status == 409 <==> !TruthyOpt(Get(fetched.value.body.value, "exists")))) ==>
      r == Some(JStr(CheckFailed))
  {
    match fetched
    case Threw => Some(JStr(CheckFailed))
    case Returned(res) =>
      if res.body.None? || res.body.value.JNull? then Some(JStr(CheckFailed))
      else
        var exists_ := Get(res.body.value, "exists");
        var message := Get(res.body.value, "message");
        if res.status == 409 && TruthyOpt(exists_) then message
        else if res.status == 200 && !TruthyOpt(exists_) then Some(JStr(""))
        else if res.status == 400 then message
        else Some(JStr(CheckFailed))
  }

  class UsernameCheckState {
    var usernameError: Option<Json>
    var isCheckingUsername: bool

    constructor ()
      ensures usernameError == Some(JStr("")) && !isCheckingUsername
    {
      usernameError := Some(JStr(""));
      isCheckingUsername := false;
    }

    /** The hook's `checkUsername`, with the outcome of the request as a
        parameter. Returns whether the request was made. */
    method CheckUsername(username: string, fetched: Outcome<Received>) returns (requested: bool)
      modifies this
      ensures !isCheckingUsername
      ensures requested <==> IsUsernameText(username)
      ensures username == "" ==> usernameError == Some(JStr(""))
      ensures username != "" && !IsUsernameText(username) ==> usernameError == Some(JStr(CharsetMessage))
      ensures requested ==> usernameError == RequestError(fetched)
    {
      isCheckingUsername := true;
      if |username| < 1 {
        usernameError := Some(JStr(""));
        isCheckingUsername := false;
        return false;
      }
      if !IsUsernameText(username) {
        usernameError := Some(JStr(CharsetMessage));
        isCheckingUsername := false;
        return false;
      }
      usernameError := Some(JStr(""));
      requested := true;
      usernameError := RequestError(fetched);
      isCheckingUsername := false;
    }

    /** The effect on a new debounced value: check it, or clear the state when
        it is empty. */
    method OnDebounced(debounced: string, fetched: Outcome<Received>)
      modifies this
      ensures !isCheckingUsername
      ensures debounced == "" ==> usernameError == Some(JStr(""))
      ensures IsUsernameText(debounced) ==> usernameError == RequestError(fetched)
      ensures debounced != "" && !IsUsernameText(debounced) ==> usernameError == Some(JStr(CharsetMessage))
    {
      if debounced != "" {
        var _ := CheckUsername(debounced, fetched);
      } else {
        isCheckingUsername := false;
        usernameError := Some(JStr(""));
      }
    }

    /** The effect while typing: a non-empty value that differs from the
        debounced one marks a check as pending. */
    method OnTyping(username: string, debounced: string)
      modifies this
      ensures username != debounced && |username| >= 1 ==> isCheckingUsername
      ensures !(username != debounced && |username| >= 1) ==> isCheckingUsername == old(isCheckingUsername)
      ensures usernameError == old(usernameError)
    {
      if username != debounced && |username| >= 1 {
        isCheckingUsername := true;
      }
    }

    /** `isValid`: no error, a non-empty name, and no pending debounce. */
    predicate IsValid(username: string, debounced: string): (valid: bool)
      reads this
      ensures valid ==> username != "" && debounced == username
      ensures usernameError.Some? && usernameError.value.JStr? && usernameError.value.s != "" ==> !valid
      ensures usernameError == Some(JStr("")) && username != "" && debounced == username ==> valid
    {
      !TruthyOpt(usernameError) && |username| > 0 && debounced == username
    }
  }

  /** The client makes a request exactly for the names the server would look
      up, and for those the server's answer classifies as it means: a taken name
      shows the server's "Username already exists!", a free one clears the error,
      and a failed lookup shows "Error checking username". */
  lemma {:induction false} ClientMatchesServer(username: string, reply: Outcome<Json>, statusText: string)
    requires IsUsernameText(username)
    ensures var s := UsersController.CheckUsername(Some(username), reply);
      s.Answered? && s.lookup.Some? &&
      var e := RequestError(Returned(Delivered(s.response, statusText)));
      (reply.Returned? && Truthy(reply.value) ==> e == Some(JStr(UsersController.TakenMessage))) &&
      (reply.Returned? && !Truthy(reply.value) ==> e == Some(JStr(""))) &&
      (reply.Threw? ==> e == Some(JStr(CheckFailed)))
  {
    var s := UsersController.CheckUsername(Some(username), reply);
    var body := s.response.body.value;
    if reply.Returned? {
      assert Get(body, "exists") == Some(reply.value);
    } else {
      assert Get(body, "exists").None?;
    }
  }

  /** The client's character check is the server's on every name the client
      sends; the server alone also passes the Kelvin sign, which it lower-cases
      to 'k' before its own check. */
  lemma ClientCharsetIsServerCharset(username: string, reply: Outcome<Json>)
    requires username != ""
    ensures IsUsernameText(username) ==>
      UsersController.CheckUsername(Some(username), reply).response.status != 400
    ensures IsServerNameText(username) <==>
      UsersController.CheckUsername(Some(username), reply).response.status != 400
  {
  }

  /** A name made of the Kelvin sign is refused by the client's check but
      looked up by the server as "k". */
  lemma KelvinSignDiverges(reply: Outcome<Json>)
    ensures !IsUsernameText([KelvinSign])
    ensures var s := UsersController.CheckUsername(Some([KelvinSign]), reply);
      s.Answered? && s.lookup == Some("k")
  {
    var name := [KelvinSign];
    assert !IsWordChar(name[0]);
    assert ToLower(name) == "k" by {
      assert ToLower(name)[0] == LowerChar(KelvinSign) == 'k';
    }
    assert IsServerNameText(name);
  }
}

=== FILE: UsersController.dfy ===
/** The username-availability check of the server. The query value is
    lower-cased, checked for emptiness and for the character class, and only
    then looked up in the store, whose answer is a parameter. */
module UsersController {
  import opened Wrappers
  import opened Json
  import opened Text
  import opened Http

  /** A missing query value makes `toLowerCase` throw before any response is
      sent (`Rejected`); otherwise the handler answers, after looking up the
      lower-cased name or not. */
  datatype CheckReply = Rejected | Answered(lookup: Option<string>, response: Response)

  const EmptyMessage := "Please provide a username"
  const CharsetMessage := "Username can contain only letters, numbers and _"
  const TakenMessage := "Username already exists!"
  const FailedMessage := "Something went wrong! Failed to check username"

  function CheckUsername(query: Option<string>, reply: Outcome<Json>): (r: CheckReply)
    ensures r.Rejected? <==> query.None?
    ensures r.Answered? ==> r.response.status in {404, 400, 409, 200, 500}
    ensures r.Answered? ==> (r.response.status == 404 <==> query.value == "")
    ensures r.Answered? && r.response.status == 404 ==> r.response == Reply(404, EmptyMessage)
    ensures r.Answered? ==>
      (r.response.status == 400 <==> query.value != "" && !IsServerNameText(query.value))
    ensures r.Answered? && r.response.status == 400 ==> r.response == Reply(400, CharsetMessage)
    ensures r.Answered? ==>
      (r.lookup.Some? <==> IsServerNameText(query.value)) &&
      (r.lookup.Some? ==> r.lookup.value == ToLower(query.value))
    ensures r.Answered? ==>
      (r.response.status == 409 <==>
        IsServerNameText(query.value) && reply.Returned? && Truthy(reply.value))
    ensures r.Answered? && r.response.status == 409 ==>
      r.response.body == Some(JObj(map["exists" := reply.value, "message" := JStr(TakenMessage)]))
    ensures r.Answered? && r.response.status == 200 ==>
      reply.Returned? && !Truthy(reply.value) &&
      r.response.body == Some(JObj(map["exists" := reply.value]))
    ensures r.Answered? && r.response.status == 500 ==>
      r.response == Reply(500, FailedMessage) && reply.Threw?
  {
    if query.None? then Rejected
    else
      var username := ToLower(query.value);
      LowerKeepsWordChars(query.value);
      if username == "" then Answered(None, Reply(404, EmptyMessage))
      else if !IsUsernameText(username) then Answered(None, Reply(400, CharsetMessage))
      else match reply
        case Returned(exists_) =>
          if Truthy(exists_) then
            Answered(Some(username),
              Response(409, Some(JObj(map["exists" := exists_, "message" := JStr(TakenMessage)]))))
          else Answered(Some(username), Response(200, Some(JObj(map["exists" := exists_]))))
        case Threw => Answered(Some(username), Reply(500, FailedMessage))
  }

  /** Lower-casing is idempotent. */
  lemma LowerIdempotent(s: string)
    ensures ToLower(ToLower(s)) == ToLower(s)
  {
  }

  /** Two query values that differ only in letter case get the same lookup and
      the same response. */
  lemma CaseInsensitive(a: string, b: string, reply: Outcome<Json>)
    requires ToLower(a) == ToLower(b)
    ensures CheckUsername(Some(a), reply) == CheckUsername(Some(b), reply)
  {
    LowerKeepsWordChars(a);
    LowerKeepsWordChars(b);
  }
}

=== FILE: Wrappers.dfy ===
/** Option and Result, used for JavaScript's `undefined` and for outcomes that fail. */
module Wrappers {

  datatype Option<+T> = None | Some(value: T) {
    function GetOr(default: T): T {
      match this
      case Some(v) => v
      case None => default
    }
  }

  datatype Result<+R, +E> = Ok(value: R) | Err(error: E)
}
